=== FILE: README.md ===
# PhiChat chat core in Dafny

This project models the real-time core of PhiChat, a FastAPI chat server. It covers:

- **The socket registries.** `ConnectionManager` holds the chat sockets per user and per conversation room. `NotificationManager` holds the notification sockets per user.
- **The fan-out.** A message is broadcast to a room. A notification is sent to a user's notification sockets.
- **The event dispatch.** `dispatch_event` and the handlers for sending messages, receipts, reconnect and resume.
- **The socket sessions.** These are `websocket_chat` and `websocket_notifications`.
- **The services.** Message, unread-counter, friendship, conversation and conversation-settings.
- **The HTTP routes.** These are the conversation and message routes.
- **The error handlers.** They map exceptions to JSON error responses.

Persistence is modelled as immutable tables held in a `Db` value:

- messages, conversations and friendships are sequences of rows, in store order;
- unread counters and settings are maps keyed by `(conversation id, user id)`. The source tables have only a surrogate `id` key and no uniqueness constraint on that pair. Only the get-or-create functions, run one at a time, keep them to one row per pair, and the map encodes that assumption.

Every operation is a pure function from the state before to the state after. An exception is a `Result.Err`, or the `raised` field of an `Outcome`. A handler can fail after it has already changed state or sent messages, and an `Outcome` keeps those earlier effects.

**Python keys.** Python values used as dictionary keys are modelled as `PyVal`. The types `PyStr`, `PyUuid` and `PyNone` are distinct, so a `str` key never equals a `uuid.UUID` key. This is Python's behaviour, and three of the findings below rest on it.

**Unspecified behaviour becomes parameters.** The model takes these as inputs:

- Set iteration order is `env.iter`. Each set gets some enumeration of its elements.
- Send failures are `env.fails`.
- The clock is `env.now`.
- `uuid.uuid4()` is `env.freshId`.

**Handler versions.** The handlers are modelled as written. Each finding has its own pair of members:

- the as-written member is what the rest of the chain uses;
- the corrected member is a separate definition next to it, with the intended property proved.

**What the code does, as modelled:**

- `broadcast_to_conversation` iterates the live room set and discards from it inside the loop (finding 4). `send_notifications` iterates a `list(...)` copy instead.
- `handle_send_message` in `messaging_handler.py` reads the receiver's counter without incrementing it (finding 5).
- No presence tracker exists. Presence is the `any(ws in room ...)` check the handlers make (`Handlers.UserInRoom`).
- `mark_read` refuses anyone but the message's receiver, so a sender cannot mark their own message read (`Receipts.ReceiptFromNonReceiver`, `MessageService.MarkRefusesNonReceiver`).

**Duplicate handler.** `handle_message_delivered` in `app/websocket/handlers/receipts_handler.py` is the same as in `app/websocket/handlers/receipts.py`. `Receipts.HandleReceipt` models both.

## Model

| member | source | states |
|---|---|---|
| Values.ParseUuid | app/utils/uuid_util.py:17 | the model accepts only the 8-4-4-4-12 hexadecimal layout, in either case, and the UUID it yields prints as the lower-cased text; this is a subset of the spellings `uuid.UUID(text)` takes |
| Values.ParseStrRoundTrip | app/utils/uuid_util.py:14-17 | parsing the printed form of a UUID gives back the same UUID |
| Values.StrParseRoundTrip | app/utils/uuid_util.py:17 | a canonical text parses to a UUID that prints as that same text |
| UuidUtil.ToUuid | app/utils/uuid_util.py:5-19 | a UUID passes through unchanged; text succeeds iff it has the hyphenated layout the model accepts (see `Values.ParseUuid`); anything else raises `AppException("Invalid UUID: " + str(value))`, so `None` gives "Invalid UUID: None" |
| UuidUtil.ToUuidOfStr | app/utils/uuid_util.py:14-17 | `to_uuid(str(u))` is `u` |
| ConnectionManager.Add | app/websocket/manager.py:13-16 | the key gains an entry (created if missing) that also holds the socket, and every other key's set is unchanged |
| ConnectionManager.Discard | app/websocket/manager.py:19-23 | the socket leaves the key's set; the entry stays iff something is left in it; an absent key is a no-op; other keys are untouched |
| ConnectionManager.AddDiscardRoundTrip | app/websocket/manager.py:10-23 | registering a socket that was not registered and then unregistering it under the same key restores the map exactly |
| ConnectionManager.Connect | app/websocket/manager.py:10-16 | the socket is among the user's active sockets, other users' sets are unchanged, and rooms are untouched |
| ConnectionManager.Disconnect | app/websocket/manager.py:18-23 | the socket leaves the user's set; the user stays registered iff other sockets remain; an unknown user is a no-op |
| ConnectionManager.Join | app/websocket/manager.py:25-29 | the socket is in the room, other rooms are unchanged, and user registrations are untouched |
| ConnectionManager.Leave | app/websocket/manager.py:31-36 | the socket leaves the room; the room stays iff other sockets remain; an unknown room is a no-op |
| ConnectionManager.ConnectIdempotent | app/websocket/manager.py:10-16 | connecting the same socket twice is the same as connecting it once |
| ConnectionManager.JoinIdempotent | app/websocket/manager.py:25-29 | joining the same room twice is the same as joining once |
| ConnectionManager.BookkeepingKeepsTidy | app/websocket/manager.py:10-36 | none of the four operations leaves a key with an empty set behind |
| ConnectionManager.ConnectDisconnectRoundTrip | app/websocket/manager.py:10-36 | connect followed by disconnect, and join followed by leave, of a new socket restore the registry |
| ConnectionManager.DeliverUntilFailure | app/websocket/manager.py:42-50 | sends go out in iteration order up to the first socket whose send fails, and that socket is reported |
| ConnectionManager.BroadcastToConversation | app/websocket/manager.py:38-50 | unknown room: nothing happens; no failing socket: every socket gets the message once and nothing changes; a failing socket: only the sockets before it get the message, it alone is discarded, and `RuntimeError("Set changed size during iteration")` escapes |
| ConnectionManager.BroadcastSnapshot | app/websocket/manager.py:38-50 | iterating a copy of the room: every non-failing socket gets the message exactly once, exactly the failing ones are removed, and nothing is raised |
| ConnectionManager.LiveSetBroadcastStopsEarly | app/websocket/manager.py:42-50 | for a room {a, b} where the send to a fails and a comes first: b gets nothing and the error escapes, whereas the snapshot broadcast reaches b |
| NotificationManager.Connect | app/websocket/notification_manager.py:9-12 | `setdefault(...).add`: the socket is registered under the user and other users are unchanged |
| NotificationManager.Disconnect | app/websocket/notification_manager.py:14-19 | the socket is removed, an emptied entry is deleted, and an unknown user is a no-op |
| NotificationManager.ConnectIdempotent | app/websocket/notification_manager.py:9-12 | connecting twice equals connecting once |
| NotificationManager.NotifyLoopSockets | app/websocket/notification_manager.py:24-30 | the loop over the snapshot removes exactly the failing sockets from the user's entry, deletes it if emptied, and leaves other users alone |
| NotificationManager.SendNotifications | app/websocket/notification_manager.py:21-30 | an unknown user gets nothing; otherwise each of the user's sockets present at call time whose send succeeds gets the payload exactly once, and exactly the failing ones are unregistered |
| NotificationManager.SendNotificationsNoFailure | app/websocket/notification_manager.py:21-30 | with no failing socket, every socket of the user gets the payload in iteration order and the registry is unchanged |
| Handlers.Broadcast | app/websocket/manager.py:38-50 | a handler's broadcast sends only the payload and only to room members, and changes no other room and no store; with none failing, everyone is reached in iteration order and nothing changes; with a failing member, exactly the sockets iterated before the first failing one are reached, that socket alone leaves the room, and `RuntimeError` is raised |
| Handlers.Notify | app/websocket/notification_manager.py:21-30 | a handler's notification reaches each live notification socket of the user once and raises nothing; the user's entry keeps exactly the sockets whose send succeeded; other users' entries are untouched |
| Handlers.UserInRoom | app/websocket/handlers/messaging_handler.py:49-53 | the presence check holds iff one of the user's chat sockets is also in the room |
| Handlers.NotifyUnlessPresent | app/websocket/handlers/messaging_handler.py:49-66 | a user present in the room is not notified at all; an absent user is notified on every live notification socket, and their entry keeps exactly those sockets |
| Events.HandlerFor | app/websocket/events.py:8-24 | a handler is found iff the event value is one of the strings "typing_start", "typing_stop" or "send_message" |
| Events.HandlerForName | app/websocket/events.py:8-12 | each handler is found under its own table key |
| Events.Dispatch | app/websocket/events.py:15-40 | an unknown event gets an error reply to the sender only, with the state unchanged; typing events raise `AttributeError`; `send_message` runs exactly `Messaging.HandleSendMessage`; no event touches notification sockets, counters, conversations, settings or active users, and at most one message is appended |
| Events.OnlySendMessageStores | app/websocket/events.py:24-40 | if the store changes at all, the event was "send_message" and exactly one message from the caller in the caller's conversation was appended |
| Messaging.HandleSendMessage | app/websocket/handlers/messaging.py:9-38 | a rejected message changes nothing and sends nothing; a stored one is appended with the caller as sender, and `new_message` goes only to room members; everyone is reached iff no send fails; otherwise `RuntimeError` is raised after the members before the first failing one in iteration order were reached, in that order, and the room loses exactly that failing socket; other rooms are unchanged |
| Messaging.BlankContentSendsNothing | app/websocket/handlers/messaging.py:17-25 | missing or whitespace-only content raises "Message content cannot be empty", with nothing stored or sent |
| MessagingHandler.Announce | app/websocket/handlers/messaging_handler.py:33-75 | the room first gets `new_message`; if the receiver is away, a `message` notification follows; then the room gets `unread_update` with the given count; a failing room socket stops the sequence in the first broadcast: only the room sockets iterated before the first failing one got `new_message`, that socket alone left the room, no other room changed, nothing was notified, and `RuntimeError` is raised |
| MessagingHandler.HandleSendMessage | app/websocket/handlers/messaging_handler.py:11-75 | the message is stored, the receiver's counter row is created if missing, and the count reported is the counter as it was before the message; the announcement, including a failing room socket, is as `MessagingHandler.Announce` states |
| MessagingHandler.AnnouncedPayloads | app/websocket/handlers/messaging_handler.py:35-75 | only the three payloads of the handler are sent, and `unread_update` carries the count it was given |
| MessagingHandler.SendNeverCounts | app/websocket/handlers/messaging_handler.py:29-75 | starting from all-zero counters, the counters stay zero and every `unread_update` reports 0 |
| MessagingHandler.HandleSendMessageCounting | app/websocket/handlers/messaging_handler.py:22-31 | with an increment before the read, the receiver's counter is one more than before and is the count announced |
| MessagingHandler.CountingSendCounts | app/websocket/handlers/messaging_handler.py:22-31 | from all-zero counters, a stored message sets the receiver's counter to 1, and the last payload the room gets is `unread_update` with 1 |
| Receipts.HandleReceipt | app/websocket/handlers/receipts.py:9-52 | only the message's receiver can mark it; the store records the status and time; the room is told with the receipt time; with a failing socket, only the sockets iterated before the first failing one are told, that socket alone leaves the room, no other room changes, and `RuntimeError` is raised |
| Receipts.ReceiptFromNonReceiver | app/websocket/handlers/receipts.py:18-30 | a receipt from anyone but the receiver raises "Not allowed" and changes and sends nothing |
| ReceiptsHandler.AnnounceRead | app/websocket/handlers/receipts_handler.py:50-85 | the room gets `message_read`, then `unread_update` with 0, then the notified user gets a `message_read` notification unless present in the room; a failing room socket stops the first broadcast: only the sockets iterated before it got `message_read`, that socket alone left the room, no other room changed, and `RuntimeError` is raised |
| ReceiptsHandler.AnnounceReadToAll | app/websocket/handlers/receipts_handler.py:50-85 | with no failing room socket, `message_read` and then `unread_update` with 0 reach the whole room in iteration order, followed by the notification unless the notified user is present; only that user's notification entry can change |
| ReceiptsHandler.HandleReadNotifying | app/websocket/handlers/receipts_handler.py:35-85 | a refused mark raises with nothing changed; a failed counter reset raises after the mark is stored; otherwise the message is marked read, the reader's counter for the conversation is 0, and the read is announced to the chosen user as `ReceiptsHandler.AnnounceRead` states, including a failing room socket |
| ReceiptsHandler.HandleRead | app/websocket/handlers/receipts_handler.py:35-85 | as written: a refused mark raises with nothing changed; a failed counter reset raises after the mark is stored; otherwise the message is read, the reader's counter is 0, the read is announced, and the notification is addressed to the reader, i.e. the caller, who `mark_read` ensures is the message's receiver; a failing room socket stops the announcement as in `ReceiptsHandler.AnnounceRead` |
| ReceiptsHandler.PresentUserIsNotNotified | app/websocket/handlers/receipts_handler.py:67-74 | when the addressed user is in the room, only the two room broadcasts go out and the notification registry is unchanged |
| ReceiptsHandler.ReadNoticeNeverSent | app/websocket/handlers/receipts_handler.py:67-85 | during the reader's own session, no `message_read` notification is ever sent |
| ReceiptsHandler.HandleReadNotifyingSender | app/websocket/handlers/receipts_handler.py:67-85 | corrected: the same refusals, store effect and room broadcasts as the handler as written, with the notification addressed to the message's sender |
| ReceiptsHandler.SenderIsToldOfRead | app/websocket/handlers/receipts_handler.py:74-85 | when no room socket fails, a sender with no chat socket in the room gets the `message_read` notification on every notification socket whose send succeeds |
| ReconnectHandler.MissedList | app/websocket/handlers/reconnect_handler.py:30-38 | one entry per missed message, in the same order, with its id, content, sender and time |
| ReconnectHandler.HandleReconnect | app/websocket/handlers/reconnect_handler.py:12-40 | a parse or fetch failure raises with nothing sent; otherwise exactly one reply, to the requesting socket only, whose `missed_messages` has one entry per fetched message, in order, with that message's id, content, sender and send time; the state is never changed |
| ReconnectHandler.ResumeWith | app/websocket/handlers/reconnect_handler.py:43-69 | a malformed id raises; otherwise the socket joins the room under the id's string form, the caller's counter is set to 0, the zero count is broadcast to the chosen key, and the caller gets `resume_success`; a failing socket under that key stops the broadcast: only the sockets iterated before it got the count, that socket alone left that room, other rooms keep the join, no reply is sent, and `RuntimeError` is raised |
| ReconnectHandler.HandleResume | app/websocket/handlers/reconnect_handler.py:43-69 | as written: a malformed id raises; otherwise the socket joins the string-keyed room, the counter is reset, the zero count goes to the room under the UUID key, and the caller then gets `resume_success`; a failing socket under the UUID key stops the broadcast as in `ReconnectHandler.ResumeWith` |
| ReconnectHandler.ResumeUpdateReachesNobody | app/websocket/handlers/reconnect_handler.py:54-65 | with string-keyed rooms, the `unread_update` is sent to no socket, and the caller receives only `resume_success` |
| ReconnectHandler.HandleResumeCorrected | app/websocket/handlers/reconnect_handler.py:58-65 | corrected: as the handler as written, but the zero count goes to the string-keyed room the socket just joined, before the caller gets `resume_success` |
| ReconnectHandler.ResumeUpdateReachesRoom | app/websocket/handlers/reconnect_handler.py:58-69 | when no socket fails, the zero count reaches every socket of the room, including the caller, and then the caller gets `resume_success` |
| WsChat.Admit | app/api/v1/ws.py:16-39 | admitted iff authenticated, the path id parses, the conversation exists and the user takes part in it; a malformed id escapes as an exception; a missing user, an unknown conversation and a non-participant all close the socket |
| WsChat.Open | app/api/v1/ws.py:41-42 | the socket is added to the entry under `str(user.id)` and to the room named by the raw path, which keep their other sockets; other users and rooms are unchanged |
| WsChat.RunLoop | app/api/v1/ws.py:44-59 | the loop never touches notification sockets, active users, counters or conversations, and only appends messages |
| WsChat.RunLoopAppend | app/api/v1/ws.py:45-57 | frames are handled one at a time in order: running `a + b` is running `a`, then `b` if `a` raised nothing |
| WsChat.Teardown | app/api/v1/ws.py:60-62 | the socket is removed from the room and from the user entry under the given key, which keep their other sockets; other rooms and other user keys are unchanged |
| WsChat.SessionWith | app/api/v1/ws.py:14-62 | a refused session registers nothing; a finished one leaves the room and leaves the notification sockets and counters as they were |
| WsChat.Session | app/api/v1/ws.py:14-62 | the session as written: refused iff not admitted, and the socket always leaves the room |
| WsChat.SessionLeaksSocket | app/api/v1/ws.py:41-62 | as written, the closed socket stays among the user's active sockets after the session ends |
| WsChat.SessionCorrected | app/api/v1/ws.py:60-62 | disconnecting under the registration key leaves no trace of the socket among the user's active sockets |
| WsChat.SessionRestoresActiveUsers | app/api/v1/ws.py:41-62 | the corrected session gives the active-user registry back exactly as it was before the session |
| WsNotifications.Open | app/api/v1/ws_notifications.py:18 | an unauthenticated session registers nothing; an authenticated socket is added to the entry under `str(user.id)`, which keeps its other sockets; other users are unchanged |
| WsNotifications.Close | app/api/v1/ws_notifications.py:25-26 | the socket is removed from that user's entry, which keeps its other sockets; other users are unchanged |
| WsNotifications.OpenCloseRoundTrip | app/api/v1/ws_notifications.py:18-26 | a session restores the notification registry exactly |
| WsNotifications.ClosedSocketIsNotNotified | app/api/v1/ws_notifications.py:23-26 | once the session has ended, no notification is sent to that socket |
| MessageService.CanUserAccessConversation | app/services/message_service.py:13-18 | true iff the user is user1 or user2; a malformed id raises |
| MessageService.CheckContent | app/services/message_service.py:33-34 | content is accepted iff it is text that is not blank by `str.strip()` |
| MessageService.ReceiverOf | app/services/message_service.py:29-31 | the receiver is always a participant; for a sender who takes part, sender and receiver are the two participants, and they are the same user only in a conversation with oneself; a non-participant sender gets user2 |
| MessageService.SendMessage | app/services/message_service.py:20-51 | stores iff the sender id parses, the content is not blank and the key is fresh; the new row is appended with status `sent` and no receipt times; ids stay unique |
| MessageService.SendMessageRejectsBlank | app/services/message_service.py:33-34 | missing or whitespace content raises "Message content cannot be empty" |
| MessageService.ListMessages | app/services/message_service.py:53-65 | a malformed id raises; otherwise only the conversation's messages, at most `limit`, ordered by `sent_at`, a sub-multiset of them, all of them when they fit, and none sent later than a message left out |
| MessageService.ConversationPage | app/services/message_service.py:57-62 | the page holds only messages of the conversation, at most `limit` of them, in `sent_at` order, drawn from the conversation's messages, all of them when they fit, and none sent later than a message left out |
| MessageService.ListMessagesKeepsEarliest | app/services/message_service.py:57-62 | a message the limit leaves out was sent no earlier than any that was returned |
| MessageService.SentMessageIsListed | app/services/message_service.py:20-65 | a message just sent is listed with its conversation while the conversation held fewer than 50 messages |
| MessageService.Mark | app/services/message_service.py:67-119 | a missing message raises "Message not found", and someone other than the receiver gets "Not allowed"; otherwise only that row changes |
| MessageService.MarkDelivered | app/services/message_service.py:67-92 | a missing message raises "Message not found" and anyone but the receiver gets "Not allowed"; otherwise only that row changes, to status `delivered` with the delivery time |
| MessageService.MarkRead | app/services/message_service.py:94-119 | a missing message raises "Message not found" and anyone but the receiver gets "Not allowed"; otherwise only that row changes, to status `read` with the read time |
| MessageService.MarkChangesOnlyTarget | app/services/message_service.py:83-87 | with unique ids, marking changes exactly the one row and keeps the table length |
| MessageService.MarkRefusesNonReceiver | app/services/message_service.py:80-81 | anyone other than the receiver is refused with "Not allowed" |
| UnreadService.EnsureEntry | app/services/unread_service.py:11-33 | the existing counter is returned unchanged; otherwise a zero counter is created |
| UnreadService.Increment | app/services/unread_service.py:35-47 | the receiver's counter becomes its previous value (0 if none) plus one, and nothing else changes |
| UnreadService.Reset | app/services/unread_service.py:49-61 | the counter becomes 0 and nothing else changes |
| UnreadService.GetUnread | app/services/unread_service.py:63-72 | reports the current count (0 if none), creating the row if missing and changing no other row |
| UnreadService.UnreadStaysNonNegative | app/services/unread_service.py:26-61 | every operation keeps all counters non-negative |
| UnreadService.IncrementThenGet | app/services/unread_service.py:35-72 | `n` increments raise the reported count by `n`; a reset then brings it to 0; other counters are untouched |
| SettingsService.GetOrCreate | app/services/conversation_settings_service.py:9-36 | returns the existing row unchanged, or creates one with both flags false |
| SettingsService.ToggleMute | app/services/conversation_settings_service.py:38-50 | sets `is_muted` and keeps `is_pinned`, creating the row if missing |
| SettingsService.TogglePin | app/services/conversation_settings_service.py:52-64 | sets `is_pinned` and keeps `is_muted`, creating the row if missing |
| SettingsService.ToggleLaws | app/services/conversation_settings_service.py:38-64 | each toggle is idempotent, reads back the value set, keeps the other flag, and leaves every other row alone |
| SettingsService.MutePinCommute | app/services/conversation_settings_service.py:38-64 | setting mute then pin gives the same table as setting pin then mute |
| ConversationService.GetOrCreate | app/services/conversation_service.py:11-47 | malformed ids raise; a result is always between the two users, in either order, and is either an existing row (table unchanged) or, when no row relates them, a new row with the arguments in the given order appended; with no related row it succeeds iff the new id is unused; one row per pair and unique ids are kept |
| ConversationService.GetOrCreateFindsExisting | app/services/conversation_service.py:19-36 | with one conversation per pair, either order of the two users finds the existing row and adds nothing |
| ConversationService.GetOrCreateIdempotent | app/services/conversation_service.py:11-47 | a second call, from either side, returns the same conversation and adds no row |
| ConversationService.GetById | app/api/v1/ws.py:25-27 | the lookup by id returns a row with that id, and returns none iff no row has it |
| ConversationService.ListConversations | app/services/conversation_service.py:49-65 | exactly the user's conversations, newest first |
| FriendService.SendRequest | app/services/friend_service.py:11-53 | malformed ids raise; a request to oneself raises "You cannot add yourself as a friend"; a pair already related in either direction is refused; otherwise a pending request from requester to receiver is appended; the table keeps one row per pair, unique ids and no self-requests |
| FriendService.SendRequestToRelated | app/services/friend_service.py:20-38 | with one row per pair, a second request in either direction is refused with "Friend requested or you are already friends", never a database error |
| FriendService.Respond | app/services/friend_service.py:55-105 | an unknown request is "Friend request not found" and a caller other than its receiver gets the refusal; otherwise only that row's status changes, to the answer |
| FriendService.AcceptRequest | app/services/friend_service.py:55-79 | an unknown request is "Friend request not found", and a caller other than its receiver gets "You cannot accept this friend request"; otherwise only that row changes, to status `accepted` |
| FriendService.RejectRequest | app/services/friend_service.py:81-105 | an unknown request is "Friend request not found", and a caller other than its receiver gets "You cannot reject this friend request"; otherwise only that row changes, to status `rejected` |
| FriendService.ListFriends | app/services/friend_service.py:107-122 | exactly the accepted rows with the user on either side |
| FriendService.ListPending | app/services/friend_service.py:124-136 | exactly the pending rows the user has received |
| FriendService.RequestLifecycle | app/services/friend_service.py:11-136 | a new request is pending for its receiver and not its sender; once the receiver accepts it, both list each other as friends and that request is no longer among the receiver's pending ones |
| ConversationsRouter.OtherUser | app/api/v1/conversations.py:24-26 | the reported user is a participant; for a caller who takes part, caller and reported user are the two participants, and the reported user is the caller only in a conversation with oneself |
| ConversationsRouter.ListMyConversations | app/api/v1/conversations.py:13-48 | one summary per row, in row order; the other user is a participant and, for a two-person conversation, never the caller; a null count reads 0; the last message is the row's own, or none |
| ConversationsRouter.OtherUserIsCounterpart | app/api/v1/conversations.py:24-26 | for a participant, the caller and the reported other user are exactly the two participants |
| ConversationsRouter.StartConversation | app/api/v1/conversations.py:51-64 | as written, the self-check never fires, so the route is get-or-create with the caller first |
| ConversationsRouter.StartWithSelfAccepted | app/api/v1/conversations.py:57-62 | a caller who passes their own id gets a new conversation with themselves |
| ConversationsRouter.StartConversationCorrected | app/api/v1/conversations.py:57-62 | comparing the parsed id: a malformed id raises, the caller's own id is refused with "You cannot start a conversation with yourself", and a conversation returned is between the caller and a different user, with distinct users on a table that had no self-conversation |
| ConversationsRouter.CorrectedStartNeverWithSelf | app/api/v1/conversations.py:57-62 | with the corrected check, the started conversation is always between two different users |
| MessagesRouter.Authorize | app/api/v1/messages.py:22-34 | a malformed id raises; an unknown conversation is "Conversation not found"; a known one the caller is not part of is 403 "Not allowed"; success is a conversation with that id that the caller takes part in |
| MessagesRouter.SendRoute | app/api/v1/messages.py:15-43 | stores iff authorized, non-blank and fresh; the message is appended with the caller as sender and the path conversation; failed guards store nothing |
| MessagesRouter.ListRoute | app/api/v1/messages.py:46-68 | lists only after both guards pass; the page is the first 50 messages of the path conversation by `sent_at`, all of them when there are at most 50 |
| MessagesRouter.OutsiderRefused | app/api/v1/messages.py:29-64 | a non-participant gets 403 from both routes, and nothing is stored |
| MessagesRouter.SendThenList | app/api/v1/messages.py:15-68 | a participant's sent message appears in the list the same caller gets next, while the conversation held fewer than 50 messages |
| ErrorHandlers.Handle | app/core/error_handlers.py:9-52 | each exception class gets its handler's status, `error` and `details`: 400 with the message for `AppException`, 401 "Unauthorized", 500 "Database error" with the message, 500 "Database error" with a fixed text for SQLAlchemy, 422 "Validation error" with the messages in order, the `HTTPException`'s own status and detail, and 500 "Error" for anything else |
| ErrorHandlers.ClientErrorsAreDeliberate | app/core/error_handlers.py:9-52 | a status below 500 occurs iff the exception is a plain `AppException`, an `UnauthorizedException`, a validation error, or an `HTTPException` below 500 |
| ErrorHandlers.OnlyOwnMessagesAreShown | app/core/error_handlers.py:9-52 | the application's own exceptions show their message; SQLAlchemy and unexpected errors give the same response whatever their text |
| ErrorHandlers.MostSpecificHandlerWins | app/core/error_handlers.py:9-24 | a `DatabaseException` is a 500 and an `UnauthorizedException` a 401, although both are `AppException`s |

## Left out

- **Registries and store.** Socket transport (`accept`, `receive_json`, `receive_text`, `close`) and `send_json` are not modelled. A send is a `Send` record, and its failure comes from an oracle.
- **Concurrency.** asyncio interleaving across connections is not modelled; each handler and each registry operation is atomic.
- **Presence tracker.** Grace-window presence and last-seen timestamps are absent from the code.
- **Typing handlers.** They call `manager.broadcast_typing`, which `ConnectionManager` does not define. The model has them raise `AttributeError` with nothing sent (`Events.Dispatch`).
- **Editing handlers.** The editing handlers and `edit_message`/`delete_message` are not part of this model.
- **ConversationService.get_by_id.** It is called by `ws.py` and `messages.py` but is not defined in `conversation_service.py`. It is modelled as a lookup of the first row with the id (`ConversationService.GetById`).
- **ConversationService.list_conversation_full.** It is not defined. Its result rows are the input of `ConversationsRouter.ListMyConversations`.
- **MessageService.list_messages_since.** `message_service.py` does not define it, so it is a parameter of `ReconnectHandler.HandleReconnect` (`ReconnectDeps`). `datetime.strptime` is the standard library's parser. The model does not reimplement it, and it is a `ReconnectDeps` parameter too.
- **Handler registration.** `app/main.py` registers no exception handlers and includes no routers. `ErrorHandlers.Handle` is the mapping once all seven handlers are registered, and Starlette's lookup by the most specific class is modelled for this exception hierarchy only.
- **Request validation.** FastAPI's own `RequestValidationError` is not a pydantic `ValidationError`, so the 422 handler is modelled only for exceptions the routes raise themselves.
- **Authentication.** JWT decoding and `get_current_user_ws` are outside the model. `WsChat.Admit` and `WsNotifications.Open` take the authenticated user as an `Option<Uuid>` input, an oracle that yields a user or none. As written, `get_current_user_ws` calls `UserService.get_user_by_id`, which `user_service.py` does not define, and `ws.py:17` calls it with `db` left as the `Depends` marker. So every chat authentication raises, and the `except` at `ws.py:18` closes the socket: only the `None` branch of `Admit` is reachable in the code as written. The notification endpoint resolves `get_current_user_ws` as a dependency, and the missing method raises there before the endpoint body runs, which `WsNotifications.Open` likewise covers by its `None` branch.
- **Clocks and ids.** The store assigns times and primary keys through `env.now` and `env.freshId`. Timestamps are integers: `isoformat()` and `str()` of datetimes are not modelled, and only equality and order of times are used.
- **Driver errors.** The text of driver errors is a placeholder. Examples are a duplicate primary key, or `scalar_one_or_none` finding several rows.
- **Import paths.** Several files import modules whose source is not part of this model: `app.utils.uuid`, `app.websocket.state`, `app.models.conversation_model`, `app.models.user`, `app.models.message`, `app.models.unread`, `app.models.conversation_settings`, `app.database.custom_types`, `app.database.base`, `app.utils.jwt_util` and `app.utils.hashing`. The model assumes each resolves to the module of the same role.
- **Handler wiring.** The handlers of `messaging_handler.py`, `receipts*.py` and `reconnect_handler.py` are not in the `event_handlers` table, so `dispatch_event` never reaches them. They are modelled as functions in their own right.
- Values.ParseUuid: accepts only the hyphenated 8-4-4-4-12 spelling, in either case. CPython's `uuid.UUID` first strips a `urn:` and a `uuid:` prefix, braces and every hyphen wherever it stands, then reads the rest with `int(text, 16)`, which also allows surrounding whitespace and `_` between digits. Those spellings are not modelled.
- UuidUtil.ToUuid: accepts only the hyphenated 32-digit spelling, in either case. `uuid.UUID` also accepts braces, a `urn:uuid:` prefix, the hyphen-free form, hyphens anywhere, surrounding whitespace and `_` between digits, and those spellings are not modelled.
- Events.Dispatch: an inbound frame is a JSON object whose fields are strings, UUIDs or absent (`PyVal`). `receive_json` can yield any JSON value, and these cases are not modelled: a number or boolean `event` (its `str()` is in the unknown-event reply), a list or object `event` (unhashable, so the table lookup raises `TypeError` and ends the session), and a frame that is a list, string or number (`data.get` raises `AttributeError`).
- MessageService.CheckContent: non-text `content` is modelled only as a UUID. Of the other JSON values, `0`, `false`, `[]` and `{}` are falsy and get "Message content cannot be empty"; any other number, `true`, or a non-empty list or object fails on `.strip` inside the `try` and becomes a `DatabaseException` with Python's `AttributeError` text. These cases are not modelled.
- Handlers.Broadcast: the order in which a room's sockets are visited is the oracle `env.iter`. CPython's actual set order is not modelled.
- ConversationsRouter.ListMyConversations: the `isoformat()` rendering of times and the `str()` of ids in the response are not modelled; the summary carries the values themselves.

## Findings

| source | as written | input that shows it | evidently intended | confidence | as-written member | corrected member |
|---|---|---|---|---|---|---|
| app/api/v1/ws.py:61 | the teardown disconnects under the UUID `user.id`, while line 41 registered the socket under `str(user.id)` | any admitted session that ends: the closed socket is still in `active_users[str(user.id)]` | disconnect under `str(user.id)` | high; not executed | WsChat.SessionLeaksSocket | WsChat.SessionRestoresActiveUsers |
| app/websocket/handlers/reconnect_handler.py:59 | the `unread_update` is broadcast to the UUID `new_conv_id`, while line 54 joined the room `str(new_conv_id)` | any resume where rooms are keyed by strings: the update reaches no socket, not even the caller's | broadcast to `str(new_conv_id)` | high; not executed | ReconnectHandler.ResumeUpdateReachesNobody | ReconnectHandler.ResumeUpdateReachesRoom |
| app/api/v1/conversations.py:57 | the UUID `current_user.id` is compared with the query `str`, which is never equal | `other_user_id` = the caller's own id: a conversation of the caller with themselves is created | compare the parsed id | high; not executed | ConversationsRouter.StartWithSelfAccepted | ConversationsRouter.CorrectedStartNeverWithSelf |
| app/websocket/manager.py:42-50 | the loop iterates the live room set while discarding from it | room {a, b} where the send to a fails and a is visited first: `RuntimeError` escapes and b gets nothing | iterate a copy, as `notification_manager.py:24` does | medium; not executed | ConnectionManager.LiveSetBroadcastStopsEarly | ConnectionManager.BroadcastSnapshot |
| app/websocket/handlers/messaging_handler.py:29-31 | the receiver's counter is read but never incremented | any message sent while all counters are 0: the `unread_update` says 0 | increment the receiver's counter before reading it | medium; not executed | MessagingHandler.SendNeverCounts | MessagingHandler.CountingSendCounts |
| app/websocket/handlers/receipts_handler.py:67-74 | the read notification goes to `msg.receiver_id`, who is the reader, since `mark_read` refuses anyone else | any read during the reader's session: the reader is in the room, so no notification is ever sent | notify `msg.sender_id` | medium; not executed | ReceiptsHandler.ReadNoticeNeverSent | ReceiptsHandler.SenderIsToldOfRead |

=== FILE: conversation_service.dfy ===
/** `ConversationService` (app/services/conversation_service.py) over the
    `conversations` table. The fresh primary key and the clock are
    parameters. */
module ConversationService {
  import opened Values
  import opened Exceptions
  import opened UuidUtil
  import opened Wire
  import opened Models
  import opened Tables

  /** The conversation is between `a` and `b`, in either orientation. */
  predicate Between(c: Conversation, a: Uuid, b: Uuid) {
    (c.user1 == a && c.user2 == b) || (c.user1 == b && c.user2 == a)
  }

  predicate HasParticipant(c: Conversation, u: Uuid) {
    c.user1 == u || c.user2 == u
  }

  /** At most one conversation per unordered pair of users: what
      `get_or_create_conversation` maintains (the table's own constraint
      covers only the ordered pair). */
  predicate OnePerPair(rows: seq<Conversation>) {
    forall i, j :: 0 <= i < j < |rows| ==> !Between(rows[j], rows[i].user1, rows[i].user2)
  }

  predicate UniqueConversationIds(rows: seq<Conversation>) {
    forall i, j :: 0 <= i < j < |rows| ==> rows[i].id != rows[j].id
  }

  predicate ConversationsWellFormed(rows: seq<Conversation>) {
    OnePerPair(rows) && UniqueConversationIds(rows)
  }

  /** `get_or_create_conversation(user1_id, user2_id)`: the conversation
      between the two users in either orientation, or a new one with the
      arguments in the given order. Two identical ids are not refused. */
  function GetOrCreate(rows: seq<Conversation>, user1Id: PyVal, user2Id: PyVal, newId: Uuid, now: Timestamp): (r: Result<(seq<Conversation>, Conversation)>)
    ensures ToUuid(user1Id).Err? ==> r == Err(ToUuid(user1Id).error)
    ensures ToUuid(user1Id).Ok? && ToUuid(user2Id).Err? ==> r == Err(ToUuid(user2Id).error)
    ensures r.Ok? ==> ToUuid(user1Id).Ok? && ToUuid(user2Id).Ok? && Between(r.value.1, ToUuid(user1Id).value, ToUuid(user2Id).value)
    ensures r.Ok? ==>
              || (r.value.0 == rows && r.value.1 in rows)
              || (&& (forall i :: 0 <= i < |rows| ==> !Between(rows[i], ToUuid(user1Id).value, ToUuid(user2Id).value))
                  && r.value.1 == Conversation(newId, ToUuid(user1Id).value, ToUuid(user2Id).value, now, now)
                  && r.value.0 == rows + [r.value.1])
    ensures ToUuid(user1Id).Ok? && ToUuid(user2Id).Ok? ==>
              var a := ToUuid(user1Id).value;
              var b := ToUuid(user2Id).value;
              ((forall i :: 0 <= i < |rows| ==> !Between(rows[i], a, b)) ==>
                 (r.Ok? <==> !HasConversationId(rows, newId)))
    ensures r.Ok? && ConversationsWellFormed(rows) ==> ConversationsWellFormed(r.value.0)
  {
    var a :- ToUuid(user1Id);
    var b :- ToUuid(user2Id);
    match OneOrNone(rows, (c: Conversation) => Between(c, a, b))
    case OneRow(i) => Ok((rows, rows[i]))
    case ManyRows => Err(DatabaseException(MultipleRows))
    case NoRow =>
      if HasConversationId(rows, newId) then Err(DatabaseException(DuplicateKey))
      else
        var c := Conversation(newId, a, b, now, now);
        assert forall i :: 0 <= i < |rows| ==> !Between(c, rows[i].user1, rows[i].user2);
        Ok((rows + [c], c))
  }

  /** With one conversation per pair, the existing conversation between
      two users is found whichever of them is named first. */
  lemma {:induction false} GetOrCreateFindsExisting(rows: seq<Conversation>, i: nat, newId: Uuid, now: Timestamp)
    requires OnePerPair(rows) && i < |rows|
    ensures GetOrCreate(rows, PyUuid(rows[i].user1), PyUuid(rows[i].user2), newId, now) == Ok((rows, rows[i]))
    ensures GetOrCreate(rows, PyUuid(rows[i].user2), PyUuid(rows[i].user1), newId, now) == Ok((rows, rows[i]))
  {
    var a := rows[i].user1;
    var b := rows[i].user2;
    forall j | 0 <= j < |rows| && Between(rows[j], a, b) ensures j == i {
      if j < i {
        assert Between(rows[i], rows[j].user1, rows[j].user2);
      }
    }
    OneOrNoneUnique(rows, (c: Conversation) => Between(c, a, b), i);
    assert forall j :: 0 <= j < |rows| && Between(rows[j], b, a) ==> Between(rows[j], a, b);
    OneOrNoneUnique(rows, (c: Conversation) => Between(c, b, a), i);
  }

  /** Starting the same conversation again, from either side, returns the
      conversation the first call gave and adds no row. */
  lemma GetOrCreateIdempotent(rows: seq<Conversation>, a: Uuid, b: Uuid, id1: Uuid, id2: Uuid, t1: Timestamp, t2: Timestamp)
    requires ConversationsWellFormed(rows)
    requires GetOrCreate(rows, PyUuid(a), PyUuid(b), id1, t1).Ok?
    ensures var (rows1, c) := GetOrCreate(rows, PyUuid(a), PyUuid(b), id1, t1).value;
            && GetOrCreate(rows1, PyUuid(a), PyUuid(b), id2, t2) == Ok((rows1, c))
            && GetOrCreate(rows1, PyUuid(b), PyUuid(a), id2, t2) == Ok((rows1, c))
  {
    var (rows1, c) := GetOrCreate(rows, PyUuid(a), PyUuid(b), id1, t1).value;
    var i :| 0 <= i < |rows1| && rows1[i] == c;
    GetOrCreateFindsExisting(rows1, i, id2, t2);
    if c.user1 != a {
      assert c.user1 == b && c.user2 == a;
    }
  }

  /** `get_by_id`, which this service does not define although the
      routers and the chat endpoint call it: the conversation with that id. */
  function GetById(rows: seq<Conversation>, id: Uuid): (r: Option<Conversation>)
    ensures r.Some? ==> r.value in rows && r.value.id == id
    ensures r.None? <==> forall i :: 0 <= i < |rows| ==> rows[i].id != id
  {
    match FindFirst(rows, (c: Conversation) => c.id == id)
    case None => None
    case Some(i) => Some(rows[i])
  }

  /** `list_conversations`: every conversation the user takes part in,
      newest first (`ORDER BY created_at DESC`). */
  function ListConversations(rows: seq<Conversation>, userId: PyVal): (r: Result<seq<Conversation>>)
    ensures ToUuid(userId).Err? ==> r == Err(ToUuid(userId).error)
    ensures r.Ok? ==>
              var u := ToUuid(userId).value;
              && multiset(r.value) == multiset(Filter(rows, (c: Conversation) => HasParticipant(c, u)))
              && (forall i :: 0 <= i < |r.value| ==> HasParticipant(r.value[i], u) && r.value[i] in rows)
              && (forall i :: 0 <= i < |rows| && HasParticipant(rows[i], u) ==> rows[i] in r.value)
              && forall i, j :: 0 <= i < j < |r.value| ==> r.value[i].createdAt >= r.value[j].createdAt
  {
    var u :- ToUuid(userId);
    var mine := Filter(rows, (c: Conversation) => HasParticipant(c, u));
    var newestFirst := SortBy(mine, (c: Conversation) => -c.createdAt);
    forall i | 0 <= i < |newestFirst| ensures HasParticipant(newestFirst[i], u) && newestFirst[i] in rows {
      assert newestFirst[i] in multiset(mine);
    }
    forall i | 0 <= i < |rows| && HasParticipant(rows[i], u) ensures rows[i] in newestFirst {
      assert rows[i] in multiset(mine);
    }
    Ok(newestFirst)
  }
}

=== FILE: conversations_router.dfy ===
/** The conversation routes of app/api/v1/conversations.py: the caller's
    conversation list, shaped from the rows of
    `ConversationService.list_conversation_full`, and starting a
    conversation with another user. */
module ConversationsRouter {
  import opened Values
  import opened Exceptions
  import opened UuidUtil
  import opened Wire
  import opened Models
  import opened ConversationService

  /** The last message columns of a full row, present together or absent
      together (the row's `msg_id` decides). */
  datatype LastMessageRow = LastMessageRow(id: Uuid, senderId: Uuid, content: string, sentAt: Timestamp)

  /** One row of `list_conversation_full`: the conversation, its unread
      count for the caller (`NULL` when no counter exists) and its last
      message. The query itself is not part of this model. */
  datatype FullRow = FullRow(conv: Conversation, unreadCount: Option<int>, last: Option<LastMessageRow>)

  /** One element of the response list. */
  datatype Summary = Summary(
    id: Uuid, otherUserId: Uuid, unreadCount: int, lastMessage: Option<LastMessageRow>,
    createdAt: Timestamp, updatedAt: Timestamp)

  /** The other participant: user2 when the caller is user1, else user1.
      For a caller who takes part, the caller and the result are the two
      participants, so the result is the caller only in a conversation
      with oneself. */
  function OtherUser(conv: Conversation, current: Uuid): (u: Uuid)
    ensures u in {conv.user1, conv.user2}
    ensures HasParticipant(conv, current) ==> {current, u} == {conv.user1, conv.user2}
    ensures HasParticipant(conv, current) ==> (u == current <==> conv.user1 == conv.user2)
  {
    if conv.user1 == current then conv.user2 else conv.user1
  }

  /** `unread_count or 0`: a missing counter reads as zero. */
  function UnreadOrZero(c: Option<int>): int {
    match c
    case None => 0
    case Some(k) => k
  }

  /** Lines 23-46 for one row. */
  function Shape(row: FullRow, current: Uuid): Summary {
    Summary(row.conv.id, OtherUser(row.conv, current), UnreadOrZero(row.unreadCount), row.last,
            row.conv.createdAt, row.conv.updatedAt)
  }

  /** `list_my_conversations`: one summary per row, in row order. */
  function ListMyConversations(rows: seq<FullRow>, current: Uuid): (r: seq<Summary>)
    ensures |r| == |rows|
    ensures forall i :: 0 <= i < |rows| ==>
              && r[i].id == rows[i].conv.id
              && r[i].otherUserId in {rows[i].conv.user1, rows[i].conv.user2}
              && (HasParticipant(rows[i].conv, current) && rows[i].conv.user1 != rows[i].conv.user2 ==> r[i].otherUserId != current)
              && (rows[i].unreadCount.None? ==> r[i].unreadCount == 0)
              && (rows[i].unreadCount.Some? ==> r[i].unreadCount == rows[i].unreadCount.value)
              && r[i].lastMessage == rows[i].last
              && r[i].createdAt == rows[i].conv.createdAt && r[i].updatedAt == rows[i].conv.updatedAt
  {
    seq(|rows|, i requires 0 <= i < |rows| => Shape(rows[i], current))
  }

  /** For a conversation the caller takes part in, the caller and the
      reported other user are exactly its two participants. */
  lemma OtherUserIsCounterpart(conv: Conversation, current: Uuid)
    requires HasParticipant(conv, current)
    ensures {current, OtherUser(conv, current)} == {conv.user1, conv.user2}
  {
  }

  const SelfConversation := AppException("You cannot start a conversation with yourself")

  /** `start_conversations` as written: the guard compares the caller's
      UUID with the query string, which Python never finds equal. */
  function StartConversation(rows: seq<Conversation>, current: Uuid, other: string, newId: Uuid, now: Timestamp): (r: Result<(seq<Conversation>, Conversation)>)
    ensures r == GetOrCreate(rows, PyUuid(current), PyStr(other), newId, now)
    ensures r.Ok? ==> ToUuid(PyStr(other)).Ok? && Between(r.value.1, current, ToUuid(PyStr(other)).value)
  {
    if PyUuid(current) == PyStr(other) then Err(SelfConversation)
    else GetOrCreate(rows, PyUuid(current), PyStr(other), newId, now)
  }

  /** Finding, as written: a caller who passes their own id starts a
      conversation with themselves. */
  lemma StartWithSelfAccepted(rows: seq<Conversation>, current: Uuid, newId: Uuid, now: Timestamp)
    requires WellFormed(current)
    requires forall i :: 0 <= i < |rows| ==> !Between(rows[i], current, current)
    requires !HasConversationId(rows, newId)
    ensures StartConversation(rows, current, Str(current), newId, now)
         == Ok((rows + [Conversation(newId, current, current, now, now)], Conversation(newId, current, current, now, now)))
  {
    ToUuidOfStr(current);
  }

  /** The evidently intended route: the guard compares the parsed query
      id with the caller's id. A conversation it returns is between the
      caller and a different user, and on a table without
      self-conversations it never has the same user on both sides. */
  function StartConversationCorrected(rows: seq<Conversation>, current: Uuid, other: string, newId: Uuid, now: Timestamp): (r: Result<(seq<Conversation>, Conversation)>)
    ensures ToUuid(PyStr(other)).Err? ==> r == Err(ToUuid(PyStr(other)).error)
    ensures ToUuid(PyStr(other)) == Ok(current) ==> r == Err(SelfConversation)
    ensures r.Ok? ==>
              && ToUuid(PyStr(other)).Ok? && ToUuid(PyStr(other)).value != current
              && Between(r.value.1, current, ToUuid(PyStr(other)).value)
    ensures r.Ok? && (forall i :: 0 <= i < |rows| ==> rows[i].user1 != rows[i].user2) ==> r.value.1.user1 != r.value.1.user2
    ensures ToUuid(PyStr(other)).Ok? && ToUuid(PyStr(other)).value != current ==>
              r == GetOrCreate(rows, PyUuid(current), PyStr(other), newId, now)
  {
    if ToUuid(PyStr(other)) == Ok(current) then Err(SelfConversation)
    else GetOrCreate(rows, PyUuid(current), PyStr(other), newId, now)
  }

  /** With the corrected guard, a conversation started through the route
      is always between two different users. */
  lemma CorrectedStartNeverWithSelf(rows: seq<Conversation>, current: Uuid, other: string, newId: Uuid, now: Timestamp)
    requires forall i :: 0 <= i < |rows| ==> rows[i].user1 != rows[i].user2
    ensures var r := StartConversationCorrected(rows, current, other, newId, now);
            r.Ok? ==> r.value.1.user1 != r.value.1.user2
  {
  }
}

=== FILE: error_handlers.dfy ===
/** The JSON error responses of app/core/error_handlers.py: one handler
    per exception class, each producing a status code and a body
    `{"error": …, "details": …}`. The application object of app/main.py
    registers none of them; `Handle` is the choice Starlette makes once all
    seven are registered, which is the handler of the most specific class
    of the exception. */
module ErrorHandlers {
  import opened Exceptions

  /** The `details` field: one text, or the list a validation error
      yields. */
  datatype Details = Text(text: string) | Texts(texts: seq<string>)

  datatype ErrorResponse = ErrorResponse(status: int, error: string, details: Details)

  /** The exception classes that have a handler, most specific first along
      each branch of the hierarchy. */
  datatype HandlerClass =
    | ForUnauthorized | ForDatabase | ForApp | ForHttp | ForSqlAlchemy | ForValidation | ForAny

  /** The registered class nearest to the exception's own class:
      `UnauthorizedException` and `DatabaseException` have their own
      handlers before their base `AppException`, and anything no other
      handler claims falls to `Exception`. */
  function ClassOf(e: Exc): (h: HandlerClass)
    ensures h == ForApp <==> e.AppException?
    ensures h == ForAny <==> !e.IsAppException() && !e.HttpException? && !e.SqlAlchemyError? && !e.ValidationError?
    ensures e.IsAppException() <==> h in {ForUnauthorized, ForDatabase, ForApp}
  {
    match e
    case UnauthorizedException(_) => ForUnauthorized
    case DatabaseException(_) => ForDatabase
    case AppException(_) => ForApp
    case HttpException(_, _) => ForHttp
    case SqlAlchemyError(_) => ForSqlAlchemy
    case ValidationError(_) => ForValidation
    case _ => ForAny
  }

  /** `app_exception_handler`. */
  function AppExceptionResponse(e: Exc): (r: ErrorResponse)
    requires e.IsAppException()
  {
    ErrorResponse(400, e.message, Text(e.message))
  }

  /** `unauthorized_exception_handler`. */
  function UnauthorizedResponse(e: Exc): (r: ErrorResponse)
    requires e.UnauthorizedException?
  {
    ErrorResponse(401, "Unauthorized", Text(e.message))
  }

  /** `database_exception_handler`. */
  function DatabaseResponse(e: Exc): (r: ErrorResponse)
    requires e.DatabaseException?
  {
    ErrorResponse(500, "Database error", Text(e.message))
  }

  /** `sqlalchemy_exception_handler`: the driver's text is not passed on. */
  const SqlAlchemyResponse := ErrorResponse(500, "Database error", Text("Database operation failed"))

  /** `validation_exception_handler`: the `msg` of each error, in order. */
  function ValidationResponse(e: Exc): (r: ErrorResponse)
    requires e.ValidationError?
  {
    ErrorResponse(422, "Validation error", Texts(e.messages))
  }

  /** `http_exception_handler`: the exception's own status and detail. */
  function HttpResponse(e: Exc): (r: ErrorResponse)
    requires e.HttpException?
  {
    ErrorResponse(e.statusCode, "HTTP exception error", Text(e.detail))
  }

  /** `unexpected_exception_handler`. */
  const UnexpectedResponse := ErrorResponse(500, "Error", Text("An unexpected error occurred"))

  /** The response for an exception that reaches the application. */
  function Handle(e: Exc): (r: ErrorResponse)
    ensures e.AppException? ==> r == ErrorResponse(400, e.message, Text(e.message))
    ensures e.UnauthorizedException? ==> r == ErrorResponse(401, "Unauthorized", Text(e.message))
    ensures e.DatabaseException? ==> r == ErrorResponse(500, "Database error", Text(e.message))
    ensures e.SqlAlchemyError? ==> r == ErrorResponse(500, "Database error", Text("Database operation failed"))
    ensures e.ValidationError? ==> r == ErrorResponse(422, "Validation error", Texts(e.messages))
    ensures e.HttpException? ==> r == ErrorResponse(e.statusCode, "HTTP exception error", Text(e.detail))
    ensures ClassOf(e) == ForAny ==> r == ErrorResponse(500, "Error", Text("An unexpected error occurred"))
  {
    match ClassOf(e)
    case ForUnauthorized => UnauthorizedResponse(e)
    case ForDatabase => DatabaseResponse(e)
    case ForApp => AppExceptionResponse(e)
    case ForHttp => HttpResponse(e)
    case ForSqlAlchemy => SqlAlchemyResponse
    case ForValidation => ValidationResponse(e)
    case ForAny => UnexpectedResponse
  }

  /** A client error (a status below 500) comes only from an exception the
      application raised on purpose: a plain `AppException`, an
      `UnauthorizedException`, a validation error, or an `HTTPException`
      that asked for it. Database failures and everything unexpected are
      server errors. */
  lemma ClientErrorsAreDeliberate(e: Exc)
    ensures Handle(e).status < 500 <==>
              || e.AppException? || e.UnauthorizedException? || e.ValidationError?
              || (e.HttpException? && e.statusCode < 500)
  {
  }

  /** Every exception of the application's own family passes its message
      to the client as `details`; the library's database and unexpected
      errors never do, whatever their text. */
  lemma OnlyOwnMessagesAreShown(e: Exc, e': Exc)
    ensures e.IsAppException() ==> Handle(e).details == Text(e.message)
    ensures e.SqlAlchemyError? && e'.SqlAlchemyError? ==> Handle(e) == Handle(e')
    ensures ClassOf(e) == ForAny && ClassOf(e') == ForAny ==> Handle(e) == Handle(e')
  {
  }

  /** A subclass handler is preferred over its base's: a database failure
      is a 500 although `DatabaseException` is an `AppException`, and a
      failed authentication is a 401. */
  lemma MostSpecificHandlerWins(message: string)
    ensures AppException(message).IsAppException() && Handle(AppException(message)).status == 400
    ensures DatabaseException(message).IsAppException() && Handle(DatabaseException(message)).status == 500
    ensures UnauthorizedException(message).IsAppException() && Handle(UnauthorizedException(message)).status == 401
  {
  }
}

=== FILE: events.dfy ===
/** app/websocket/events.py: the `event_handlers` table and
    `dispatch_event`, which runs the handler registered under the frame's
    `"event"` value or answers with an error event. */
module Events {
  import opened Values
  import opened Exceptions
  import opened Wire
  import opened Models
  import opened ConnectionManager
  import opened Handlers
  import Messaging

  /** The three entries of `event_handlers`. */
  datatype HandlerName = TypingStart | TypingStop | SendMessageEvent

  /** The key each handler is registered under. */
  function NameOf(h: HandlerName): string {
    match h
    case TypingStart => "typing_start"
    case TypingStop => "typing_stop"
    case SendMessageEvent => "send_message"
  }

  /** `event_handlers.get(event_name)`: only a string equal to one of the
      three keys finds a handler. */
  function HandlerFor(event: PyVal): (h: Option<HandlerName>)
    ensures h.Some? <==> event.PyStr? && event.s in {"typing_start", "typing_stop", "send_message"}
    ensures h.Some? ==> event == PyStr(NameOf(h.value))
  {
    match event
    case PyStr(s) =>
      if s == "typing_start" then Some(TypingStart)
      else if s == "typing_stop" then Some(TypingStop)
      else if s == "send_message" then Some(SendMessageEvent)
      else None
    case _ => None
  }

  /** Each handler is found under its own name. */
  lemma HandlerForName(h: HandlerName)
    ensures HandlerFor(PyStr(NameOf(h))) == Some(h)
  {
  }

  /** What the typing handlers raise: they call `broadcast_typing`, which
      `ConnectionManager` does not define, so the attribute lookup fails
      before anything is sent. */
  const NoBroadcastTyping := AttributeError("'ConnectionManager' object has no attribute 'broadcast_typing'")

  /** The error event for an unregistered name, which is rendered with
      `str()`. */
  function UnknownEvent(event: PyVal): Payload {
    ErrorEvent("Unknown event: " + Render(event))
  }

  /** `dispatch_event(data.get("event"), data, ...)`. */
  function Dispatch(w: World, ctx: Ctx, data: Data, env: Env): (o: Outcome)
    requires ValidEnv(env)
    ensures HandlerFor(data.event).None? ==>
              && o.world == w
              && (env.fails(ctx.ws) ==> o == Fail(w, WebSocketDisconnect))
              && (!env.fails(ctx.ws) ==> o == Outcome(w, [Send(ctx.ws, UnknownEvent(data.event))], None))
    ensures HandlerFor(data.event) == Some(TypingStart) || HandlerFor(data.event) == Some(TypingStop) ==>
              o == Fail(w, NoBroadcastTyping)
    ensures HandlerFor(data.event) == Some(SendMessageEvent) ==> o == Messaging.HandleSendMessage(w, ctx, data, env)
    ensures o.world.notif == w.notif
    ensures o.world.db.unread == w.db.unread && o.world.db.friendships == w.db.friendships
    ensures o.world.db.conversations == w.db.conversations && o.world.db.settings == w.db.settings
    ensures o.world.reg.activeUsers == w.reg.activeUsers
    ensures |w.db.messages| <= |o.world.db.messages| <= |w.db.messages| + 1
    ensures o.world.db.messages[..|w.db.messages|] == w.db.messages
  {
    match HandlerFor(data.event)
    case None => Reply(w, ctx.ws, UnknownEvent(data.event), env)
    case Some(TypingStart) => Fail(w, NoBroadcastTyping)
    case Some(TypingStop) => Fail(w, NoBroadcastTyping)
    case Some(SendMessageEvent) => Messaging.HandleSendMessage(w, ctx, data, env)
  }

  /** Only `send_message` can change the store, and then only by appending
      the new message; it is sent by the caller, into the caller's
      conversation. */
  lemma OnlySendMessageStores(w: World, ctx: Ctx, data: Data, env: Env)
    requires ValidEnv(env)
    ensures var o := Dispatch(w, ctx, data, env);
            o.world.db != w.db ==>
              && data.event == PyStr("send_message")
              && |o.world.db.messages| == |w.db.messages| + 1
              && o.world.db.messages[..|w.db.messages|] == w.db.messages
              && var m := o.world.db.messages[|w.db.messages|];
                 m.senderId == ctx.user && m.conversationId == ctx.conversation.id
  {
    var o := Dispatch(w, ctx, data, env);
    if o.world.db != w.db {
      assert HandlerFor(data.event) == Some(SendMessageEvent);
    }
  }
}

=== FILE: exceptions.dfy ===
/** The exceptions that cross the modelled code (app/core/exceptions.py plus
    the library exceptions the modelled code raises or catches), and a
    result type for operations that either return or raise. */
module Exceptions {

  /** `DatabaseException` and `UnauthorizedException` are subclasses of
      `AppException`; the others are library classes. */
  datatype Exc =
    | AppException(message: string)
    | DatabaseException(message: string)
    | UnauthorizedException(message: string)
    | HttpException(statusCode: int, detail: string)
    | SqlAlchemyError(message: string)
    | ValidationError(messages: seq<string>)
    | RuntimeError(message: string)
    | AttributeError(message: string)
    | ValueError(message: string)
    | WebSocketDisconnect
  {
    /** `isinstance(e, AppException)`. */
    predicate IsAppException() {
      AppException? || DatabaseException? || UnauthorizedException?
    }
  }

  datatype Result<+T> = Ok(value: T) | Err(error: Exc) {

    predicate IsFailure() {
      Err?
    }

    function PropagateFailure<U>(): Result<U>
      requires Err?
    {
      Err(error)
    }

    function Extract(): T
      requires Ok?
    {
      value
    }
  }

  /** The text SQLAlchemy's `scalar_one_or_none()` raises with when more
      than one row matches. The services re-raise it as a
      `DatabaseException` carrying this text. */
  const MultipleRows := "Multiple rows were found when one or none was required"

  /** Stands for the driver's text of an integrity error (a primary key
      that is already taken); the driver's exact wording is not modelled. */
  const DuplicateKey := "duplicate primary key"
}

=== FILE: friend_service.dfy ===
/** `FriendService` (app/services/friend_service.py) over the `friendships`
    table. The fresh primary key of a new request is a parameter. */
module FriendService {
  import opened Values
  import opened Exceptions
  import opened UuidUtil
  import opened Models
  import opened Tables

  const CannotAddSelf := AppException("You cannot add yourself as a friend")
  const AlreadyRelated := AppException("Friend requested or you are already friends")
  const RequestNotFound := AppException("Friend request not found")
  const CannotAccept := AppException("You cannot accept this friend request")
  const CannotReject := AppException("You cannot reject this friend request")

  /** The row relates `a` and `b`, in either direction. */
  predicate Relates(f: Friendship, a: Uuid, b: Uuid) {
    (f.requesterId == a && f.receiverId == b) || (f.requesterId == b && f.receiverId == a)
  }

  /** At most one row per unordered pair of users: what the existence check
      in `send_request` maintains. */
  predicate OnePerPair(rows: seq<Friendship>) {
    forall i, j :: 0 <= i < j < |rows| ==> !Relates(rows[j], rows[i].requesterId, rows[i].receiverId)
  }

  predicate UniqueFriendshipIds(rows: seq<Friendship>) {
    forall i, j :: 0 <= i < j < |rows| ==> rows[i].id != rows[j].id
  }

  /** Nobody is their own friend. */
  predicate NoSelfRequest(rows: seq<Friendship>) {
    forall i :: 0 <= i < |rows| ==> rows[i].requesterId != rows[i].receiverId
  }

  predicate FriendshipsWellFormed(rows: seq<Friendship>) {
    OnePerPair(rows) && UniqueFriendshipIds(rows) && NoSelfRequest(rows)
  }

  /** `send_request`: a new pending request, unless the users are the same
      or some row already relates them. */
  function SendRequest(rows: seq<Friendship>, requesterId: PyVal, receiverId: PyVal, newId: Uuid): (r: Result<(seq<Friendship>, Friendship)>)
    ensures ToUuid(requesterId).Err? ==> r == Err(ToUuid(requesterId).error)
    ensures ToUuid(requesterId).Ok? && ToUuid(receiverId).Err? ==> r == Err(ToUuid(receiverId).error)
    ensures ToUuid(requesterId).Ok? && ToUuid(receiverId).Ok? ==>
              var a := ToUuid(requesterId).value;
              var b := ToUuid(receiverId).value;
              && (a == b ==> r == Err(CannotAddSelf))
              && (a != b && (exists i :: 0 <= i < |rows| && Relates(rows[i], a, b)) ==>
                    r == Err(AlreadyRelated) || r == Err(DatabaseException(MultipleRows)))
              && (r.Ok? <==> a != b && (forall i :: 0 <= i < |rows| ==> !Relates(rows[i], a, b)) && !HasFriendshipId(rows, newId))
              && (r.Ok? ==> r.value.1 == Friendship(newId, a, b, Pending) && r.value.0 == rows + [r.value.1])
    ensures r.Ok? && FriendshipsWellFormed(rows) ==> FriendshipsWellFormed(r.value.0)
  {
    var a :- ToUuid(requesterId);
    var b :- ToUuid(receiverId);
    if a == b then Err(CannotAddSelf)
    else match OneOrNone(rows, (f: Friendship) => Relates(f, a, b))
      case OneRow(_) => Err(AlreadyRelated)
      case ManyRows => Err(DatabaseException(MultipleRows))
      case NoRow =>
        if HasFriendshipId(rows, newId) then Err(DatabaseException(DuplicateKey))
        else
          var f := Friendship(newId, a, b, Pending);
          assert forall i :: 0 <= i < |rows| ==> !Relates(f, rows[i].requesterId, rows[i].receiverId);
          Ok((rows + [f], f))
  }

  /** While one row per pair holds, an existing relation is always reported
      as such, never as a database error. */
  lemma SendRequestToRelated(rows: seq<Friendship>, i: nat, newId: Uuid)
    requires OnePerPair(rows)
    requires i < |rows| && rows[i].requesterId != rows[i].receiverId
    ensures SendRequest(rows, PyUuid(rows[i].requesterId), PyUuid(rows[i].receiverId), newId) == Err(AlreadyRelated)
    ensures SendRequest(rows, PyUuid(rows[i].receiverId), PyUuid(rows[i].requesterId), newId) == Err(AlreadyRelated)
  {
    var a := rows[i].requesterId;
    var b := rows[i].receiverId;
    forall j | 0 <= j < |rows| && Relates(rows[j], a, b) ensures j == i {
      if j < i {
        assert Relates(rows[i], rows[j].requesterId, rows[j].receiverId);
      }
    }
    OneOrNoneUnique(rows, (f: Friendship) => Relates(f, a, b), i);
    assert forall j :: 0 <= j < |rows| && Relates(rows[j], b, a) ==> Relates(rows[j], a, b);
    OneOrNoneUnique(rows, (f: Friendship) => Relates(f, b, a), i);
  }

  /** What `accept_request` and `reject_request` promise: malformed ids
      raise, a missing request and a caller who is not its receiver are
      refused, and otherwise that one row, and nothing else, takes the
      answer as its new status. */
  ghost predicate Responded(rows: seq<Friendship>, friendshipId: PyVal, userId: PyVal, answer: FriendshipStatus, refusal: Exc, r: Result<(seq<Friendship>, Friendship)>) {
    && (ToUuid(friendshipId).Err? ==> r == Err(ToUuid(friendshipId).error))
    && (ToUuid(friendshipId).Ok? && ToUuid(userId).Err? ==> r == Err(ToUuid(userId).error))
    && (ToUuid(friendshipId).Ok? && ToUuid(userId).Ok? ==>
          var found := OneOrNone(rows, (f: Friendship) => f.id == ToUuid(friendshipId).value);
          && (found.NoRow? ==> r == Err(RequestNotFound))
          && (found.ManyRows? ==> r == Err(DatabaseException(MultipleRows)))
          && (found.OneRow? && rows[found.index].receiverId != ToUuid(userId).value ==> r == Err(refusal))
          && (found.OneRow? && rows[found.index].receiverId == ToUuid(userId).value ==>
                r == Ok((rows[found.index := rows[found.index].(status := answer)], rows[found.index].(status := answer)))))
    && (r.Ok? ==>
          && ToUuid(userId).Ok? && r.value.1.receiverId == ToUuid(userId).value
          && r.value.1.status == answer
          && |r.value.0| == |rows|
          && forall j :: 0 <= j < |rows| ==>
               r.value.0[j] == (if rows[j].id == r.value.1.id then rows[j].(status := answer) else rows[j]))
  }

  /** The shared body of `accept_request` and `reject_request`: only the
      receiver of the request may answer it, and the answer overwrites
      whatever status the request had. */
  function Respond(rows: seq<Friendship>, friendshipId: PyVal, userId: PyVal, answer: FriendshipStatus, refusal: Exc): (r: Result<(seq<Friendship>, Friendship)>)
    ensures Responded(rows, friendshipId, userId, answer, refusal, r)
    ensures r.Ok? && FriendshipsWellFormed(rows) ==> FriendshipsWellFormed(r.value.0)
  {
    var fid :- ToUuid(friendshipId);
    var u :- ToUuid(userId);
    match OneOrNone(rows, (f: Friendship) => f.id == fid)
    case NoRow => Err(RequestNotFound)
    case ManyRows => Err(DatabaseException(MultipleRows))
    case OneRow(i) =>
      if rows[i].receiverId != u then Err(refusal)
      else
        var f := rows[i].(status := answer);
        var rows' := rows[i := f];
        assert forall j :: 0 <= j < |rows| ==> rows'[j].requesterId == rows[j].requesterId && rows'[j].receiverId == rows[j].receiverId && rows'[j].id == rows[j].id;
        Ok((rows', f))
  }

  /** `accept_request`. */
  function AcceptRequest(rows: seq<Friendship>, friendshipId: PyVal, userId: PyVal): (r: Result<(seq<Friendship>, Friendship)>)
    ensures Responded(rows, friendshipId, userId, Accepted, CannotAccept, r)
    ensures r.Ok? && FriendshipsWellFormed(rows) ==> FriendshipsWellFormed(r.value.0)
  {
    Respond(rows, friendshipId, userId, Accepted, CannotAccept)
  }

  /** `reject_request`. */
  function RejectRequest(rows: seq<Friendship>, friendshipId: PyVal, userId: PyVal): (r: Result<(seq<Friendship>, Friendship)>)
    ensures Responded(rows, friendshipId, userId, Rejected, CannotReject, r)
    ensures r.Ok? && FriendshipsWellFormed(rows) ==> FriendshipsWellFormed(r.value.0)
  {
    Respond(rows, friendshipId, userId, Rejected, CannotReject)
  }

  /** `list_friends`: accepted rows with the user on either side. */
  function ListFriends(rows: seq<Friendship>, userId: PyVal): (r: Result<seq<Friendship>>)
    ensures ToUuid(userId).Err? ==> r == Err(ToUuid(userId).error)
    ensures r.Ok? ==>
              var u := ToUuid(userId).value;
              && (forall i :: 0 <= i < |r.value| ==>
                    r.value[i] in rows && r.value[i].status == Accepted && (r.value[i].requesterId == u || r.value[i].receiverId == u))
              && (forall i :: 0 <= i < |rows| && rows[i].status == Accepted && (rows[i].requesterId == u || rows[i].receiverId == u) ==> rows[i] in r.value)
  {
    var u :- ToUuid(userId);
    Ok(Filter(rows, (f: Friendship) => f.status == Accepted && (f.requesterId == u || f.receiverId == u)))
  }

  /** `list_pending`: pending rows the user has received (not sent). */
  function ListPending(rows: seq<Friendship>, userId: PyVal): (r: Result<seq<Friendship>>)
    ensures ToUuid(userId).Err? ==> r == Err(ToUuid(userId).error)
    ensures r.Ok? ==>
              var u := ToUuid(userId).value;
              && (forall i :: 0 <= i < |r.value| ==> r.value[i] in rows && r.value[i].status == Pending && r.value[i].receiverId == u)
              && (forall i :: 0 <= i < |rows| && rows[i].status == Pending && rows[i].receiverId == u ==> rows[i] in r.value)
  {
    var u :- ToUuid(userId);
    Ok(Filter(rows, (f: Friendship) => f.status == Pending && f.receiverId == u))
  }

  /** A new request is pending for its receiver and not for its sender;
      once the receiver accepts it, both see the other among their friends
      and it is no longer pending. */
  lemma RequestLifecycle(rows: seq<Friendship>, a: Uuid, b: Uuid, newId: Uuid)
    requires FriendshipsWellFormed(rows)
    requires SendRequest(rows, PyUuid(a), PyUuid(b), newId).Ok?
    ensures var (rows1, f) := SendRequest(rows, PyUuid(a), PyUuid(b), newId).value;
            && f in ListPending(rows1, PyUuid(b)).value
            && f !in ListPending(rows1, PyUuid(a)).value
            && AcceptRequest(rows1, PyUuid(newId), PyUuid(b)).Ok?
            && var (rows2, g) := AcceptRequest(rows1, PyUuid(newId), PyUuid(b)).value;
               && g == f.(status := Accepted)
               && g in ListFriends(rows2, PyUuid(a)).value
               && g in ListFriends(rows2, PyUuid(b)).value
               && f !in ListPending(rows2, PyUuid(b)).value
  {
    var (rows1, f) := SendRequest(rows, PyUuid(a), PyUuid(b), newId).value;
    var n := |rows|;
    assert rows1[n] == f;
    assert forall j :: 0 <= j < n ==> rows1[j].id != newId;
    AcceptNewRequest(rows1, n, a, b);
  }

  /** Accepting the request at the end of the table, whose id no earlier
      row has, turns it into a friendship both users list, and leaves it
      pending no more. */
  lemma AcceptNewRequest(rows1: seq<Friendship>, n: nat, a: Uuid, b: Uuid)
    requires |rows1| == n + 1 && rows1[n] == Friendship(rows1[n].id, a, b, Pending)
    requires forall j :: 0 <= j < n ==> rows1[j].id != rows1[n].id
    ensures var f := rows1[n];
            && AcceptRequest(rows1, PyUuid(f.id), PyUuid(b)).Ok?
            && var (rows2, g) := AcceptRequest(rows1, PyUuid(f.id), PyUuid(b)).value;
               && g == f.(status := Accepted)
               && g in ListFriends(rows2, PyUuid(a)).value
               && g in ListFriends(rows2, PyUuid(b)).value
               && f !in ListPending(rows2, PyUuid(b)).value
  {
    var f := rows1[n];
    OneOrNoneUnique(rows1, (x: Friendship) => x.id == f.id, n);
    var (rows2, g) := AcceptRequest(rows1, PyUuid(f.id), PyUuid(b)).value;
    assert rows2[n] == g;
    assert forall j :: 0 <= j < n ==> rows2[j] == rows1[j];
    assert f !in rows2;
  }
}

=== FILE: handlers.dfy ===
/** What the websocket event handlers share: the server state they act on,
    the per-frame environment (send failures, set iteration order, clock,
    fresh ids), the outcome of a handler, and the three ways a handler
    talks to sockets (room broadcast, notification fan-out, direct reply). */
module Handlers {
  import opened Values
  import opened Exceptions
  import opened Wire
  import opened Models
  import opened ConnectionManager
  import NM = NotificationManager

  /** The chat registry, the notification registry and the database. */
  datatype World = World(reg: Registry, notif: SockMap, db: Db)

  /** What the handling of one inbound frame consults beyond the state:
      which sockets fail when sent to, the order in which Python iterates
      a given set of sockets, the clock, and the id `uuid.uuid4` draws. */
  datatype Env = Env(fails: Sock -> bool, iter: set<Sock> -> seq<Sock>, now: Timestamp, freshId: Uuid)

  /** Iterating a set visits each of its elements exactly once. */
  ghost predicate ValidEnv(env: Env) {
    forall s :: IsEnumeration(env.iter(s), s)
  }

  /** The arguments every handler receives besides `data`: the socket, the
      authenticated user, the conversation loaded at admission and the
      conversation id exactly as it appeared in the URL path. */
  datatype Ctx = Ctx(ws: Sock, user: Uuid, conversation: Conversation, conversationId: string)

  /** The state after a handler, the sends that went out, in order, and the
      exception that escaped, if any. Effects made before the exception
      are kept. */
  datatype Outcome = Outcome(world: World, sent: seq<Send>, raised: Option<Exc>)

  /** No state change, nothing sent, `e` raised. */
  function Fail(w: World, e: Exc): Outcome {
    Outcome(w, [], Some(e))
  }

  /** No state change, nothing sent, nothing raised. */
  function Skip(w: World): Outcome {
    Outcome(w, [], None)
  }

  /** Run `o2` (computed from `o1.world`) after `o1`, which returned. */
  function Then(o1: Outcome, o2: Outcome): (o: Outcome)
    requires o1.raised.None?
  {
    Outcome(o2.world, o1.sent + o2.sent, o2.raised)
  }

  /** `manager.broadcast_to_conversation(room, p)`. */
  function Broadcast(w: World, room: PyVal, p: Payload, env: Env): (o: Outcome)
    requires ValidEnv(env)
    ensures o.world.notif == w.notif && o.world.db == w.db
    ensures o.world.reg.activeUsers == w.reg.activeUsers
    ensures forall k :: k != room ==> Get(o.world.reg.conversations, k) == Get(w.reg.conversations, k)
    ensures forall s :: s in Get(w.reg.conversations, room) && !env.fails(s) ==> s in Get(o.world.reg.conversations, room)
    ensures forall i :: 0 <= i < |o.sent| ==> o.sent[i].payload == p && o.sent[i].to in Get(w.reg.conversations, room)
    ensures o.raised.Some? ==> o.raised == Some(SetChangedSize)
    ensures (exists s :: s in Get(w.reg.conversations, room) && env.fails(s)) ==> StoppedAt(w.reg, room, p, env, o)
    ensures (forall s :: s in Get(w.reg.conversations, room) ==> !env.fails(s)) ==>
              o == Outcome(w, SendAll(env.iter(Get(w.reg.conversations, room)), p), None)
  {
    var order := env.iter(Get(w.reg.conversations, room));
    var f := BroadcastToConversation(w.reg, room, p, env.fails, order);
    EmptyEnumeration(order, Get(w.reg.conversations, room));
    assert (exists s :: s in Get(w.reg.conversations, room) && env.fails(s)) ==> room in w.reg.conversations;
    Outcome(w.(reg := f.reg), f.sent, f.raised)
  }

  /** What a broadcast to `room` leaves once a member of the room fails:
      the members before the first failing one, in iteration order, were
      sent `p` and nothing else was; that one socket alone left the room,
      and the `RuntimeError` escaped. No other room and no user entry
      changed. */
  ghost predicate StoppedAt(reg: Registry, room: PyVal, p: Payload, env: Env, o: Outcome) {
    var members := Get(reg.conversations, room);
    var order := env.iter(members);
    && o.raised == Some(SetChangedSize)
    && |o.sent| < |order|
    && o.sent == SendAll(order[..|o.sent|], p)
    && (forall i :: 0 <= i < |o.sent| ==> !env.fails(order[i]))
    && env.fails(order[|o.sent|])
    && Get(o.world.reg.conversations, room) == members - {order[|o.sent|]}
    && (forall k :: k != room ==> Get(o.world.reg.conversations, k) == Get(reg.conversations, k))
    && o.world.reg.activeUsers == reg.activeUsers
  }

  /** `notification_manager.send_notifications(userKey, p)`; never raises. */
  function Notify(w: World, userKey: PyVal, p: Payload, env: Env): (o: Outcome)
    requires ValidEnv(env)
    ensures o.world.reg == w.reg && o.world.db == w.db && o.raised.None?
    ensures forall i :: 0 <= i < |o.sent| ==> o.sent[i].payload == p
    ensures IsEnumeration(Targets(o.sent), set s | s in Get(w.notif, userKey) && !env.fails(s))
    ensures Get(o.world.notif, userKey) == set s | s in Get(w.notif, userKey) && !env.fails(s)
    ensures forall k :: k != userKey ==> Get(o.world.notif, k) == Get(w.notif, k) && (k in o.world.notif <==> k in w.notif)
  {
    var n := NM.SendNotifications(w.notif, userKey, p, env.fails, env.iter(Get(w.notif, userKey)));
    if userKey !in w.notif then
      assert Targets(n.sent) == [];
      assert (set s | s in Get(w.notif, userKey) && !env.fails(s)) == {};
      Outcome(w.(notif := n.sockets), n.sent, None)
    else Outcome(w.(notif := n.sockets), n.sent, None)
  }

  /** `notes` is `p`, sent once to each live notification socket of the
      user registered under `userKey`. */
  ghost predicate NoticeTo(notif: SockMap, notes: seq<Send>, userKey: PyVal, p: Payload, env: Env) {
    && (forall i :: 0 <= i < |notes| ==> notes[i].payload == p)
    && IsEnumeration(Targets(notes), set s | s in Get(notif, userKey) && !env.fails(s))
  }

  /** The presence check the handlers make before notifying: `p` goes to
      the user's notification sockets only when none of the user's chat
      sockets is in the room. */
  function NotifyUnlessPresent(w: World, userKey: PyVal, room: PyVal, p: Payload, env: Env): (o: Outcome)
    requires ValidEnv(env)
    ensures o.world.reg == w.reg && o.world.db == w.db && o.raised.None?
    ensures forall k :: k != userKey ==> Get(o.world.notif, k) == Get(w.notif, k) && (k in o.world.notif <==> k in w.notif)
    ensures UserInRoom(w.reg, userKey, room) ==> o == Skip(w)
    ensures !UserInRoom(w.reg, userKey, room) ==> NoticeTo(w.notif, o.sent, userKey, p, env)
    ensures !UserInRoom(w.reg, userKey, room) ==> Get(o.world.notif, userKey) == set s | s in Get(w.notif, userKey) && !env.fails(s)
  {
    if UserInRoom(w.reg, userKey, room) then Skip(w) else Notify(w, userKey, p, env)
  }

  /** `websocket.send_json(p)` on the handler's own socket; a closed socket
      raises `WebSocketDisconnect`. */
  function Reply(w: World, ws: Sock, p: Payload, env: Env): (o: Outcome)
    ensures o.world == w
    ensures env.fails(ws) ==> o == Fail(w, WebSocketDisconnect)
    ensures !env.fails(ws) ==> o == Outcome(w, [Send(ws, p)], None)
  {
    if env.fails(ws) then Fail(w, WebSocketDisconnect) else Outcome(w, [Send(ws, p)], None)
  }

  /** `any(ws in room for ws in active_users.get(userKey, set()))`: some
      socket of the user is in the room. */
  function UserInRoom(reg: Registry, userKey: PyVal, room: PyVal): (b: bool)
    ensures b <==> exists s :: s in Get(reg.activeUsers, userKey) && s in Get(reg.conversations, room)
  {
    var mine := Get(reg.activeUsers, userKey);
    var inRoom := Get(reg.conversations, room);
    var both := mine * inRoom;
    assert both != {} ==> exists s :: s in mine && s in inRoom by {
      if both != {} {
        var s :| s in both;
      }
    }
    assert (exists s :: s in mine && s in inRoom) ==> both != {} by {
      if exists s :: s in mine && s in inRoom {
        var s :| s in mine && s in inRoom;
        assert s in both;
      }
    }
    both != {}
  }

  /** No socket of `socks` fails. */
  predicate NoneFail(socks: set<Sock>, env: Env) {
    forall s :: s in socks ==> !env.fails(s)
  }

  /** The room key the handlers use: the conversation id as the URL gave it. */
  function Room(ctx: Ctx): PyVal {
    PyStr(ctx.conversationId)
  }

  /** The key a user's sockets are registered under: `str(user.id)`. */
  function UserKey(u: Uuid): PyVal {
    PyStr(Str(u))
  }
}

=== FILE: manager.dfy ===
/** `ConnectionManager` (app/websocket/manager.py): the socket registry of
    the chat endpoint, with one dictionary from user key to sockets and one
    from conversation key to sockets, and the room broadcast. */
module ConnectionManager {
  import opened Values
  import opened Exceptions
  import opened Wire

  /** A `Dict[key, Set[WebSocket]]`. Keys are Python values, so `"abc"`
      and a UUID with that text are different keys. */
  type SockMap = map<PyVal, set<Sock>>

  datatype Registry = Registry(activeUsers: SockMap, conversations: SockMap)

  /** The registry as `__init__` leaves it. */
  const Initial := Registry(map[], map[])

  /** `m.get(k, set())`. */
  function Get(m: SockMap, k: PyVal): set<Sock> {
    if k in m then m[k] else {}
  }

  /** No key is kept with an empty set of sockets. */
  predicate NoEmptyEntry(m: SockMap) {
    forall k :: k in m ==> m[k] != {}
  }

  /** Create the entry for `k` if it is missing, then add `ws` to it. */
  function Add(m: SockMap, k: PyVal, ws: Sock): (r: SockMap)
    ensures r.Keys == m.Keys + {k}
    ensures Get(r, k) == Get(m, k) + {ws}
    ensures forall k' :: k' != k ==> Get(r, k') == Get(m, k')
    ensures NoEmptyEntry(m) ==> NoEmptyEntry(r)
  {
    m[k := Get(m, k) + {ws}]
  }

  /** Remove `ws` from the entry for `k`, and delete the entry once it is
      empty; nothing happens when `k` has no entry. */
  function Discard(m: SockMap, k: PyVal, ws: Sock): (r: SockMap)
    ensures Get(r, k) == Get(m, k) - {ws}
    ensures k in r <==> k in m && m[k] - {ws} != {}
    ensures forall k' :: k' != k ==> Get(r, k') == Get(m, k') && (k' in r <==> k' in m)
    ensures k !in m ==> r == m
    ensures NoEmptyEntry(m) ==> NoEmptyEntry(r)
  {
    if k !in m then m
    else
      var rest := m[k] - {ws};
      if rest == {} then m - {k} else m[k := rest]
  }

  /** Adding a socket that was absent and then discarding it restores the
      dictionary, provided no entry was empty to begin with. */
  lemma AddDiscardRoundTrip(m: SockMap, k: PyVal, ws: Sock)
    requires NoEmptyEntry(m)
    requires ws !in Get(m, k)
    ensures Discard(Add(m, k, ws), k, ws) == m
  {
    var r := Discard(Add(m, k, ws), k, ws);
    forall k' | k' in m
      ensures k' in r && r[k'] == m[k']
    {
      assert Get(r, k') == Get(m, k');
    }
    assert r.Keys == m.Keys;
  }

  /** Adding the same socket twice leaves the same dictionary as adding it once. */
  lemma AddIdempotent(m: SockMap, k: PyVal, ws: Sock)
    ensures Add(Add(m, k, ws), k, ws) == Add(m, k, ws)
  {
    assert Get(Add(m, k, ws), k) + {ws} == Get(Add(m, k, ws), k);
  }

  /** `connect(websocket, user_id)`, without the `accept()` handshake. */
  function Connect(r: Registry, ws: Sock, userKey: PyVal): (r': Registry)
    ensures userKey in r'.activeUsers && ws in r'.activeUsers[userKey]
    ensures Get(r'.activeUsers, userKey) == Get(r.activeUsers, userKey) + {ws}
    ensures forall k :: k != userKey ==> Get(r'.activeUsers, k) == Get(r.activeUsers, k)
    ensures r'.conversations == r.conversations
  {
    r.(activeUsers := Add(r.activeUsers, userKey, ws))
  }

  /** `disconnect(websocket, user_id)`. */
  function Disconnect(r: Registry, ws: Sock, userKey: PyVal): (r': Registry)
    ensures Get(r'.activeUsers, userKey) == Get(r.activeUsers, userKey) - {ws}
    ensures userKey in r'.activeUsers <==> userKey in r.activeUsers && r.activeUsers[userKey] - {ws} != {}
    ensures forall k :: k != userKey ==> Get(r'.activeUsers, k) == Get(r.activeUsers, k)
    ensures userKey !in r.activeUsers ==> r' == r
    ensures r'.conversations == r.conversations
  {
    r.(activeUsers := Discard(r.activeUsers, userKey, ws))
  }

  /** `join_conversation(websocket, conversation_id)`. */
  function Join(r: Registry, ws: Sock, room: PyVal): (r': Registry)
    ensures room in r'.conversations && ws in r'.conversations[room]
    ensures Get(r'.conversations, room) == Get(r.conversations, room) + {ws}
    ensures forall k :: k != room ==> Get(r'.conversations, k) == Get(r.conversations, k)
    ensures r'.activeUsers == r.activeUsers
  {
    r.(conversations := Add(r.conversations, room, ws))
  }

  /** `leave_conversation(websocket, conversation_id)`. */
  function Leave(r: Registry, ws: Sock, room: PyVal): (r': Registry)
    ensures Get(r'.conversations, room) == Get(r.conversations, room) - {ws}
    ensures room in r'.conversations <==> room in r.conversations && r.conversations[room] - {ws} != {}
    ensures forall k :: k != room ==> Get(r'.conversations, k) == Get(r.conversations, k)
    ensures room !in r.conversations ==> r' == r
    ensures r'.activeUsers == r.activeUsers
  {
    r.(conversations := Discard(r.conversations, room, ws))
  }

  /** Connecting the same socket twice gives the state of connecting it once. */
  lemma ConnectIdempotent(r: Registry, ws: Sock, userKey: PyVal)
    ensures Connect(Connect(r, ws, userKey), ws, userKey) == Connect(r, ws, userKey)
  {
    AddIdempotent(r.activeUsers, userKey, ws);
  }

  /** Joining the same room twice gives the state of joining it once. */
  lemma JoinIdempotent(r: Registry, ws: Sock, room: PyVal)
    ensures Join(Join(r, ws, room), ws, room) == Join(r, ws, room)
  {
    AddIdempotent(r.conversations, room, ws);
  }

  /** The registry invariant: no user and no room is kept with no sockets. */
  predicate Tidy(r: Registry) {
    NoEmptyEntry(r.activeUsers) && NoEmptyEntry(r.conversations)
  }

  /** connect, disconnect, join and leave all keep the registry tidy. */
  lemma BookkeepingKeepsTidy(r: Registry, ws: Sock, k: PyVal)
    requires Tidy(r)
    ensures Tidy(Connect(r, ws, k)) && Tidy(Disconnect(r, ws, k))
    ensures Tidy(Join(r, ws, k)) && Tidy(Leave(r, ws, k))
  {
  }

  /** Connecting a socket that was not registered under `userKey` and then
      disconnecting it under the same key restores the registry; so do
      join and leave on a room. */
  lemma ConnectDisconnectRoundTrip(r: Registry, ws: Sock, k: PyVal)
    requires Tidy(r)
    ensures ws !in Get(r.activeUsers, k) ==> Disconnect(Connect(r, ws, k), ws, k) == r
    ensures ws !in Get(r.conversations, k) ==> Leave(Join(r, ws, k), ws, k) == r
  {
    if ws !in Get(r.activeUsers, k) {
      AddDiscardRoundTrip(r.activeUsers, k, ws);
    }
    if ws !in Get(r.conversations, k) {
      AddDiscardRoundTrip(r.conversations, k, ws);
    }
  }

  /** What an iteration over a room delivered before it stopped. */
  datatype Delivery = Delivery(sent: seq<Send>, failed: Option<Sock>)

  /** Send `msg` to the sockets of `order` one after another and stop at the
      first socket whose send fails. */
  function DeliverUntilFailure(order: seq<Sock>, msg: Payload, fails: Sock -> bool): (d: Delivery)
    ensures |d.sent| <= |order|
    ensures d.sent == SendAll(order[..|d.sent|], msg)
    ensures forall i :: 0 <= i < |d.sent| ==> !fails(order[i])
    ensures d.failed.None? <==> |d.sent| == |order|
    ensures d.failed.Some? ==> |d.sent| < |order| && d.failed.value == order[|d.sent|] && fails(d.failed.value)
  {
    if order == [] then Delivery([], None)
    else if fails(order[0]) then Delivery([], Some(order[0]))
    else
      var rest := DeliverUntilFailure(order[1..], msg, fails);
      Delivery([Send(order[0], msg)] + rest.sent, rest.failed)
  }

  /** The outcome of a broadcast: the registry afterwards, the sends that
      succeeded, and the exception that escaped, if any. */
  datatype Fanout = Fanout(reg: Registry, sent: seq<Send>, raised: Option<Exc>)

  /** What CPython raises from a `for` loop over a set once the loop body
      has removed an element from that set. */
  const SetChangedSize := RuntimeError("Set changed size during iteration")

  /** `broadcast_to_conversation(conversation_id, message)` as written: the
      loop iterates over the live set of the room (in the order `order`), a
      failed send discards that socket from the live set, and the next step
      of the loop then raises. So delivery stops at the first failing
      socket, only that socket is removed, and the `RuntimeError` escapes. */
  function BroadcastToConversation(r: Registry, room: PyVal, msg: Payload, fails: Sock -> bool, order: seq<Sock>): (f: Fanout)
    requires room in r.conversations ==> IsEnumeration(order, r.conversations[room])
    ensures f.reg.activeUsers == r.activeUsers
    ensures f.reg.conversations.Keys == r.conversations.Keys
    ensures forall k :: k != room ==> Get(f.reg.conversations, k) == Get(r.conversations, k)
    ensures room !in r.conversations ==> f == Fanout(r, [], None)
    ensures room in r.conversations && (forall s :: s in r.conversations[room] ==> !fails(s)) ==>
              f == Fanout(r, SendAll(order, msg), None) && IsEnumeration(Targets(f.sent), r.conversations[room])
    ensures room in r.conversations && (exists s :: s in r.conversations[room] && fails(s)) ==>
              && f.raised == Some(SetChangedSize)
              && |f.sent| < |order|
              && f.sent == SendAll(order[..|f.sent|], msg)
              && (forall i :: 0 <= i < |f.sent| ==> !fails(order[i]))
              && fails(order[|f.sent|])
              && f.reg.conversations[room] == r.conversations[room] - {order[|f.sent|]}
  {
    if room !in r.conversations then Fanout(r, [], None)
    else
      var d := DeliverUntilFailure(order, msg, fails);
      match d.failed
      case None =>
        assert Targets(d.sent) == order;
        Fanout(r, d.sent, None)
      case Some(ws) =>
        Fanout(r.(conversations := r.conversations[room := r.conversations[room] - {ws}]), d.sent, Some(SetChangedSize))
  }

  /** The sockets of `order` whose send succeeds, in order. */
  function Survivors(order: seq<Sock>, fails: Sock -> bool): (s: seq<Sock>)
    ensures forall x :: x in s <==> x in order && !fails(x)
    ensures |s| <= |order|
  {
    if order == [] then []
    else (if fails(order[0]) then [] else [order[0]]) + Survivors(order[1..], fails)
  }

  /** Filtering an enumeration of a set enumerates the surviving part of the set. */
  lemma {:induction false} SurvivorsEnumerate(order: seq<Sock>, s: set<Sock>, fails: Sock -> bool)
    requires IsEnumeration(order, s)
    ensures IsEnumeration(Survivors(order, fails), set x | x in s && !fails(x))
    decreases |order|
  {
    if order != [] {
      var tail := order[1..];
      assert IsEnumeration(tail, s - {order[0]}) by {
        forall x ensures x in tail <==> x in s - {order[0]} {
          if x in tail {
            var j :| 0 <= j < |tail| && tail[j] == x;
            assert order[j + 1] == x;
          }
          if x in s - {order[0]} {
            var j :| 0 <= j < |order| && order[j] == x;
            assert j != 0;
            assert tail[j - 1] == x;
          }
        }
      }
      SurvivorsEnumerate(tail, s - {order[0]}, fails);
      var rest := Survivors(tail, fails);
      var t := Survivors(order, fails);
      assert order[0] !in rest;
      forall i, j | 0 <= i < j < |t| ensures t[i] != t[j] {
        if !fails(order[0]) && i == 0 {
          assert t[j] == rest[j - 1];
          assert t[j] in rest;
        }
      }
    }
  }

  /** The evidently intended broadcast: iterate over a snapshot of the room,
      as `NotificationManager.send_notifications` does, discard every
      socket whose send fails and keep delivering to the others. */
  function BroadcastSnapshot(r: Registry, room: PyVal, msg: Payload, fails: Sock -> bool, order: seq<Sock>): (f: Fanout)
    requires room in r.conversations ==> IsEnumeration(order, r.conversations[room])
    ensures f.raised == None
    ensures f.reg.activeUsers == r.activeUsers
    ensures forall k :: k != room ==> Get(f.reg.conversations, k) == Get(r.conversations, k)
    ensures room in r.conversations ==>
              && IsEnumeration(Targets(f.sent), set s | s in r.conversations[room] && !fails(s))
              && (forall i :: 0 <= i < |f.sent| ==> f.sent[i].payload == msg)
              && Get(f.reg.conversations, room) == set s | s in r.conversations[room] && !fails(s)
    ensures room !in r.conversations ==> f == Fanout(r, [], None)
  {
    if room !in r.conversations then Fanout(r, [], None)
    else
      var live := Survivors(order, fails);
      SurvivorsEnumerate(order, r.conversations[room], fails);
      assert Targets(SendAll(live, msg)) == live;
      Fanout(r.(conversations := r.conversations[room := set s | s in r.conversations[room] && !fails(s)]),
             SendAll(live, msg), None)
  }

  /** Finding: with one failing socket iterated first, the as-written
      broadcast reaches nobody else in the room and raises, while the
      snapshot broadcast reaches the other socket. */
  lemma LiveSetBroadcastStopsEarly(r: Registry, room: PyVal, msg: Payload, a: Sock, b: Sock)
    requires a != b
    requires room in r.conversations && r.conversations[room] == {a, b}
    ensures var fails := (s: Sock) => s == a;
            var f := BroadcastToConversation(r, room, msg, fails, [a, b]);
            var g := BroadcastSnapshot(r, room, msg, fails, [a, b]);
            && f.sent == [] && f.raised == Some(SetChangedSize)
            && f.reg.conversations[room] == {b}
            && g.sent == [Send(b, msg)] && g.raised == None
  {
    var fails := (s: Sock) => s == a;
    assert IsEnumeration([a, b], {a, b});
    var f := BroadcastToConversation(r, room, msg, fails, [a, b]);
    assert DeliverUntilFailure([a, b], msg, fails) == Delivery([], Some(a));
    assert Survivors([a, b], fails) == [b] by {
      assert Survivors([b], fails) == [b] by {
        assert [b][1..] == [];
      }
      assert [a, b][1..] == [b];
    }
  }
}

=== FILE: message_service.dfy ===
/** `MessageService` (app/services/message_service.py) over the `messages`
    table. The clock (`datetime.now`) and the fresh primary key
    (`uuid.uuid4`) are parameters. */
module MessageService {
  import opened Values
  import opened Exceptions
  import opened UuidUtil
  import opened Wire
  import opened Models
  import opened Tables

  /** `can_user_access_conversation`: a participant is user1 or user2. */
  function CanUserAccessConversation(conv: Conversation, userId: PyVal): (r: Result<bool>)
    ensures ToUuid(userId).Err? ==> r == Err(ToUuid(userId).error)
    ensures r.Ok? ==> (r.value <==> ToUuid(userId).value in {conv.user1, conv.user2})
  {
    var u :- ToUuid(userId);
    Ok(conv.user1 == u || conv.user2 == u)
  }

  const EmptyContent := AppException("Message content cannot be empty")

  /** `not content or content.strip() == ""`, raising like the source: a
      missing or blank text is rejected, and a non-text value fails on
      `.strip` and is re-raised as a `DatabaseException`. */
  function CheckContent(content: PyVal): (r: Result<string>)
    ensures r.Ok? <==> content.PyStr? && !IsBlank(content.s)
    ensures r.Ok? ==> r.value == content.s
    ensures content.PyNone? || (content.PyStr? && IsBlank(content.s)) ==> r == Err(EmptyContent)
  {
    match content
    case PyNone => Err(EmptyContent)
    case PyStr(s) => if s == "" || IsBlank(s) then Err(EmptyContent) else Ok(s)
    case PyUuid(_) => Err(DatabaseException("'UUID' object has no attribute 'strip'"))
  }

  /** The participant of `conv` who is not `sender`: user1 when the sender
      is user2, and user2 otherwise (also when the sender is neither). For
      a participant, sender and receiver are the two participants, and
      they coincide only in a conversation with oneself. */
  function ReceiverOf(conv: Conversation, sender: Uuid): (r: Uuid)
    ensures r in {conv.user1, conv.user2}
    ensures sender in {conv.user1, conv.user2} ==> {sender, r} == {conv.user1, conv.user2}
    ensures sender in {conv.user1, conv.user2} ==> (r == sender <==> conv.user1 == conv.user2)
    ensures sender !in {conv.user1, conv.user2} ==> r == conv.user2
  {
    if conv.user2 == sender then conv.user1 else conv.user2
  }

  /** `send_message`: the stored message and the table with it appended. */
  function SendMessage(rows: seq<Message>, conv: Conversation, senderId: PyVal, content: PyVal, newId: Uuid, now: Timestamp): (r: Result<(seq<Message>, Message)>)
    ensures ToUuid(senderId).Ok? && CheckContent(content).Err? ==> r == Err(CheckContent(content).error)
    ensures r.Ok? <==> ToUuid(senderId).Ok? && CheckContent(content).Ok? && !HasMessageId(rows, newId)
    ensures r.Ok? ==>
              var msg := r.value.1;
              && r.value.0 == rows + [msg]
              && msg.id == newId && msg.conversationId == conv.id
              && msg.senderId == ToUuid(senderId).value
              && msg.receiverId == ReceiverOf(conv, msg.senderId)
              && msg.content == CheckContent(content).value && !IsBlank(msg.content)
              && msg.status == Sent && !msg.isDeleted && msg.sentAt == now
              && msg.deliveredAt == None && msg.readAt == None && msg.editedAt == None
    ensures r.Ok? && UniqueMessageIds(rows) ==> UniqueMessageIds(r.value.0)
  {
    var sender :- ToUuid(senderId);
    var receiver := ReceiverOf(conv, sender);
    var text :- CheckContent(content);
    if HasMessageId(rows, newId) then Err(DatabaseException(DuplicateKey))
    else
      var msg := Message(newId, conv.id, sender, receiver, text, Sent, false, now, None, None, None);
      Ok((rows + [msg], msg))
  }

  /** `send_message` with empty, whitespace-only or missing content raises
      and stores nothing. */
  lemma SendMessageRejectsBlank(rows: seq<Message>, conv: Conversation, sender: Uuid, content: PyVal, newId: Uuid, now: Timestamp)
    requires content.PyNone? || (content.PyStr? && IsBlank(content.s))
    ensures SendMessage(rows, conv, PyUuid(sender), content, newId, now) == Err(EmptyContent)
  {
  }

  /** The messages of conversation `c`, in storage order
      (`WHERE conversation_id = c`). */
  function ConversationRows(rows: seq<Message>, c: Uuid): seq<Message> {
    Filter(rows, (m: Message) => m.conversationId == c)
  }

  /** `page` is what `ORDER BY sent_at LIMIT limit` returns for conversation
      `c`: messages of that conversation only, in `sent_at` order, as many
      as the limit allows, all of them when they fit, and never a message
      sent later than one it leaves out. */
  ghost predicate IsPage(rows: seq<Message>, c: Uuid, limit: nat, page: seq<Message>) {
    var mine := ConversationRows(rows, c);
    && |page| == (if limit < |mine| then limit else |mine|)
    && (forall i :: 0 <= i < |page| ==> page[i].conversationId == c && page[i] in rows)
    && SortedBy(page, (m: Message) => m.sentAt)
    && multiset(page) <= multiset(mine)
    && (|mine| <= limit ==> multiset(page) == multiset(mine))
    && (forall m, x :: m in mine && m !in page && x in page ==> x.sentAt <= m.sentAt)
  }

  /** `list_messages(conv_id, limit=50)`: the conversation's messages
      ordered by `sent_at`, at most `limit` of them. */
  function ListMessages(rows: seq<Message>, convId: PyVal, limit: nat := 50): (r: Result<seq<Message>>)
    ensures ToUuid(convId).Err? ==> r == Err(ToUuid(convId).error)
    ensures ToUuid(convId).Ok? ==> r.Ok? && IsPage(rows, ToUuid(convId).value, limit, r.value)
  {
    var c :- ToUuid(convId);
    Ok(ConversationPage(rows, c, limit))
  }

  /** The first `limit` messages of conversation `c` by `sent_at`. */
  function ConversationPage(rows: seq<Message>, c: Uuid, limit: nat): (r: seq<Message>)
    ensures IsPage(rows, c, limit, r)
  {
    var mine := ConversationRows(rows, c);
    var page := SortedPage(mine, (m: Message) => m.sentAt, limit);
    assert forall i :: 0 <= i < |page| ==> page[i] in mine;
    PageKeepsEarliest(mine, limit);
    page
  }

  /** Every message of the conversation that the limit leaves out was sent
      no earlier than any message the page keeps. */
  lemma PageKeepsEarliest(mine: seq<Message>, limit: nat)
    ensures var page := SortedPage(mine, (m: Message) => m.sentAt, limit);
            forall m, x :: m in mine && m !in page && x in page ==> x.sentAt <= m.sentAt
  {
    var page := SortedPage(mine, (m: Message) => m.sentAt, limit);
    forall m, x | m in mine && m !in page && x in page ensures x.sentAt <= m.sentAt {
      SortedPageKeepsSmallest(mine, (m: Message) => m.sentAt, limit, m);
    }
  }

  /** A message of the conversation that the limit leaves out was sent no
      earlier than every message that was returned. */
  lemma ListMessagesKeepsEarliest(rows: seq<Message>, convId: PyVal, limit: nat, m: Message)
    requires ToUuid(convId).Ok?
    requires m in rows && m.conversationId == ToUuid(convId).value
    requires m !in ListMessages(rows, convId, limit).value
    ensures forall x :: x in ListMessages(rows, convId, limit).value ==> x.sentAt <= m.sentAt
  {
    var c := ToUuid(convId).value;
    var i :| 0 <= i < |rows| && rows[i] == m;
    assert m in ConversationRows(rows, c);
  }

  /** A message just sent is listed with its conversation, as long as the
      conversation held fewer messages than the page size. */
  lemma SentMessageIsListed(rows: seq<Message>, conv: Conversation, senderId: PyVal, content: PyVal, newId: Uuid, now: Timestamp)
    requires SendMessage(rows, conv, senderId, content, newId, now).Ok?
    requires |ConversationRows(rows, conv.id)| < 50
    ensures var (rows', msg) := SendMessage(rows, conv, senderId, content, newId, now).value;
            msg in ListMessages(rows', PyUuid(conv.id)).value
  {
    var (rows', msg) := SendMessage(rows, conv, senderId, content, newId, now).value;
    var c := conv.id;
    FilterAppend(rows, msg, (m: Message) => m.conversationId == c);
    var mine := ConversationRows(rows', c);
    assert mine == ConversationRows(rows, c) + [msg];
    assert msg in mine;
    var listed := ListMessages(rows', PyUuid(c)).value;
    assert multiset(listed) == multiset(mine);
    assert msg in multiset(listed);
  }

  /** The receipt kinds that `mark_delivered` and `mark_read` record. */
  datatype Receipt = DeliveredReceipt | ReadReceipt

  /** The message with the receipt recorded: the status, and the matching
      timestamp set to `now`. The previous status is not consulted. */
  function Stamp(m: Message, receipt: Receipt, now: Timestamp): Message {
    match receipt
    case DeliveredReceipt => m.(status := Delivered, deliveredAt := Some(now))
    case ReadReceipt => m.(status := Read, readAt := Some(now))
  }

  const MessageNotFound := AppException("Message not found")
  const NotAllowed := AppException("Not allowed")

  /** What `mark_delivered` and `mark_read` promise: malformed ids raise, a
      missing message and a caller who is not its receiver are refused, a
      lookup matching several rows is a database error, and otherwise that
      one row, and nothing else, is stamped with the receipt. */
  ghost predicate Marked(rows: seq<Message>, messageId: PyVal, userId: PyVal, receipt: Receipt, now: Timestamp, r: Result<(seq<Message>, Message)>) {
    && (ToUuid(messageId).Err? ==> r == Err(ToUuid(messageId).error))
    && (ToUuid(messageId).Ok? && ToUuid(userId).Err? ==> r == Err(ToUuid(userId).error))
    && (ToUuid(messageId).Ok? && ToUuid(userId).Ok? ==>
          var found := OneOrNone(rows, (m: Message) => m.id == ToUuid(messageId).value);
          && (found.NoRow? ==> r == Err(MessageNotFound))
          && (found.ManyRows? ==> r == Err(DatabaseException(MultipleRows)))
          && (found.OneRow? && rows[found.index].receiverId != ToUuid(userId).value ==> r == Err(NotAllowed))
          && (found.OneRow? && rows[found.index].receiverId == ToUuid(userId).value ==>
                r == Ok((rows[found.index := Stamp(rows[found.index], receipt, now)], Stamp(rows[found.index], receipt, now)))))
    && (r.Ok? ==>
          && |r.value.0| == |rows|
          && (exists i :: 0 <= i < |rows| && rows[i].id == r.value.1.id && rows[i].receiverId == r.value.1.receiverId
               && r.value.0 == rows[i := r.value.1] && r.value.1 == Stamp(rows[i], receipt, now))
          && ToUuid(messageId).Ok? && r.value.1.id == ToUuid(messageId).value
          && ToUuid(userId).Ok? && r.value.1.receiverId == ToUuid(userId).value)
  }

  /** The shared body of `mark_delivered` and `mark_read`: look the message
      up, require the caller to be its receiver, record the receipt. A
      lookup matching several rows fails inside `scalar_one_or_none` and is
      re-raised as a `DatabaseException`. */
  function Mark(rows: seq<Message>, messageId: PyVal, userId: PyVal, receipt: Receipt, now: Timestamp): (r: Result<(seq<Message>, Message)>)
    ensures Marked(rows, messageId, userId, receipt, now, r)
    ensures r.Ok? && UniqueMessageIds(rows) ==> UniqueMessageIds(r.value.0)
  {
    var mid :- ToUuid(messageId);
    var uid :- ToUuid(userId);
    match OneOrNone(rows, (m: Message) => m.id == mid)
    case NoRow => Err(MessageNotFound)
    case ManyRows => Err(DatabaseException(MultipleRows))
    case OneRow(i) =>
      if rows[i].receiverId != uid then Err(NotAllowed)
      else
        var m := Stamp(rows[i], receipt, now);
        Ok((rows[i := m], m))
  }

  /** `mark_delivered`. */
  function MarkDelivered(rows: seq<Message>, messageId: PyVal, userId: PyVal, now: Timestamp): (r: Result<(seq<Message>, Message)>)
    ensures Marked(rows, messageId, userId, DeliveredReceipt, now, r)
    ensures r.Ok? ==> r.value.1.status == Delivered && r.value.1.deliveredAt == Some(now)
  {
    Mark(rows, messageId, userId, DeliveredReceipt, now)
  }

  /** `mark_read`. */
  function MarkRead(rows: seq<Message>, messageId: PyVal, userId: PyVal, now: Timestamp): (r: Result<(seq<Message>, Message)>)
    ensures Marked(rows, messageId, userId, ReadReceipt, now, r)
    ensures r.Ok? ==> r.value.1.status == Read && r.value.1.readAt == Some(now)
  {
    Mark(rows, messageId, userId, ReadReceipt, now)
  }

  /** A receipt changes only the marked message, and only in its status and
      that receipt's timestamp; a caller who is not the receiver is refused. */
  lemma MarkChangesOnlyTarget(rows: seq<Message>, messageId: PyVal, userId: PyVal, receipt: Receipt, now: Timestamp)
    requires UniqueMessageIds(rows)
    ensures var r := Mark(rows, messageId, userId, receipt, now);
            r.Ok? ==>
              && (forall j :: 0 <= j < |rows| && rows[j].id != r.value.1.id ==> r.value.0[j] == rows[j])
              && (forall j :: 0 <= j < |rows| && rows[j].id == r.value.1.id ==>
                    var old_ := rows[j];
                    r.value.0[j] == old_.(status := r.value.1.status, deliveredAt := r.value.1.deliveredAt, readAt := r.value.1.readAt)
                    && (receipt.DeliveredReceipt? ==> r.value.1.readAt == old_.readAt)
                    && (receipt.ReadReceipt? ==> r.value.1.deliveredAt == old_.deliveredAt))
  {
  }

  /** Receipts are receiver-only: whoever is not the receiver of the
      message is refused and the table is unchanged. */
  lemma MarkRefusesNonReceiver(rows: seq<Message>, i: nat, userId: Uuid, receipt: Receipt, now: Timestamp)
    requires UniqueMessageIds(rows)
    requires i < |rows| && rows[i].receiverId != userId
    ensures Mark(rows, PyUuid(rows[i].id), PyUuid(userId), receipt, now) == Err(NotAllowed)
  {
    OneOrNoneUnique(rows, (m: Message) => m.id == rows[i].id, i);
  }
}

=== FILE: messages_router.dfy ===
/** The message routes of app/api/v1/messages.py: both look the
    conversation up by the id in the path, refuse a caller who does not
    take part in it, and then store a message or list the conversation's
    messages. */
module MessagesRouter {
  import opened Values
  import opened Exceptions
  import opened UuidUtil
  import opened Wire
  import opened Models
  import opened Tables
  import CS = ConversationService
  import MS = MessageService

  const ConversationNotFound := AppException("Conversation not found")

  /** `HTTPException(status_code=403, detail="Not allowed")`. */
  const Forbidden := HttpException(403, "Not allowed")

  /** The guard both routes open with: parse the path id, find the
      conversation, and check that the caller is one of its two users. */
  function Authorize(convs: seq<Conversation>, convId: string, current: Uuid): (r: Result<Conversation>)
    ensures ToUuid(PyStr(convId)).Err? ==> r == Err(ToUuid(PyStr(convId)).error)
    ensures ToUuid(PyStr(convId)).Ok? ==>
              var id := ToUuid(PyStr(convId)).value;
              && ((forall i :: 0 <= i < |convs| ==> convs[i].id != id) ==> r == Err(ConversationNotFound))
              && (CS.GetById(convs, id).Some? && !CS.HasParticipant(CS.GetById(convs, id).value, current) ==> r == Err(Forbidden))
    ensures r.Ok? ==>
              && r.value in convs
              && ToUuid(PyStr(convId)) == Ok(r.value.id)
              && CS.HasParticipant(r.value, current)
  {
    var id :- ToUuid(PyStr(convId));
    match CS.GetById(convs, id)
    case None => Err(ConversationNotFound)
    case Some(conv) =>
      var allowed := MS.CanUserAccessConversation(conv, PyUuid(current)).value;
      if !allowed then Err(Forbidden) else Ok(conv)
  }

  /** `send_message` (POST): the stored message and the store with it. */
  function SendRoute(db: Db, convId: string, content: string, current: Uuid, newId: Uuid, now: Timestamp): (r: Result<(Db, Message)>)
    ensures Authorize(db.conversations, convId, current).Err? ==> r == Err(Authorize(db.conversations, convId, current).error)
    ensures Authorize(db.conversations, convId, current).Ok? && IsBlank(content) ==> r == Err(MS.EmptyContent)
    ensures r.Ok? <==> Authorize(db.conversations, convId, current).Ok? && !IsBlank(content) && !HasMessageId(db.messages, newId)
    ensures r.Ok? ==>
              var (db', msg) := r.value;
              && db' == db.(messages := db.messages + [msg])
              && ToUuid(PyStr(convId)) == Ok(msg.conversationId)
              && msg.senderId == current && msg.content == content
              && msg.id == newId && msg.sentAt == now && msg.status == Sent
              && (exists c :: c in db.conversations && c.id == msg.conversationId
                              && CS.HasParticipant(c, current) && CS.HasParticipant(c, msg.receiverId))
  {
    var conv :- Authorize(db.conversations, convId, current);
    var (rows, msg) :- MS.SendMessage(db.messages, conv, PyUuid(current), PyStr(content), newId, now);
    assert CS.HasParticipant(conv, msg.receiverId);
    Ok((db.(messages := rows), msg))
  }

  /** `list_messages` (GET): the conversation's first 50 messages by
      `sent_at`. */
  function ListRoute(db: Db, convId: string, current: Uuid): (r: Result<seq<Message>>)
    ensures Authorize(db.conversations, convId, current).Err? ==> r == Err(Authorize(db.conversations, convId, current).error)
    ensures Authorize(db.conversations, convId, current).Ok? ==> r.Ok?
    ensures r.Ok? ==>
              && |r.value| <= 50
              && ToUuid(PyStr(convId)).Ok?
              && MS.IsPage(db.messages, ToUuid(PyStr(convId)).value, 50, r.value)
  {
    var conv :- Authorize(db.conversations, convId, current);
    MS.ListMessages(db.messages, PyUuid(ToUuid(PyStr(convId)).value))
  }

  /** A caller who is not one of the conversation's users is refused with
      403 by both routes, and nothing is stored. */
  lemma OutsiderRefused(db: Db, conv: Conversation, current: Uuid, content: string, newId: Uuid, now: Timestamp)
    requires WellFormed(conv.id)
    requires CS.GetById(db.conversations, conv.id) == Some(conv)
    requires !CS.HasParticipant(conv, current)
    ensures SendRoute(db, Str(conv.id), content, current, newId, now) == Err(Forbidden)
    ensures ListRoute(db, Str(conv.id), current) == Err(Forbidden)
  {
    ToUuidOfStr(conv.id);
  }

  /** A participant's message, once sent, is in the list the same route
      returns for the conversation (while the conversation holds fewer
      than 50 messages): the flow `test_list_message` exercises. */
  lemma SendThenList(db: Db, convId: string, content: string, current: Uuid, newId: Uuid, now: Timestamp)
    requires SendRoute(db, convId, content, current, newId, now).Ok?
    requires ToUuid(PyStr(convId)).Ok? && |MS.ConversationRows(db.messages, ToUuid(PyStr(convId)).value)| < 50
    ensures var (db', msg) := SendRoute(db, convId, content, current, newId, now).value;
            && ListRoute(db', convId, current).Ok?
            && msg in ListRoute(db', convId, current).value
  {
    var conv := Authorize(db.conversations, convId, current).value;
    var (db', msg) := SendRoute(db, convId, content, current, newId, now).value;
    assert MS.SendMessage(db.messages, conv, PyUuid(current), PyStr(content), newId, now) == Ok((db'.messages, msg));
    MS.SentMessageIsListed(db.messages, conv, PyUuid(current), PyStr(content), newId, now);
    assert ToUuid(PyStr(convId)).value == conv.id;
    assert Authorize(db'.conversations, convId, current) == Ok(conv);
  }
}

=== FILE: messaging.dfy ===
/** `handle_send_message` of app/websocket/handlers/messaging.py, the
    variant the event table routes `send_message` to: store the message,
    then broadcast it to the room. */
module Messaging {
  import opened Values
  import opened Exceptions
  import opened Wire
  import opened Models
  import opened ConnectionManager
  import opened MessageService
  import opened Handlers

  /** The `new_message` event of this variant, which has no `receiver_id`. */
  function NewMessageEvent(msg: Message): Payload {
    NewMessage(msg.id, msg.senderId, None, msg.content, msg.sentAt)
  }

  function HandleSendMessage(w: World, ctx: Ctx, data: Data, env: Env): (o: Outcome)
    requires ValidEnv(env)
    ensures var sm := SendMessage(w.db.messages, ctx.conversation, PyUuid(ctx.user), data.content, env.freshId, env.now);
            && (sm.Err? ==> o == Fail(w, sm.error))
            && (sm.Ok? ==>
                  var msg := sm.value.1;
                  var room := Get(w.reg.conversations, Room(ctx));
                  && msg.senderId == ctx.user && data.content == PyStr(msg.content)
                  && msg.conversationId == ctx.conversation.id && msg.status == Sent
                  && o.world.db == w.db.(messages := w.db.messages + [msg])
                  && o.world.notif == w.notif
                  && o.world.reg.activeUsers == w.reg.activeUsers
                  && (forall i :: 0 <= i < |o.sent| ==> o.sent[i].payload == NewMessage(msg.id, ctx.user, None, msg.content, msg.sentAt) && o.sent[i].to in room)
                  && (NoneFail(room, env) ==> o.raised.None? && o.world.reg == w.reg && IsEnumeration(Targets(o.sent), room))
                  && (forall k :: k != Room(ctx) ==> Get(o.world.reg.conversations, k) == Get(w.reg.conversations, k))
                  && (!NoneFail(room, env) ==> StoppedAt(w.reg, Room(ctx), NewMessage(msg.id, ctx.user, None, msg.content, msg.sentAt), env, o)))
  {
    match SendMessage(w.db.messages, ctx.conversation, PyUuid(ctx.user), data.content, env.freshId, env.now)
    case Err(e) => Fail(w, e)
    case Ok((rows, msg)) =>
      var w1 := w.(db := w.db.(messages := rows));
      var o := Broadcast(w1, Room(ctx), NewMessageEvent(msg), env);
      var room := Get(w.reg.conversations, Room(ctx));
      if NoneFail(room, env) then
        var order := env.iter(room);
        assert Targets(o.sent) == order;
        o
      else
        assert Room(ctx) in w.reg.conversations;
        o
  }

  /** A blank or missing `content` stores nothing and sends nothing. */
  lemma BlankContentSendsNothing(w: World, ctx: Ctx, data: Data, env: Env)
    requires ValidEnv(env)
    requires data.content.PyNone? || (data.content.PyStr? && IsBlank(data.content.s))
    ensures HandleSendMessage(w, ctx, data, env) == Fail(w, EmptyContent)
  {
  }
}

=== FILE: messaging_handler.dfy ===
/** `handle_send_message` of app/websocket/handlers/messaging_handler.py,
    the variant with unread counts and notifications: store the message,
    read the receiver's unread count, broadcast `new_message`, notify the
    receiver if none of their chat sockets is in the room, and broadcast
    `unread_update`. The event table does not route to this variant. */
module MessagingHandler {
  import opened Values
  import opened Exceptions
  import opened UuidUtil
  import opened Wire
  import opened Models
  import opened ConnectionManager
  import opened MessageService
  import opened UnreadService
  import opened Handlers

  /** The `new_message` event, with the receiver's id. */
  function NewMessageEvent(msg: Message): Payload {
    NewMessage(msg.id, msg.senderId, Some(msg.receiverId), msg.content, msg.sentAt)
  }

  /** The `notification` of type "message" for the receiver. */
  function MessageNotice(ctx: Ctx, msg: Message): Payload {
    Notification("message", ctx.conversationId, ctx.user, msg.content, msg.sentAt)
  }

  /** What the room and the receiver see once the message is stored, when
      no socket of the room fails: `new_message` to every socket of the
      room, then the notification to every live notification socket of the
      receiver exactly when the receiver has no chat socket in the room,
      then `unread_update` with `unread` to every socket of the room; the
      chat registry is unchanged. */
  ghost predicate AnnouncedToAll(reg: Registry, notif: SockMap, o: Outcome, ctx: Ctx, msg: Message, unread: int, env: Env)
    requires ValidEnv(env)
  {
    var order := env.iter(Get(reg.conversations, Room(ctx)));
    var n := |order|;
    var receiverKey := UserKey(msg.receiverId);
    && o.raised.None? && o.world.reg == reg
    && 2 * n <= |o.sent|
    && o.sent[..n] == SendAll(order, NewMessageEvent(msg))
    && o.sent[|o.sent| - n..] == SendAll(order, UnreadUpdate(ctx.conversationId, unread))
    && (UserInRoom(reg, receiverKey, Room(ctx)) ==> |o.sent| == 2 * n && o.world.notif == notif)
    && (!UserInRoom(reg, receiverKey, Room(ctx)) ==> NoticeTo(notif, o.sent[n..|o.sent| - n], receiverKey, MessageNotice(ctx, msg), env))
  }

  /** When some socket of the room fails, the first broadcast stops as
      `StoppedAt` says: only `new_message` sends went out and no
      notification was attempted. */
  ghost predicate StoppedAtFirstBroadcast(reg: Registry, notif: SockMap, o: Outcome, ctx: Ctx, msg: Message, env: Env) {
    && o.world.notif == notif
    && StoppedAt(reg, Room(ctx), NewMessageEvent(msg), env, o)
    && forall i :: 0 <= i < |o.sent| ==> o.sent[i].payload == NewMessageEvent(msg)
  }

  /** The announcement as a whole: only the receiver's notification sockets
      and the room can change, as the two cases above say. */
  ghost predicate Announced(reg: Registry, notif: SockMap, o: Outcome, ctx: Ctx, msg: Message, unread: int, env: Env)
    requires ValidEnv(env)
  {
    var room := Get(reg.conversations, Room(ctx));
    && o.world.reg.activeUsers == reg.activeUsers
    && (forall k :: k != UserKey(msg.receiverId) ==> Get(o.world.notif, k) == Get(notif, k) && (k in o.world.notif <==> k in notif))
    && (NoneFail(room, env) ==> AnnouncedToAll(reg, notif, o, ctx, msg, unread, env))
    && (!NoneFail(room, env) ==> StoppedAtFirstBroadcast(reg, notif, o, ctx, msg, env))
  }

  /** Lines 35-75: everything after the message is stored and the count
      to report is known. */
  function Announce(w: World, ctx: Ctx, msg: Message, unread: int, env: Env): (o: Outcome)
    requires ValidEnv(env)
    ensures o.world.db == w.db
    ensures Announced(w.reg, w.notif, o, ctx, msg, unread, env)
  {
    var room := Get(w.reg.conversations, Room(ctx));
    var order := env.iter(room);
    var o1 := Broadcast(w, Room(ctx), NewMessageEvent(msg), env);
    if o1.raised.Some? then
      assert !NoneFail(room, env);
      o1
    else
      assert NoneFail(room, env);
      assert o1 == Outcome(w, SendAll(order, NewMessageEvent(msg)), None);
      var receiverKey := UserKey(msg.receiverId);
      var o2 := NotifyUnlessPresent(w, receiverKey, Room(ctx), MessageNotice(ctx, msg), env);
      var o3 := Broadcast(o2.world, Room(ctx), UnreadUpdate(ctx.conversationId, unread), env);
      assert o3 == Outcome(o2.world, SendAll(order, UnreadUpdate(ctx.conversationId, unread)), None);
      var o := Outcome(o2.world, o1.sent + o2.sent + o3.sent, None);
      ThreePhases(o1.sent, o2.sent, o3.sent);
      assert AnnouncedToAll(w.reg, w.notif, o, ctx, msg, unread, env);
      o
  }

  /** The three phases of a concatenation are recovered by slicing. */
  lemma ThreePhases(a: seq<Send>, b: seq<Send>, c: seq<Send>)
    ensures var all := a + b + c;
            && all[..|a|] == a
            && all[|all| - |c|..] == c
            && all[|a|..|all| - |c|] == b
  {
    var all := a + b + c;
    assert all[..|a|] == a;
    assert all[|all| - |c|..] == c;
    assert all[|a|..|all| - |c|] == b;
  }

  /** `handle_send_message` as written. */
  function HandleSendMessage(w: World, ctx: Ctx, data: Data, env: Env): (o: Outcome)
    requires ValidEnv(env)
    ensures var sm := SendMessage(w.db.messages, ctx.conversation, PyUuid(ctx.user), data.content, env.freshId, env.now);
            && (sm.Err? ==> o == Fail(w, sm.error))
            && (sm.Ok? ==>
                  var msg := sm.value.1;
                  var stored := w.db.(messages := w.db.messages + [msg]);
                  var gu := GetUnread(w.db.unread, Room(ctx), PyUuid(msg.receiverId));
                  && msg.senderId == ctx.user && data.content == PyStr(msg.content)
                  && (gu.Err? ==> o == Fail(w.(db := stored), gu.error))
                  && (gu.Ok? ==>
                        var key := (ToUuid(Room(ctx)).value, msg.receiverId);
                        var prior := if key in w.db.unread then w.db.unread[key] else 0;
                        && o.world.db == stored.(unread := o.world.db.unread)
                        && key in o.world.db.unread && o.world.db.unread[key] == prior
                        && o.world.db.unread.Keys == w.db.unread.Keys + {key}
                        && (forall k :: k in w.db.unread ==> o.world.db.unread[k] == w.db.unread[k])
                        && Announced(w.reg, w.notif, o, ctx, msg, prior, env)))
  {
    match SendMessage(w.db.messages, ctx.conversation, PyUuid(ctx.user), data.content, env.freshId, env.now)
    case Err(e) => Fail(w, e)
    case Ok((rows, msg)) =>
      var w1 := w.(db := w.db.(messages := rows));
      match GetUnread(w1.db.unread, Room(ctx), PyUuid(msg.receiverId))
      case Err(e) => Fail(w1, e)
      case Ok(c) =>
        Announce(w1.(db := w1.db.(unread := c.table)), ctx, msg, c.count, env)
  }

  /** Every counter is zero. */
  predicate AllZero(t: UnreadTable) {
    forall k :: k in t ==> t[k] == 0
  }

  /** Finding, as written: sending never increments a counter, so from
      all-zero counters every counter stays zero and the `unread_update`
      the room receives reports 0, although the receiver has not read the
      new message. */
  lemma SendNeverCounts(w: World, ctx: Ctx, data: Data, env: Env)
    requires ValidEnv(env)
    requires AllZero(w.db.unread)
    ensures var o := HandleSendMessage(w, ctx, data, env);
            && AllZero(o.world.db.unread)
            && forall i :: 0 <= i < |o.sent| && o.sent[i].payload.UnreadUpdate? ==> o.sent[i].payload.unread == 0
  {
    var o := HandleSendMessage(w, ctx, data, env);
    var sm := SendMessage(w.db.messages, ctx.conversation, PyUuid(ctx.user), data.content, env.freshId, env.now);
    if sm.Ok? {
      var msg := sm.value.1;
      var gu := GetUnread(w.db.unread, Room(ctx), PyUuid(msg.receiverId));
      if gu.Ok? {
        var key := (ToUuid(Room(ctx)).value, msg.receiverId);
        ZeroTableStaysZero(w.db.unread, o.world.db.unread, key);
        AnnouncedPayloads(w.reg, w.notif, o, ctx, msg, 0, env);
      }
    }
  }

  /** A table that gains at most the key `key`, at the count it had, and
      keeps every other counter, stays all zero. */
  lemma ZeroTableStaysZero(t: UnreadTable, t': UnreadTable, key: (Uuid, Uuid))
    requires AllZero(t)
    requires t'.Keys == t.Keys + {key} && t'[key] == (if key in t then t[key] else 0)
    requires forall k :: k in t ==> t'[k] == t[k]
    ensures AllZero(t')
  {
    forall k | k in t' ensures t'[k] == 0 {
      if k !in t {
        assert k == key;
      }
    }
  }

  /** An announcement sends nothing but the three payloads of the
      handler, and its `unread_update` carries the count it was given. */
  lemma AnnouncedPayloads(reg: Registry, notif: SockMap, o: Outcome, ctx: Ctx, msg: Message, unread: int, env: Env)
    requires ValidEnv(env)
    requires Announced(reg, notif, o, ctx, msg, unread, env)
    ensures forall i :: 0 <= i < |o.sent| ==>
              o.sent[i].payload in {NewMessageEvent(msg), MessageNotice(ctx, msg), UnreadUpdate(ctx.conversationId, unread)}
  {
    var room := Get(reg.conversations, Room(ctx));
    var order := env.iter(room);
    var n := |order|;
    if NoneFail(room, env) {
      assert AnnouncedToAll(reg, notif, o, ctx, msg, unread, env);
      forall i | 0 <= i < |o.sent|
        ensures o.sent[i].payload in {NewMessageEvent(msg), MessageNotice(ctx, msg), UnreadUpdate(ctx.conversationId, unread)}
      {
        if i < n {
          assert o.sent[i] == o.sent[..n][i];
        } else if i < |o.sent| - n {
          assert !UserInRoom(reg, UserKey(msg.receiverId), Room(ctx));
          assert NoticeTo(notif, o.sent[n..|o.sent| - n], UserKey(msg.receiverId), MessageNotice(ctx, msg), env);
          assert o.sent[i] == o.sent[n..|o.sent| - n][i - n];
        } else {
          assert o.sent[i] == o.sent[|o.sent| - n..][i - (|o.sent| - n)];
        }
      }
    } else {
      assert StoppedAtFirstBroadcast(reg, notif, o, ctx, msg, env);
    }
  }

  /** What the evidently intended handler leaves behind once `msg` is
      stored: the receiver's counter for the conversation is one more than
      before (a missing counter counts as 0), no other counter changes,
      and the incremented count is what the announcement reports. */
  ghost predicate CountedAndAnnounced(w: World, ctx: Ctx, msg: Message, o: Outcome, env: Env)
    requires ValidEnv(env)
  {
    var key := (ctx.conversation.id, msg.receiverId);
    var prior := if key in w.db.unread then w.db.unread[key] else 0;
    && o.world.db.messages == w.db.messages + [msg]
    && o.world.db.unread == w.db.unread[key := prior + 1]
    && Announced(w.reg, w.notif, o, ctx, msg, prior + 1, env)
  }

  /** The evidently intended handler: the receiver's counter for the
      conversation is incremented when the message is stored, and the
      incremented count is what `unread_update` reports. */
  function HandleSendMessageCounting(w: World, ctx: Ctx, data: Data, env: Env): (o: Outcome)
    requires ValidEnv(env)
    ensures var sm := SendMessage(w.db.messages, ctx.conversation, PyUuid(ctx.user), data.content, env.freshId, env.now);
            && (sm.Err? ==> o == Fail(w, sm.error))
            && (sm.Ok? ==> CountedAndAnnounced(w, ctx, sm.value.1, o, env))
  {
    var sm := SendMessage(w.db.messages, ctx.conversation, PyUuid(ctx.user), data.content, env.freshId, env.now);
    if sm.Err? then Fail(w, sm.error)
    else
      var msg := sm.value.1;
      CountingAnnounces(w, ctx, msg, sm.value.0, env);
      var inc := Increment(w.db.unread, ctx.conversation, PyUuid(msg.receiverId));
      Announce(w.(db := w.db.(messages := sm.value.0, unread := inc.value.table)), ctx, msg, inc.value.count, env)
  }

  /** Storing `msg`, incrementing the receiver's counter and announcing the
      incremented count leaves the state `CountedAndAnnounced` describes. */
  lemma CountingAnnounces(w: World, ctx: Ctx, msg: Message, rows: seq<Message>, env: Env)
    requires ValidEnv(env)
    requires rows == w.db.messages + [msg]
    ensures var inc := Increment(w.db.unread, ctx.conversation, PyUuid(msg.receiverId));
            && inc.Ok?
            && CountedAndAnnounced(w, ctx, msg, Announce(w.(db := w.db.(messages := rows, unread := inc.value.table)), ctx, msg, inc.value.count, env), env)
  {
    var key := (ctx.conversation.id, msg.receiverId);
    var prior := if key in w.db.unread then w.db.unread[key] else 0;
    assert ToUuid(PyUuid(msg.receiverId)) == Ok(msg.receiverId);
    var inc := Increment(w.db.unread, ctx.conversation, PyUuid(msg.receiverId));
    assert inc.value.count == prior + 1;
    var stored := w.(db := w.db.(messages := rows, unread := inc.value.table));
    var o := Announce(stored, ctx, msg, inc.value.count, env);
    assert stored.reg == w.reg && stored.notif == w.notif;
    assert Announced(w.reg, w.notif, o, ctx, msg, prior + 1, env);
    assert o.world.db == stored.db;
  }

  /** With the increment in place, each stored message raises the
      receiver's count by one, and the room is told the new count. */
  lemma CountingSendCounts(w: World, ctx: Ctx, data: Data, env: Env)
    requires ValidEnv(env)
    requires AllZero(w.db.unread)
    requires SendMessage(w.db.messages, ctx.conversation, PyUuid(ctx.user), data.content, env.freshId, env.now).Ok?
    ensures var o := HandleSendMessageCounting(w, ctx, data, env);
            var msg := SendMessage(w.db.messages, ctx.conversation, PyUuid(ctx.user), data.content, env.freshId, env.now).value.1;
            var n := |env.iter(Get(w.reg.conversations, Room(ctx)))|;
            && o.world.db.unread[(ctx.conversation.id, msg.receiverId)] == 1
            && (NoneFail(Get(w.reg.conversations, Room(ctx)), env) && n > 0 ==>
                  o.sent[|o.sent| - 1].payload == UnreadUpdate(ctx.conversationId, 1))
  {
    var o := HandleSendMessageCounting(w, ctx, data, env);
    var n := |env.iter(Get(w.reg.conversations, Room(ctx)))|;
    if NoneFail(Get(w.reg.conversations, Room(ctx)), env) && n > 0 {
      assert o.sent[|o.sent| - 1] == o.sent[|o.sent| - n..][n - 1];
    }
  }
}

=== FILE: models.dfy ===
/** The rows of the tables the core reads and writes (the `app/models` package), and the
    database as one value. Timestamps that are `None` until set are
    `Option`s; defaults are those of the column definitions. */
module Models {
  import opened Values
  import opened Wire

  datatype MessageStatus = Sent | Delivered | Read

  datatype Message = Message(
    id: Uuid,
    conversationId: Uuid,
    senderId: Uuid,
    receiverId: Uuid,
    content: string,
    status: MessageStatus,
    isDeleted: bool,
    sentAt: Timestamp,
    deliveredAt: Option<Timestamp>,
    readAt: Option<Timestamp>,
    editedAt: Option<Timestamp>)

  datatype Conversation = Conversation(id: Uuid, user1: Uuid, user2: Uuid, createdAt: Timestamp, updatedAt: Timestamp)

  datatype FriendshipStatus = Pending | Accepted | Rejected

  datatype Friendship = Friendship(id: Uuid, requesterId: Uuid, receiverId: Uuid, status: FriendshipStatus)

  /** A `conversation_settings` row, keyed by (conversation, user). */
  datatype Settings = Settings(isMuted: bool, isPinned: bool)

  /** (conversation id, user id), the key of the per-user tables. */
  type PairKey = (Uuid, Uuid)

  /** `conversation_unread` rows, keyed by (conversation, user). */
  type UnreadTable = map<PairKey, int>

  type SettingsTable = map<PairKey, Settings>

  datatype Db = Db(
    conversations: seq<Conversation>,
    messages: seq<Message>,
    unread: UnreadTable,
    friendships: seq<Friendship>,
    settings: SettingsTable)

  /** Primary keys are unique. */
  predicate UniqueMessageIds(rows: seq<Message>) {
    forall i, j :: 0 <= i < j < |rows| ==> rows[i].id != rows[j].id
  }

  predicate HasMessageId(rows: seq<Message>, id: Uuid) {
    exists i :: 0 <= i < |rows| && rows[i].id == id
  }

  predicate HasConversationId(rows: seq<Conversation>, id: Uuid) {
    exists i :: 0 <= i < |rows| && rows[i].id == id
  }

  predicate HasFriendshipId(rows: seq<Friendship>, id: Uuid) {
    exists i :: 0 <= i < |rows| && rows[i].id == id
  }
}

=== FILE: notification_manager.dfy ===
/** `NotificationManager` (app/websocket/notification_manager.py): one
    dictionary from user key to the sockets of the notification channel. */
module NotificationManager {
  import opened Values
  import opened Wire
  import opened ConnectionManager

  /** `connect(websocket, user_id)`, without the `accept()` handshake:
      `setdefault(user_id, set()).add(websocket)`. */
  function Connect(n: SockMap, ws: Sock, userKey: PyVal): (n': SockMap)
    ensures userKey in n' && ws in n'[userKey]
    ensures Get(n', userKey) == Get(n, userKey) + {ws}
    ensures forall k :: k != userKey ==> Get(n', k) == Get(n, k)
    ensures NoEmptyEntry(n) ==> NoEmptyEntry(n')
  {
    Add(n, userKey, ws)
  }

  /** `disconnect(websocket, user_id)`: an unknown user is a no-op, and the
      user's entry is deleted once it is empty. */
  function Disconnect(n: SockMap, ws: Sock, userKey: PyVal): (n': SockMap)
    ensures Get(n', userKey) == Get(n, userKey) - {ws}
    ensures userKey in n' <==> userKey in n && n[userKey] - {ws} != {}
    ensures forall k :: k != userKey ==> Get(n', k) == Get(n, k) && (k in n' <==> k in n)
    ensures userKey !in n ==> n' == n
    ensures NoEmptyEntry(n) ==> NoEmptyEntry(n')
  {
    Discard(n, userKey, ws)
  }

  /** Connecting the same socket twice gives the state of connecting it once. */
  lemma ConnectIdempotent(n: SockMap, ws: Sock, userKey: PyVal)
    ensures Connect(Connect(n, ws, userKey), ws, userKey) == Connect(n, ws, userKey)
  {
    AddIdempotent(n, userKey, ws);
  }

  /** The channel state after a fan-out and the sends that succeeded. */
  datatype Notified = Notified(sockets: SockMap, sent: seq<Send>)

  /** The sockets of `s` whose send fails. */
  function FailedIn(s: seq<Sock>, fails: Sock -> bool): set<Sock> {
    set x | x in s && fails(x)
  }

  /** The loop `for ws in snapshot: try send except: disconnect(ws, user_id)`. */
  function NotifyLoop(n: SockMap, userKey: PyVal, snapshot: seq<Sock>, payload: Payload, fails: Sock -> bool): (r: Notified)
    ensures r.sent == SendAll(Survivors(snapshot, fails), payload)
    decreases |snapshot|
  {
    if snapshot == [] then Notified(n, [])
    else
      var ws := snapshot[0];
      if fails(ws) then
        NotifyLoop(Disconnect(n, ws, userKey), userKey, snapshot[1..], payload, fails)
      else
        var rest := NotifyLoop(n, userKey, snapshot[1..], payload, fails);
        assert SendAll([ws] + Survivors(snapshot[1..], fails), payload) == [Send(ws, payload)] + rest.sent;
        Notified(rest.sockets, [Send(ws, payload)] + rest.sent)
  }

  /** Disconnecting the failing sockets one at a time, as the loop does,
      removes exactly the failing ones from the user's entry, deletes the
      entry if that empties it, and leaves other users alone. */
  lemma {:induction false} NotifyLoopSockets(n: SockMap, userKey: PyVal, snapshot: seq<Sock>, payload: Payload, fails: Sock -> bool)
    ensures var r := NotifyLoop(n, userKey, snapshot, payload, fails);
            && Get(r.sockets, userKey) == Get(n, userKey) - FailedIn(snapshot, fails)
            && (NoEmptyEntry(n) ==> (userKey in r.sockets <==> userKey in n && n[userKey] - FailedIn(snapshot, fails) != {}))
            && (forall k :: k != userKey ==> Get(r.sockets, k) == Get(n, k) && (k in r.sockets <==> k in n))
            && (NoEmptyEntry(n) ==> NoEmptyEntry(r.sockets))
    decreases |snapshot|
  {
    if snapshot != [] {
      var ws := snapshot[0];
      var tail := snapshot[1..];
      FailedInCons(snapshot, fails);
      if fails(ws) {
        var n1 := Disconnect(n, ws, userKey);
        NotifyLoopSockets(n1, userKey, tail, payload, fails);
        assert NotifyLoop(n, userKey, snapshot, payload, fails).sockets == NotifyLoop(n1, userKey, tail, payload, fails).sockets;
        assert Get(n1, userKey) - FailedIn(tail, fails) == Get(n, userKey) - FailedIn(snapshot, fails);
      } else {
        NotifyLoopSockets(n, userKey, tail, payload, fails);
        assert NotifyLoop(n, userKey, snapshot, payload, fails).sockets == NotifyLoop(n, userKey, tail, payload, fails).sockets;
        assert Get(n, userKey) - FailedIn(tail, fails) == Get(n, userKey) - FailedIn(snapshot, fails);
      }
    }
  }

  lemma FailedInCons(s: seq<Sock>, fails: Sock -> bool)
    requires s != []
    ensures FailedIn(s, fails) == (if fails(s[0]) then {s[0]} else {}) + FailedIn(s[1..], fails)
  {
    assert forall x :: x in s <==> x == s[0] || x in s[1..];
  }

  /** `send_notifications(user_id, payload)`: iterates over a snapshot
      (`list(sockets)`) of the user's sockets in the order `order`, so every
      socket present at call time is tried exactly once even while failing
      ones are being disconnected. */
  function SendNotifications(n: SockMap, userKey: PyVal, payload: Payload, fails: Sock -> bool, order: seq<Sock>): (r: Notified)
    requires userKey in n ==> IsEnumeration(order, n[userKey])
    ensures userKey !in n ==> r == Notified(n, [])
    ensures userKey in n ==> IsEnumeration(Targets(r.sent), set s | s in n[userKey] && !fails(s))
    ensures forall i :: 0 <= i < |r.sent| ==> r.sent[i].payload == payload
    ensures Get(r.sockets, userKey) == set s | s in Get(n, userKey) && !fails(s)
    ensures NoEmptyEntry(n) ==> (userKey in r.sockets <==> userKey in n && exists s :: s in n[userKey] && !fails(s))
    ensures forall k :: k != userKey ==> Get(r.sockets, k) == Get(n, k) && (k in r.sockets <==> k in n)
    ensures NoEmptyEntry(n) ==> NoEmptyEntry(r.sockets)
  {
    var snapshot := if userKey in n then order else [];
    var r := NotifyLoop(n, userKey, snapshot, payload, fails);
    NotifyLoopSockets(n, userKey, snapshot, payload, fails);
    if userKey in n then
      SurvivorsEnumerate(order, n[userKey], fails);
      assert Targets(r.sent) == Survivors(order, fails);
      assert n[userKey] - FailedIn(order, fails) == set s | s in n[userKey] && !fails(s);
      r
    else r
  }

  /** A user with no entry receives nothing and the channel is unchanged;
      a fan-out with no failing socket reaches every socket and changes
      nothing. */
  lemma SendNotificationsNoFailure(n: SockMap, userKey: PyVal, payload: Payload, fails: Sock -> bool, order: seq<Sock>)
    requires userKey in n ==> IsEnumeration(order, n[userKey])
    requires forall s :: s in Get(n, userKey) ==> !fails(s)
    ensures SendNotifications(n, userKey, payload, fails, order) == Notified(n, if userKey in n then SendAll(order, payload) else [])
  {
    if userKey in n {
      forall i | 0 <= i < |order| ensures !fails(order[i]) {
        assert order[i] in n[userKey];
      }
      NotifyLoopNoFailure(n, userKey, order, payload, fails);
    }
  }

  /** A loop in which no send fails disconnects nothing. */
  lemma {:induction false} NotifyLoopNoFailure(n: SockMap, userKey: PyVal, snapshot: seq<Sock>, payload: Payload, fails: Sock -> bool)
    requires forall i :: 0 <= i < |snapshot| ==> !fails(snapshot[i])
    ensures NotifyLoop(n, userKey, snapshot, payload, fails) == Notified(n, SendAll(snapshot, payload))
    decreases |snapshot|
  {
    if snapshot != [] {
      var tail := snapshot[1..];
      assert forall i :: 0 <= i < |tail| ==> tail[i] == snapshot[i + 1];
      NotifyLoopNoFailure(n, userKey, tail, payload, fails);
      SendAllCons(snapshot, payload);
      assert NotifyLoop(n, userKey, snapshot, payload, fails)
          == Notified(NotifyLoop(n, userKey, tail, payload, fails).sockets, [Send(snapshot[0], payload)] + NotifyLoop(n, userKey, tail, payload, fails).sent);
    }
  }
}

=== FILE: receipts.dfy ===
/** The receipt handlers of app/websocket/handlers/receipts.py: record that
    the caller has received or read a message, then tell the room. The
    `message_delivered` handler of app/websocket/handlers/receipts_handler.py
    is the same code. */
module Receipts {
  import opened Values
  import opened Exceptions
  import opened UuidUtil
  import opened Wire
  import opened Models
  import opened ConnectionManager
  import opened MessageService
  import opened Handlers

  /** The event that announces a receipt, stamped with the receipt's time. */
  function ReceiptEvent(msg: Message, receipt: Receipt): Payload {
    match receipt
    case DeliveredReceipt => MessageDelivered(msg.id, msg.deliveredAt)
    case ReadReceipt => MessageRead(msg.id, msg.readAt)
  }

  /** `handle_message_delivered` (receipt `DeliveredReceipt`) and
      `handle_message_read` (receipt `ReadReceipt`): mark the message, then
      broadcast the receipt to the room. */
  function HandleReceipt(w: World, ctx: Ctx, data: Data, receipt: Receipt, env: Env): (o: Outcome)
    requires ValidEnv(env)
    ensures var m := Mark(w.db.messages, data.messageId, PyUuid(ctx.user), receipt, env.now);
            && (m.Err? ==> o == Fail(w, m.error))
            && (m.Ok? ==>
                  var msg := m.value.1;
                  var room := Get(w.reg.conversations, Room(ctx));
                  var event := if receipt.DeliveredReceipt? then MessageDelivered(msg.id, Some(env.now))
                               else MessageRead(msg.id, Some(env.now));
                  && ToUuid(data.messageId) == Ok(msg.id) && msg.receiverId == ctx.user
                  && o.world.db == w.db.(messages := m.value.0)
                  && o.world.notif == w.notif
                  && o.world.reg.activeUsers == w.reg.activeUsers
                  && (forall i :: 0 <= i < |o.sent| ==> o.sent[i].payload == event && o.sent[i].to in room)
                  && (NoneFail(room, env) ==> o.raised.None? && o.world.reg == w.reg && IsEnumeration(Targets(o.sent), room))
                  && (!NoneFail(room, env) ==> StoppedAt(w.reg, Room(ctx), event, env, o)))
  {
    match Mark(w.db.messages, data.messageId, PyUuid(ctx.user), receipt, env.now)
    case Err(e) => Fail(w, e)
    case Ok((rows, msg)) =>
      var room := Get(w.reg.conversations, Room(ctx));
      var o := Broadcast(w.(db := w.db.(messages := rows)), Room(ctx), ReceiptEvent(msg, receipt), env);
      if NoneFail(room, env) then
        assert Targets(o.sent) == env.iter(room);
        o
      else o
  }

  /** A receipt from anyone but the message's receiver changes nothing and
      sends nothing. */
  lemma ReceiptFromNonReceiver(w: World, ctx: Ctx, i: nat, receipt: Receipt, data: Data, env: Env)
    requires ValidEnv(env)
    requires UniqueMessageIds(w.db.messages)
    requires i < |w.db.messages| && w.db.messages[i].receiverId != ctx.user
    requires data.messageId == PyUuid(w.db.messages[i].id)
    ensures HandleReceipt(w, ctx, data, receipt, env) == Fail(w, NotAllowed)
  {
    MarkRefusesNonReceiver(w.db.messages, i, ctx.user, receipt, env.now);
  }
}

=== FILE: receipts_handler.dfy ===
/** `handle_message_read` of app/websocket/handlers/receipts_handler.py:
    mark the message read, reset the caller's unread counter, broadcast
    `message_read` and `unread_update` (0) to the room, and send a
    `message_read` notification unless the notified user has a chat socket
    in the room. Its `handle_message_delivered` is `Receipts.HandleReceipt`
    with `DeliveredReceipt`. */
module ReceiptsHandler {
  import opened Values
  import opened Exceptions
  import opened UuidUtil
  import opened Wire
  import opened Models
  import opened ConnectionManager
  import opened MessageService
  import opened UnreadService
  import opened Handlers

  /** Who the `message_read` notification is addressed to. */
  datatype NoticeTarget = ToReceiver | ToSender

  function TargetOf(msg: Message, target: NoticeTarget): Uuid {
    match target
    case ToReceiver => msg.receiverId
    case ToSender => msg.senderId
  }

  /** The notification of type "message_read", from the reader. */
  function ReadNotice(ctx: Ctx, msg: Message): Payload {
    Notification("message_read", ctx.conversationId, ctx.user, msg.content, msg.sentAt)
  }

  /** What the room and the notified user see once the message is marked
      and the counter reset, when no socket of the room fails:
      `message_read` to every socket of the room, then `unread_update` with
      0 to every socket of the room, then the notification to every live
      notification socket of `notified` exactly when `notified` has no chat
      socket in the room; the chat registry is unchanged. */
  ghost predicate ReadToAll(reg: Registry, notif: SockMap, o: Outcome, ctx: Ctx, msg: Message, notified: Uuid, env: Env)
    requires ValidEnv(env)
  {
    var order := env.iter(Get(reg.conversations, Room(ctx)));
    var n := |order|;
    && o.raised.None? && o.world.reg == reg
    && 2 * n <= |o.sent|
    && o.sent[..n] == SendAll(order, MessageRead(msg.id, msg.readAt))
    && o.sent[n..2 * n] == SendAll(order, UnreadUpdate(ctx.conversationId, 0))
    && (UserInRoom(reg, UserKey(notified), Room(ctx)) ==> |o.sent| == 2 * n && o.world.notif == notif)
    && (!UserInRoom(reg, UserKey(notified), Room(ctx)) ==> NoticeTo(notif, o.sent[2 * n..], UserKey(notified), ReadNotice(ctx, msg), env))
  }

  /** When some socket of the room fails, the first broadcast stops as
      `StoppedAt` says: only `message_read` sends went out. */
  ghost predicate StoppedAtFirstBroadcast(reg: Registry, notif: SockMap, o: Outcome, ctx: Ctx, msg: Message, env: Env) {
    && o.world.notif == notif
    && StoppedAt(reg, Room(ctx), MessageRead(msg.id, msg.readAt), env, o)
    && forall i :: 0 <= i < |o.sent| ==> o.sent[i].payload == MessageRead(msg.id, msg.readAt)
  }

  /** The announcement of a read as a whole. */
  ghost predicate ReadAnnounced(reg: Registry, notif: SockMap, o: Outcome, ctx: Ctx, msg: Message, notified: Uuid, env: Env)
    requires ValidEnv(env)
  {
    var room := Get(reg.conversations, Room(ctx));
    && o.world.reg.activeUsers == reg.activeUsers
    && (forall k :: k != UserKey(notified) ==> Get(o.world.notif, k) == Get(notif, k) && (k in o.world.notif <==> k in notif))
    && (NoneFail(room, env) ==> ReadToAll(reg, notif, o, ctx, msg, notified, env))
    && (!NoneFail(room, env) ==> StoppedAtFirstBroadcast(reg, notif, o, ctx, msg, env))
  }

  /** Lines 50-85: the two broadcasts and the notification. */
  function AnnounceRead(w: World, ctx: Ctx, msg: Message, notified: Uuid, env: Env): (o: Outcome)
    requires ValidEnv(env)
    ensures o.world.db == w.db
    ensures ReadAnnounced(w.reg, w.notif, o, ctx, msg, notified, env)
  {
    var room := Get(w.reg.conversations, Room(ctx));
    var o1 := Broadcast(w, Room(ctx), MessageRead(msg.id, msg.readAt), env);
    if o1.raised.Some? then
      assert !NoneFail(room, env);
      o1
    else
      assert NoneFail(room, env);
      AnnounceReadToAll(w, ctx, msg, notified, env)
  }

  /** The announcement when no socket of the room fails: both broadcasts
      reach the whole room, then the notification goes out unless the
      notified user is present. */
  function AnnounceReadToAll(w: World, ctx: Ctx, msg: Message, notified: Uuid, env: Env): (o: Outcome)
    requires ValidEnv(env)
    requires NoneFail(Get(w.reg.conversations, Room(ctx)), env)
    ensures o.world.db == w.db && o.world.reg.activeUsers == w.reg.activeUsers
    ensures forall k :: k != UserKey(notified) ==> Get(o.world.notif, k) == Get(w.notif, k) && (k in o.world.notif <==> k in w.notif)
    ensures ReadToAll(w.reg, w.notif, o, ctx, msg, notified, env)
  {
    var order := env.iter(Get(w.reg.conversations, Room(ctx)));
    var s1 := SendAll(order, MessageRead(msg.id, msg.readAt));
    var s2 := SendAll(order, UnreadUpdate(ctx.conversationId, 0));
    var o3 := NotifyUnlessPresent(w, UserKey(notified), Room(ctx), ReadNotice(ctx, msg), env);
    var o := Outcome(o3.world, s1 + s2 + o3.sent, None);
    assert o.sent[..|order|] == s1;
    assert o.sent[|order|..2 * |order|] == s2;
    assert o.sent[2 * |order|..] == o3.sent;
    o
  }

  /** What the read handler promises, with the notification addressed to
      `target`: a refused mark changes nothing; a failed counter reset
      keeps the mark; otherwise the message is read, the caller's counter
      is zero and the read is announced. */
  ghost predicate ReadHandled(w: World, ctx: Ctx, data: Data, target: NoticeTarget, env: Env, o: Outcome)
    requires ValidEnv(env)
  {
    var m := MarkRead(w.db.messages, data.messageId, PyUuid(ctx.user), env.now);
    && (m.Err? ==> o == Fail(w, m.error))
    && (m.Ok? ==>
          var msg := m.value.1;
          var marked := w.db.(messages := m.value.0);
          var rs := Reset(w.db.unread, Room(ctx), PyUuid(ctx.user));
          && ToUuid(data.messageId) == Ok(msg.id) && msg.receiverId == ctx.user
          && msg.status == Read && msg.readAt == Some(env.now)
          && (rs.Err? ==> o == Fail(w.(db := marked), rs.error))
          && (rs.Ok? ==>
                && o.world.db == marked.(unread := w.db.unread[(ToUuid(Room(ctx)).value, ctx.user) := 0])
                && ReadAnnounced(w.reg, w.notif, o, ctx, msg, TargetOf(msg, target), env)))
  }

  /** The read handler with the notification addressed to `target`. */
  function HandleReadNotifying(w: World, ctx: Ctx, data: Data, target: NoticeTarget, env: Env): (o: Outcome)
    requires ValidEnv(env)
    ensures ReadHandled(w, ctx, data, target, env, o)
  {
    match MarkRead(w.db.messages, data.messageId, PyUuid(ctx.user), env.now)
    case Err(e) => Fail(w, e)
    case Ok((rows, msg)) =>
      var w1 := w.(db := w.db.(messages := rows));
      match Reset(w1.db.unread, Room(ctx), PyUuid(ctx.user))
      case Err(e) => Fail(w1, e)
      case Ok(c) => AnnounceRead(w1.(db := w1.db.(unread := c.table)), ctx, msg, TargetOf(msg, target), env)
  }

  /** `handle_message_read` as written: the notification goes to
      `msg.receiver_id`, who is the caller. */
  function HandleRead(w: World, ctx: Ctx, data: Data, env: Env): (o: Outcome)
    requires ValidEnv(env)
    ensures ReadHandled(w, ctx, data, ToReceiver, env, o)
    ensures var m := MarkRead(w.db.messages, data.messageId, PyUuid(ctx.user), env.now);
            m.Ok? && Reset(w.db.unread, Room(ctx), PyUuid(ctx.user)).Ok? ==>
              ReadAnnounced(w.reg, w.notif, o, ctx, m.value.1, ctx.user, env)
  {
    HandleReadNotifying(w, ctx, data, ToReceiver, env)
  }

  /** A chat session of `ctx.user`: the handler's socket is registered
      under the user's key and is in the room, as the chat endpoint
      arranges before it dispatches any frame. */
  predicate InSession(reg: Registry, ctx: Ctx) {
    ctx.ws in Get(reg.activeUsers, UserKey(ctx.user)) && ctx.ws in Get(reg.conversations, Room(ctx))
  }

  /** Finding, as written: since only the receiver may mark a message read,
      the notified user is the reader, whose own socket is in the room; so
      the `message_read` notification is never sent and the notification
      registry never changes. */
  lemma ReadNoticeNeverSent(w: World, ctx: Ctx, data: Data, env: Env)
    requires ValidEnv(env)
    requires InSession(w.reg, ctx)
    ensures var o := HandleRead(w, ctx, data, env);
            && o.world.notif == w.notif
            && forall i :: 0 <= i < |o.sent| ==> !o.sent[i].payload.Notification?
  {
    var o := HandleRead(w, ctx, data, env);
    var m := MarkRead(w.db.messages, data.messageId, PyUuid(ctx.user), env.now);
    if m.Ok? && Reset(w.db.unread, Room(ctx), PyUuid(ctx.user)).Ok? {
      assert UserInRoom(w.reg, UserKey(ctx.user), Room(ctx));
      PresentUserIsNotNotified(w.reg, w.notif, o, ctx, m.value.1, ctx.user, env);
    }
  }

  /** When the notified user has a chat socket in the room, a read is
      announced to the room only, and the notification registry is left
      alone. */
  lemma PresentUserIsNotNotified(reg: Registry, notif: SockMap, o: Outcome, ctx: Ctx, msg: Message, notified: Uuid, env: Env)
    requires ValidEnv(env)
    requires ReadAnnounced(reg, notif, o, ctx, msg, notified, env)
    requires UserInRoom(reg, UserKey(notified), Room(ctx))
    ensures o.world.notif == notif
    ensures forall i :: 0 <= i < |o.sent| ==> o.sent[i].payload in {MessageRead(msg.id, msg.readAt), UnreadUpdate(ctx.conversationId, 0)}
  {
    var room := Get(reg.conversations, Room(ctx));
    var n := |env.iter(room)|;
    if NoneFail(room, env) {
      assert ReadToAll(reg, notif, o, ctx, msg, notified, env);
      forall i | 0 <= i < |o.sent|
        ensures o.sent[i].payload in {MessageRead(msg.id, msg.readAt), UnreadUpdate(ctx.conversationId, 0)}
      {
        if i < n {
          assert o.sent[i] == o.sent[..n][i];
        } else {
          assert o.sent[i] == o.sent[n..2 * n][i - n];
        }
      }
    } else {
      assert StoppedAtFirstBroadcast(reg, notif, o, ctx, msg, env);
    }
  }

  /** The evidently intended handler: the notification tells the sender
      that the message was read. */
  function HandleReadNotifyingSender(w: World, ctx: Ctx, data: Data, env: Env): (o: Outcome)
    requires ValidEnv(env)
    ensures ReadHandled(w, ctx, data, ToSender, env, o)
    ensures var m := MarkRead(w.db.messages, data.messageId, PyUuid(ctx.user), env.now);
            m.Ok? && Reset(w.db.unread, Room(ctx), PyUuid(ctx.user)).Ok? ==>
              ReadAnnounced(w.reg, w.notif, o, ctx, m.value.1, m.value.1.senderId, env)
  {
    HandleReadNotifying(w, ctx, data, ToSender, env)
  }

  /** With the notification addressed to the sender, a sender who is away
      from the room is told on every live notification socket. */
  lemma SenderIsToldOfRead(w: World, ctx: Ctx, data: Data, env: Env)
    requires ValidEnv(env)
    requires MarkRead(w.db.messages, data.messageId, PyUuid(ctx.user), env.now).Ok?
    requires Reset(w.db.unread, Room(ctx), PyUuid(ctx.user)).Ok?
    requires NoneFail(Get(w.reg.conversations, Room(ctx)), env)
    ensures var msg := MarkRead(w.db.messages, data.messageId, PyUuid(ctx.user), env.now).value.1;
            var o := HandleReadNotifyingSender(w, ctx, data, env);
            var n := |env.iter(Get(w.reg.conversations, Room(ctx)))|;
            !UserInRoom(w.reg, UserKey(msg.senderId), Room(ctx)) ==>
              && o.raised.None?
              && NoticeTo(w.notif, o.sent[2 * n..], UserKey(msg.senderId), ReadNotice(ctx, msg), env)
  {
    var msg := MarkRead(w.db.messages, data.messageId, PyUuid(ctx.user), env.now).value.1;
    var o := HandleReadNotifyingSender(w, ctx, data, env);
    assert ReadToAll(w.reg, w.notif, o, ctx, msg, msg.senderId, env);
  }
}

=== FILE: reconnect_handler.dfy ===
/** app/websocket/handlers/reconnect_handler.py: `handle_reconnect` replays
    the messages a client missed, and `handle_resume_conversation` moves a
    socket into another conversation's room. */
module ReconnectHandler {
  import opened Values
  import opened Exceptions
  import opened UuidUtil
  import opened Wire
  import opened Models
  import opened ConnectionManager
  import opened UnreadService
  import opened Handlers

  /** What `handle_reconnect` calls but this model does not define:
      `datetime.strptime(text, "%Y-%m-%d %H:%M:%S")`, which either yields
      a timestamp or raises, and `MessageService.list_messages_since`,
      which either yields the user's messages after a timestamp, in the
      order the store returns them, or raises. */
  datatype ReconnectDeps = ReconnectDeps(
    strptime: string -> Result<Timestamp>,
    messagesSince: (Uuid, Timestamp) -> Result<seq<Message>>)

  /** One entry of `missed_messages`. */
  function Missed(m: Message): MissedMessage {
    MissedMessage(m.id, m.content, m.senderId, m.sentAt)
  }

  /** The `missed_messages` list, in the order of `ms`. */
  function MissedList(ms: seq<Message>): (r: seq<MissedMessage>)
    ensures |r| == |ms|
    ensures forall i :: 0 <= i < |ms| ==>
              r[i].id == ms[i].id && r[i].content == ms[i].content && r[i].senderId == ms[i].senderId && r[i].sentAt == ms[i].sentAt
  {
    seq(|ms|, i requires 0 <= i < |ms| => Missed(ms[i]))
  }

  /** `handle_reconnect`: parse `last_message_at` (as `str()` renders it,
      so a missing key parses the text "None"), fetch the missed messages
      and reply with them to the requesting socket only. */
  function HandleReconnect(w: World, ctx: Ctx, data: Data, deps: ReconnectDeps, env: Env): (o: Outcome)
    ensures o.world == w
    ensures forall i :: 0 <= i < |o.sent| ==> o.sent[i].to == ctx.ws
    ensures |o.sent| <= 1
    ensures var ts := deps.strptime(Render(data.lastMessageAt));
            && (ts.Err? ==> o == Fail(w, ts.error))
            && (ts.Ok? && deps.messagesSince(ctx.user, ts.value).Err? ==> o == Fail(w, deps.messagesSince(ctx.user, ts.value).error))
            && (ts.Ok? && deps.messagesSince(ctx.user, ts.value).Ok? ==>
                  var ms := deps.messagesSince(ctx.user, ts.value).value;
                  && (env.fails(ctx.ws) ==> o == Fail(w, WebSocketDisconnect))
                  && (!env.fails(ctx.ws) ==>
                        && o.raised.None? && |o.sent| == 1
                        && o.sent[0].payload.ReconnectSuccess?
                        && |o.sent[0].payload.missed| == |ms|
                        && forall i :: 0 <= i < |ms| ==>
                             o.sent[0].payload.missed[i] == MissedMessage(ms[i].id, ms[i].content, ms[i].senderId, ms[i].sentAt)))
  {
    match deps.strptime(Render(data.lastMessageAt))
    case Err(e) => Fail(w, e)
    case Ok(ts) =>
      match deps.messagesSince(ctx.user, ts)
      case Err(e) => Fail(w, e)
      case Ok(ms) => Reply(w, ctx.ws, ReconnectSuccess(MissedList(ms)), env)
  }

  /** The room key `broadcast_to_conversation` is given: the UUID object as
      written, or its string form. */
  datatype RoomKey = UuidKey | StringKey

  function KeyOf(id: Uuid, key: RoomKey): PyVal {
    match key
    case UuidKey => PyUuid(id)
    case StringKey => PyStr(Str(id))
  }

  /** What the resume handler promises with the `unread_update` broadcast
      under `key`: a malformed id changes nothing; otherwise the socket
      joins the room under the string form, the caller's counter is zero,
      and the room of `key` (as the join left it) gets the zero count
      before the caller gets `resume_success`; a failing socket in that
      room stops the broadcast with the `RuntimeError` instead, as
      `StoppedAt` says, and no reply is sent. */
  ghost predicate Resumed(w: World, ctx: Ctx, data: Data, key: RoomKey, env: Env, o: Outcome)
    requires ValidEnv(env)
  {
    && (ToUuid(data.conversationId).Err? ==> o == Fail(w, ToUuid(data.conversationId).error))
    && (ToUuid(data.conversationId).Ok? ==>
          var id := ToUuid(data.conversationId).value;
          var joined := Join(w.reg, ctx.ws, PyStr(Str(id)));
          var room := Get(joined.conversations, KeyOf(id, key));
          var order := env.iter(room);
          && o.world.db == w.db.(unread := w.db.unread[(id, ctx.user) := 0])
          && o.world.notif == w.notif
          && o.world.reg.activeUsers == w.reg.activeUsers
          && (NoneFail(room, env) ==>
                && o.world.reg == joined
                && |order| <= |o.sent|
                && o.sent[..|order|] == SendAll(order, UnreadUpdate(Str(id), 0))
                && (env.fails(ctx.ws) ==> |o.sent| == |order| && o.raised == Some(WebSocketDisconnect))
                && (!env.fails(ctx.ws) ==> o.sent[|order|..] == [Send(ctx.ws, ResumeSuccess(Str(id)))] && o.raised.None?))
          && (key == UuidKey || !env.fails(ctx.ws) ==> ctx.ws in Get(o.world.reg.conversations, PyStr(Str(id))))
          && (!NoneFail(room, env) ==> StoppedAt(joined, KeyOf(id, key), UnreadUpdate(Str(id), 0), env, o)))
  }

  /** `handle_resume_conversation` with the `unread_update` broadcast under
      `key`: parse the id, join its room (under the string form) without
      leaving the current one, reset the caller's counter, broadcast the
      zero count, and confirm to the caller. */
  function ResumeWith(w: World, ctx: Ctx, data: Data, key: RoomKey, env: Env): (o: Outcome)
    requires ValidEnv(env)
    ensures Resumed(w, ctx, data, key, env, o)
  {
    match ToUuid(data.conversationId)
    case Err(e) => Fail(w, e)
    case Ok(id) =>
      var w1 := w.(reg := Join(w.reg, ctx.ws, PyStr(Str(id))));
      var w2 := w1.(db := w1.db.(unread := Reset(w1.db.unread, PyUuid(id), PyUuid(ctx.user)).value.table));
      var o1 := Broadcast(w2, KeyOf(id, key), UnreadUpdate(Str(id), 0), env);
      if o1.raised.Some? then o1
      else
        var o2 := Reply(o1.world, ctx.ws, ResumeSuccess(Str(id)), env);
        Then(o1, o2)
  }

  /** `handle_resume_conversation` as written: the broadcast goes to the
      UUID key. */
  function HandleResume(w: World, ctx: Ctx, data: Data, env: Env): (o: Outcome)
    requires ValidEnv(env)
    ensures Resumed(w, ctx, data, UuidKey, env, o)
    ensures ToUuid(data.conversationId).Err? ==> o == Fail(w, ToUuid(data.conversationId).error)
    ensures ToUuid(data.conversationId).Ok? ==>
              var id := ToUuid(data.conversationId).value;
              && o.world.db == w.db.(unread := w.db.unread[(id, ctx.user) := 0])
              && ctx.ws in Get(o.world.reg.conversations, PyStr(Str(id)))
  {
    ResumeWith(w, ctx, data, UuidKey, env)
  }

  /** Every room is registered under a string, as `websocket_chat` and the
      resume handler register them. */
  predicate StringKeyed(m: SockMap) {
    forall k :: k in m ==> k.PyStr?
  }

  /** Finding, as written: with every room registered under its string
      form, the `unread_update` goes to no socket at all, not even to the
      caller who just joined; the caller gets only `resume_success`. */
  lemma ResumeUpdateReachesNobody(w: World, ctx: Ctx, data: Data, env: Env)
    requires ValidEnv(env)
    requires StringKeyed(w.reg.conversations)
    requires ToUuid(data.conversationId).Ok?
    ensures var o := HandleResume(w, ctx, data, env);
            && (o.raised.None? <==> !env.fails(ctx.ws))
            && o.sent == (if env.fails(ctx.ws) then [] else [Send(ctx.ws, ResumeSuccess(Str(ToUuid(data.conversationId).value)))])
  {
    var id := ToUuid(data.conversationId).value;
    var joined := Join(w.reg, ctx.ws, PyStr(Str(id)));
    assert PyUuid(id) != PyStr(Str(id));
    assert Get(joined.conversations, PyUuid(id)) == {};
    EmptyEnumeration(env.iter({}), {});
  }

  /** The evidently intended handler: the broadcast goes to the room the
      caller just joined. */
  function HandleResumeCorrected(w: World, ctx: Ctx, data: Data, env: Env): (o: Outcome)
    requires ValidEnv(env)
    ensures Resumed(w, ctx, data, StringKey, env, o)
    ensures ToUuid(data.conversationId).Err? ==> o == Fail(w, ToUuid(data.conversationId).error)
    ensures ToUuid(data.conversationId).Ok? ==>
              var id := ToUuid(data.conversationId).value;
              && o.world.db == w.db.(unread := w.db.unread[(id, ctx.user) := 0])
              && (!env.fails(ctx.ws) ==> ctx.ws in Get(o.world.reg.conversations, PyStr(Str(id))))
  {
    ResumeWith(w, ctx, data, StringKey, env)
  }

  /** With the string key, the zero count reaches every socket of the room,
      the caller's own socket included. */
  lemma ResumeUpdateReachesRoom(w: World, ctx: Ctx, data: Data, env: Env)
    requires ValidEnv(env)
    requires ToUuid(data.conversationId).Ok?
    requires NoneFail(Get(w.reg.conversations, PyStr(Str(ToUuid(data.conversationId).value))) + {ctx.ws}, env)
    ensures var id := ToUuid(data.conversationId).value;
            var room := Get(w.reg.conversations, PyStr(Str(id))) + {ctx.ws};
            var o := HandleResumeCorrected(w, ctx, data, env);
            && o.raised.None?
            && |room| <= |o.sent|
            && Targets(o.sent[..|room|]) == env.iter(room)
            && (forall i :: 0 <= i < |room| ==> o.sent[i].payload == UnreadUpdate(Str(id), 0))
            && o.sent[|room|..] == [Send(ctx.ws, ResumeSuccess(Str(id)))]
  {
    var id := ToUuid(data.conversationId).value;
    var room := Get(w.reg.conversations, PyStr(Str(id))) + {ctx.ws};
    var order := env.iter(room);
    var o := HandleResumeCorrected(w, ctx, data, env);
    ResumeStringKeyTrace(w, ctx, data, env);
    EnumerationSize(order, room);
    var n := |order|;
    TargetsSendAll(order, UnreadUpdate(Str(id), 0));
    forall i | 0 <= i < n ensures o.sent[i].payload == UnreadUpdate(Str(id), 0) {
      assert o.sent[i] == o.sent[..n][i];
    }
  }

  /** The trace of the corrected handler when no socket fails: the zero
      count to the joined room in iteration order, then the confirmation. */
  lemma ResumeStringKeyTrace(w: World, ctx: Ctx, data: Data, env: Env)
    requires ValidEnv(env)
    requires ToUuid(data.conversationId).Ok?
    requires NoneFail(Get(w.reg.conversations, PyStr(Str(ToUuid(data.conversationId).value))) + {ctx.ws}, env)
    ensures var id := ToUuid(data.conversationId).value;
            var order := env.iter(Get(w.reg.conversations, PyStr(Str(id))) + {ctx.ws});
            var o := HandleResumeCorrected(w, ctx, data, env);
            && o.raised.None?
            && |order| <= |o.sent|
            && o.sent[..|order|] == SendAll(order, UnreadUpdate(Str(id), 0))
            && o.sent[|order|..] == [Send(ctx.ws, ResumeSuccess(Str(id)))]
  {
    var id := ToUuid(data.conversationId).value;
    var room := Get(w.reg.conversations, PyStr(Str(id))) + {ctx.ws};
    var joined := Join(w.reg, ctx.ws, PyStr(Str(id)));
    assert Get(joined.conversations, KeyOf(id, StringKey)) == room;
    assert NoneFail(room, env) && !env.fails(ctx.ws);
    assert ResumeWith(w, ctx, data, StringKey, env) == HandleResumeCorrected(w, ctx, data, env);
  }
}

=== FILE: settings_service.dfy ===
/** `ConversationSettingsService`
    (app/services/conversation_settings_service.py): per (conversation,
    user) mute and pin flags, created unmuted and unpinned on first use. */
module SettingsService {
  import opened Values
  import opened Exceptions
  import opened UuidUtil
  import opened Models

  const DefaultSettings := Settings(isMuted := false, isPinned := false)

  /** The table after a call and the settings row it returns. */
  datatype SettingsResult = SettingsResult(table: SettingsTable, row: Settings)

  /** `get_or_create`: the existing row, or a new unmuted, unpinned one. */
  function GetOrCreate(t: SettingsTable, conversationId: PyVal, userId: PyVal): (r: Result<SettingsResult>)
    ensures ToUuid(conversationId).Err? ==> r == Err(ToUuid(conversationId).error)
    ensures ToUuid(conversationId).Ok? && ToUuid(userId).Err? ==> r == Err(ToUuid(userId).error)
    ensures r.Ok? <==> ToUuid(conversationId).Ok? && ToUuid(userId).Ok?
    ensures r.Ok? ==>
              var key := (ToUuid(conversationId).value, ToUuid(userId).value);
              && (key in t ==> r.value == SettingsResult(t, t[key]))
              && (key !in t ==> r.value == SettingsResult(t[key := DefaultSettings], DefaultSettings))
  {
    var c :- ToUuid(conversationId);
    var u :- ToUuid(userId);
    if (c, u) in t then Ok(SettingsResult(t, t[(c, u)]))
    else Ok(SettingsResult(t[(c, u) := DefaultSettings], DefaultSettings))
  }

  /** `toggle_mute(..., mute)`: sets (not flips) the mute flag. */
  function ToggleMute(t: SettingsTable, conversationId: PyVal, userId: PyVal, mute: bool): (r: Result<SettingsResult>)
    ensures r.Ok? <==> ToUuid(conversationId).Ok? && ToUuid(userId).Ok?
    ensures r.Ok? ==>
              var key := (ToUuid(conversationId).value, ToUuid(userId).value);
              var before := if key in t then t[key] else DefaultSettings;
              && r.value.row == before.(isMuted := mute)
              && r.value.table == t[key := r.value.row]
  {
    var s :- GetOrCreate(t, conversationId, userId);
    var key := (ToUuid(conversationId).value, ToUuid(userId).value);
    var row := s.row.(isMuted := mute);
    Ok(SettingsResult(s.table[key := row], row))
  }

  /** `toggle_pin(..., pin)`: sets (not flips) the pin flag. */
  function TogglePin(t: SettingsTable, conversationId: PyVal, userId: PyVal, pin: bool): (r: Result<SettingsResult>)
    ensures r.Ok? <==> ToUuid(conversationId).Ok? && ToUuid(userId).Ok?
    ensures r.Ok? ==>
              var key := (ToUuid(conversationId).value, ToUuid(userId).value);
              var before := if key in t then t[key] else DefaultSettings;
              && r.value.row == before.(isPinned := pin)
              && r.value.table == t[key := r.value.row]
  {
    var s :- GetOrCreate(t, conversationId, userId);
    var key := (ToUuid(conversationId).value, ToUuid(userId).value);
    var row := s.row.(isPinned := pin);
    Ok(SettingsResult(s.table[key := row], row))
  }

  /** Setting a flag twice to the same value is the same as setting it
      once, `get_or_create` then reads it back, the other flag is kept, and
      no other user's or conversation's row changes. */
  lemma ToggleLaws(t: SettingsTable, c: Uuid, u: Uuid, mute: bool, pin: bool)
    ensures var t1 := ToggleMute(t, PyUuid(c), PyUuid(u), mute).value.table;
            && ToggleMute(t1, PyUuid(c), PyUuid(u), mute).value.table == t1
            && GetOrCreate(t1, PyUuid(c), PyUuid(u)).value.row.isMuted == mute
            && GetOrCreate(t1, PyUuid(c), PyUuid(u)).value.row.isPinned == GetOrCreate(t, PyUuid(c), PyUuid(u)).value.row.isPinned
            && (forall k :: k != (c, u) ==> (k in t1 <==> k in t) && (k in t ==> t1[k] == t[k]))
    ensures var t2 := TogglePin(t, PyUuid(c), PyUuid(u), pin).value.table;
            && TogglePin(t2, PyUuid(c), PyUuid(u), pin).value.table == t2
            && GetOrCreate(t2, PyUuid(c), PyUuid(u)).value.row.isPinned == pin
            && GetOrCreate(t2, PyUuid(c), PyUuid(u)).value.row.isMuted == GetOrCreate(t, PyUuid(c), PyUuid(u)).value.row.isMuted
            && (forall k :: k != (c, u) ==> (k in t2 <==> k in t) && (k in t ==> t2[k] == t[k]))
  {
  }

  /** Mute and pin are independent: the order of setting them does not
      matter. */
  lemma MutePinCommute(t: SettingsTable, c: Uuid, u: Uuid, mute: bool, pin: bool)
    ensures TogglePin(ToggleMute(t, PyUuid(c), PyUuid(u), mute).value.table, PyUuid(c), PyUuid(u), pin).value.table
         == ToggleMute(TogglePin(t, PyUuid(c), PyUuid(u), pin).value.table, PyUuid(c), PyUuid(u), mute).value.table
  {
  }
}

=== FILE: tables.dfy ===
/** Rows of a database table as a sequence in storage order, with the
    selections the services run on them: first match, filtered rows,
    `ORDER BY` (ascending, stable) and `LIMIT`. */
module Tables {
  import opened Values

  /** The index of the first row satisfying `p`. */
  function FindFirst<T>(rows: seq<T>, p: T -> bool): (r: Option<nat>)
    ensures r.Some? ==> r.value < |rows| && p(rows[r.value])
    ensures r.Some? ==> forall j :: 0 <= j < r.value ==> !p(rows[j])
    ensures r.None? <==> forall j :: 0 <= j < |rows| ==> !p(rows[j])
  {
    if rows == [] then None
    else if p(rows[0]) then Some(0)
    else match FindFirst(rows[1..], p)
      case None => None
      case Some(i) => Some(i + 1)
  }

  /** What `scalar_one_or_none()` finds: no row, the one row (by index), or
      more than one row, which it reports as an error. */
  datatype Lookup = NoRow | OneRow(index: nat) | ManyRows

  predicate Matches<T>(rows: seq<T>, p: T -> bool, i: int) {
    0 <= i < |rows| && p(rows[i])
  }

  /** `scalar_one_or_none()` over the rows satisfying `p`. */
  function OneOrNone<T>(rows: seq<T>, p: T -> bool): (r: Lookup)
    ensures r.NoRow? <==> forall i :: 0 <= i < |rows| ==> !p(rows[i])
    ensures r.OneRow? ==> Matches(rows, p, r.index) && forall j :: Matches(rows, p, j) ==> j == r.index
    ensures r.ManyRows? <==> exists i, j :: i != j && Matches(rows, p, i) && Matches(rows, p, j)
  {
    match FindFirst(rows, p)
    case None => NoRow
    case Some(i) =>
      match FindFirst(rows[i + 1..], p)
      case None =>
        assert forall j :: i < j < |rows| ==> rows[j] == rows[i + 1..][j - i - 1];
        OneRow(i)
      case Some(k) =>
        assert rows[i + 1..][k] == rows[i + 1 + k];
        assert Matches(rows, p, i) && Matches(rows, p, i + 1 + k);
        ManyRows
  }

  /** With at most one matching row (a primary key or a unique pair),
      `scalar_one_or_none()` finds it exactly when it is there. */
  lemma OneOrNoneUnique<T>(rows: seq<T>, p: T -> bool, i: nat)
    requires Matches(rows, p, i)
    requires forall j :: Matches(rows, p, j) ==> j == i
    ensures OneOrNone(rows, p) == OneRow(i)
  {
  }

  /** The rows satisfying `p`, in storage order (`WHERE p`). */
  function Filter<T>(rows: seq<T>, p: T -> bool): (r: seq<T>)
    ensures forall i :: 0 <= i < |r| ==> r[i] in rows
    ensures forall i :: 0 <= i < |rows| && p(rows[i]) ==> rows[i] in r
    ensures forall i :: 0 <= i < |r| ==> p(r[i])
    ensures |r| <= |rows|
    ensures (forall i :: 0 <= i < |rows| ==> !p(rows[i])) ==> r == []
  {
    if rows == [] then []
    else (if p(rows[0]) then [rows[0]] else []) + Filter(rows[1..], p)
  }

  /** A row appended to the table is appended to every selection it meets. */
  lemma {:induction false} FilterAppend<T>(rows: seq<T>, x: T, p: T -> bool)
    ensures Filter(rows + [x], p) == Filter(rows, p) + (if p(x) then [x] else [])
    decreases |rows|
  {
    if rows == [] {
      assert [] + [x] == [x];
      assert [x][1..] == [];
    } else {
      assert (rows + [x])[0] == rows[0];
      assert (rows + [x])[1..] == rows[1..] + [x];
      FilterAppend(rows[1..], x, p);
    }
  }

  /** The first `n` rows (`LIMIT n`). */
  function Take<T>(rows: seq<T>, n: nat): (r: seq<T>)
    ensures |r| == if n < |rows| then n else |rows|
    ensures r == rows[..|r|]
  {
    if n < |rows| then rows[..n] else rows
  }

  predicate SortedBy<T>(s: seq<T>, key: T -> int) {
    forall i, j :: 0 <= i < j < |s| ==> key(s[i]) <= key(s[j])
  }

  /** Put `x` into the sequence `s`, before the first element whose key is
      at least `key(x)`. */
  function Insert<T>(x: T, s: seq<T>, key: T -> int): (r: seq<T>)
    ensures multiset(r) == multiset(s) + multiset{x}
    ensures |r| == |s| + 1
  {
    if s == [] || key(x) <= key(s[0]) then [x] + s
    else
      assert s == [s[0]] + s[1..];
      [s[0]] + Insert(x, s[1..], key)
  }

  /** Inserting into a sorted sequence keeps it sorted. */
  lemma {:induction false} InsertSorted<T>(x: T, s: seq<T>, key: T -> int)
    requires SortedBy(s, key)
    ensures SortedBy(Insert(x, s, key), key)
    decreases |s|
  {
    if s != [] && key(x) > key(s[0]) {
      var rest := Insert(x, s[1..], key);
      InsertSorted(x, s[1..], key);
      assert s == [s[0]] + s[1..];
      assert rest[0] == x || rest[0] == s[1];
      forall i | 0 <= i < |rest| ensures key(s[0]) <= key(rest[i]) {
        assert key(rest[0]) <= key(rest[i]);
      }
    }
  }

  /** `ORDER BY key`, by insertion. */
  function SortBy<T>(s: seq<T>, key: T -> int): (r: seq<T>)
    ensures SortedBy(r, key)
    ensures multiset(r) == multiset(s)
    ensures |r| == |s|
  {
    if s == [] then []
    else
      assert s == [s[0]] + s[1..];
      InsertSorted(s[0], SortBy(s[1..], key), key);
      Insert(s[0], SortBy(s[1..], key), key)
  }

  /** A sorted sequence cut after `n` elements: everything left out has a
      key no smaller than anything kept. */
  lemma TakeSortedKeepsSmallest<T>(s: seq<T>, n: nat, key: T -> int)
    requires SortedBy(s, key)
    ensures SortedBy(Take(s, n), key)
    ensures forall i, j :: 0 <= i < |Take(s, n)| <= j < |s| ==> key(s[i]) <= key(s[j])
  {
  }

  /** `ORDER BY key LIMIT n`: the `n` rows with the smallest keys, in key
      order; when there are no more than `n` rows, all of them. */
  function SortedPage<T>(rows: seq<T>, key: T -> int, n: nat): (r: seq<T>)
    ensures |r| == if n < |rows| then n else |rows|
    ensures SortedBy(r, key)
    ensures multiset(r) <= multiset(rows)
    ensures forall i :: 0 <= i < |r| ==> r[i] in rows
    ensures |rows| <= n ==> multiset(r) == multiset(rows)
  {
    var sorted := SortBy(rows, key);
    var page := Take(sorted, n);
    TakeSortedKeepsSmallest(sorted, n, key);
    assert sorted == page + sorted[|page|..];
    assert multiset(sorted) == multiset(page) + multiset(sorted[|page|..]);
    forall i | 0 <= i < |page| ensures page[i] in rows {
      assert page[i] == sorted[i];
      assert sorted[i] in multiset(sorted);
    }
    page
  }

  /** A row that `ORDER BY key LIMIT n` leaves out has a key no smaller than
      that of any row it keeps. */
  lemma SortedPageKeepsSmallest<T>(rows: seq<T>, key: T -> int, n: nat, x: T)
    requires x in rows && x !in SortedPage(rows, key, n)
    ensures forall y :: y in SortedPage(rows, key, n) ==> key(y) <= key(x)
  {
    var sorted := SortBy(rows, key);
    var page := Take(sorted, n);
    assert x in multiset(sorted);
    var j :| 0 <= j < |sorted| && sorted[j] == x;
    assert j >= |page|;
    TakeSortedKeepsSmallest(sorted, n, key);
    forall y | y in page ensures key(y) <= key(x) {
      var i :| 0 <= i < |page| && page[i] == y;
      assert key(sorted[i]) <= key(sorted[j]);
    }
  }
}

=== FILE: unread_service.dfy ===
/** `UnreadService` (app/services/unread_service.py): one counter per
    (conversation, user), created at zero the first time it is touched. */
module UnreadService {
  import opened Values
  import opened Exceptions
  import opened UuidUtil
  import opened Models

  /** The table after a call and the counter it returns. */
  datatype Counted = Counted(table: UnreadTable, count: int)

  /** Counters are never negative. */
  predicate NonNegative(t: UnreadTable) {
    forall k :: k in t ==> t[k] >= 0
  }

  /** `ensure_entry`: the existing row, or a new row with count 0. */
  function EnsureEntry(t: UnreadTable, conversationId: PyVal, userId: PyVal): (r: Result<Counted>)
    ensures ToUuid(conversationId).Err? ==> r == Err(ToUuid(conversationId).error)
    ensures ToUuid(conversationId).Ok? && ToUuid(userId).Err? ==> r == Err(ToUuid(userId).error)
    ensures r.Ok? ==>
              var key := (ToUuid(conversationId).value, ToUuid(userId).value);
              && key in r.value.table && r.value.table[key] == r.value.count
              && (key in t ==> r.value.table == t)
              && (key !in t ==> r.value.table == t[key := 0] && r.value.count == 0)
    ensures r.Ok? <==> ToUuid(conversationId).Ok? && ToUuid(userId).Ok?
  {
    var c :- ToUuid(conversationId);
    var u :- ToUuid(userId);
    var key := (c, u);
    if key in t then Ok(Counted(t, t[key]))
    else Ok(Counted(t[key := 0], 0))
  }

  /** `increment(conversation, receiver_id)`: one more unread message for
      the receiver; the counter is created first if missing. */
  function Increment(t: UnreadTable, conversation: Conversation, receiverId: PyVal): (r: Result<Counted>)
    ensures r.Ok? <==> ToUuid(receiverId).Ok?
    ensures r.Ok? ==>
              var key := (conversation.id, ToUuid(receiverId).value);
              && r.value.table == t[key := r.value.count]
              && r.value.count == (if key in t then t[key] else 0) + 1
  {
    var u :- ToUuid(receiverId);
    var e := EnsureEntry(t, PyUuid(conversation.id), PyUuid(u)).value;
    var key := (conversation.id, u);
    Ok(Counted(e.table[key := e.count + 1], e.count + 1))
  }

  /** `reset`: the user has read everything in the conversation. */
  function Reset(t: UnreadTable, conversationId: PyVal, userId: PyVal): (r: Result<Counted>)
    ensures r.Ok? <==> ToUuid(conversationId).Ok? && ToUuid(userId).Ok?
    ensures r.Err? ==> r == Err(EnsureEntry(t, conversationId, userId).error)
    ensures r.Ok? ==>
              var key := (ToUuid(conversationId).value, ToUuid(userId).value);
              r.value.table == t[key := 0] && r.value.count == 0
  {
    var e :- EnsureEntry(t, conversationId, userId);
    var key := (ToUuid(conversationId).value, ToUuid(userId).value);
    Ok(Counted(e.table[key := 0], 0))
  }

  /** `get_unread`: the counter, creating it at zero if missing (so a read
      can add a row). */
  function GetUnread(t: UnreadTable, conversationId: PyVal, userId: PyVal): (r: Result<Counted>)
    ensures r.Ok? <==> ToUuid(conversationId).Ok? && ToUuid(userId).Ok?
    ensures r.Ok? ==>
              var key := (ToUuid(conversationId).value, ToUuid(userId).value);
              && r.value.count == (if key in t then t[key] else 0)
              && r.value.table.Keys == t.Keys + {key}
              && forall k :: k in t ==> r.value.table[k] == t[k]
  {
    EnsureEntry(t, conversationId, userId)
  }

  /** Every operation keeps the counters non-negative. */
  lemma UnreadStaysNonNegative(t: UnreadTable, conversation: Conversation, conversationId: PyVal, userId: PyVal)
    requires NonNegative(t)
    ensures EnsureEntry(t, conversationId, userId).Ok? ==> NonNegative(EnsureEntry(t, conversationId, userId).value.table)
    ensures Increment(t, conversation, userId).Ok? ==> NonNegative(Increment(t, conversation, userId).value.table)
    ensures Reset(t, conversationId, userId).Ok? ==> NonNegative(Reset(t, conversationId, userId).value.table)
  {
  }

  /** `n` increments followed by `get_unread` report `n` more than before,
      and a `reset` brings the count back to zero. */
  lemma {:induction false} IncrementThenGet(t: UnreadTable, conversation: Conversation, receiver: Uuid, n: nat)
    ensures var key := (conversation.id, receiver);
            var t' := Repeat(t, conversation, receiver, n);
            && GetUnread(t', PyUuid(conversation.id), PyUuid(receiver)).Ok?
            && GetUnread(t', PyUuid(conversation.id), PyUuid(receiver)).value.count == (if key in t then t[key] else 0) + n
            && Reset(t', PyUuid(conversation.id), PyUuid(receiver)).value.count == 0
            && GetUnread(Reset(t', PyUuid(conversation.id), PyUuid(receiver)).value.table, PyUuid(conversation.id), PyUuid(receiver)).value.count == 0
            && (forall k :: k != key && k in t ==> k in t' && t'[k] == t[k])
  {
    if n > 0 {
      IncrementThenGet(t, conversation, receiver, n - 1);
    }
  }

  /** `n` successive increments for the same receiver. */
  function Repeat(t: UnreadTable, conversation: Conversation, receiver: Uuid, n: nat): (r: UnreadTable)
    ensures (conversation.id, receiver) in r || n == 0
  {
    if n == 0 then t
    else Increment(Repeat(t, conversation, receiver, n - 1), conversation, PyUuid(receiver)).value.table
  }
}

=== FILE: uuid_util.dfy ===
/** `to_uuid` (app/utils/uuid_util.py). */
module UuidUtil {
  import opened Values
  import opened Exceptions

  /** A UUID is returned as it is; anything else is rendered with `str()`
      and parsed, and a failed parse raises `AppException("Invalid UUID: …")`. */
  function ToUuid(v: PyVal): (r: Result<Uuid>)
    ensures v.PyUuid? ==> r == Ok(v.u)
    ensures v.PyNone? ==> r == Err(AppException("Invalid UUID: None"))
    ensures v.PyStr? ==> (r.Ok? <==> IsUuidText(v.s))
    ensures r.Ok? && v.PyStr? ==> WellFormed(r.value) && Str(r.value) == Lowercase(v.s)
    ensures r.Err? ==> r.error == AppException("Invalid UUID: " + Render(v))
  {
    match v
    case PyUuid(u) => Ok(u)
    case _ =>
      assert |Render(PyNone)| == 4;
      assert "Invalid UUID: " + Render(PyNone) == "Invalid UUID: None";
      match ParseUuid(Render(v))
      case Some(u) => Ok(u)
      case None => Err(AppException("Invalid UUID: " + Render(v)))
  }

  /** The canonical text of a UUID is accepted by `to_uuid` and names the
      same UUID. */
  lemma ToUuidOfStr(u: Uuid)
    requires WellFormed(u)
    ensures ToUuid(PyStr(Str(u))) == Ok(u)
  {
    ParseStrRoundTrip(u);
  }
}

=== FILE: values.dfy ===
/** Python values as the chat server sees them: the things it uses as
    dictionary keys, compares with `==`, renders with `str()` and hands to
    `to_uuid`. */
module Values {

  datatype Option<+T> = None | Some(value: T)

  /** A UUID, held as its canonical text (what `str(uuid)` prints):
      32 lower-case hexadecimal digits in 8-4-4-4-12 groups. */
  datatype Uuid = Uuid(canonical: string)

  /** The Python values that reach registry keys, equality tests and
      `to_uuid`. In Python a `str` never equals a `uuid.UUID`, and
      values built with different constructors here are never equal
      either, so Dafny's `==` on `PyVal` is Python's `==` on these values. */
  datatype PyVal = PyStr(s: string) | PyUuid(u: Uuid) | PyNone

  /** `str(u)` for a UUID. */
  function Str(u: Uuid): string {
    u.canonical
  }

  /** `str(v)`. */
  function Render(v: PyVal): string {
    match v
    case PyStr(s) => s
    case PyUuid(u) => Str(u)
    case PyNone => "None"
  }

  predicate IsHyphenPosition(i: int) {
    i == 8 || i == 13 || i == 18 || i == 23
  }

  predicate IsLowerHex(c: char) {
    '0' <= c <= '9' || 'a' <= c <= 'f'
  }

  predicate IsHex(c: char) {
    IsLowerHex(c) || 'A' <= c <= 'F'
  }

  function LowerHex(c: char): (d: char)
    ensures IsHex(c) ==> IsLowerHex(d)
    ensures IsLowerHex(c) ==> d == c
  {
    if 'A' <= c <= 'F' then (c as int + 32) as char else c
  }

  /** The 8-4-4-4-12 layout with hexadecimal digits of either case. */
  predicate IsUuidText(s: string) {
    |s| == 36 &&
    forall i :: 0 <= i < 36 ==> if IsHyphenPosition(i) then s[i] == '-' else IsHex(s[i])
  }

  /** The text `str(uuid)` produces. */
  predicate IsCanonical(s: string) {
    |s| == 36 &&
    forall i :: 0 <= i < 36 ==> if IsHyphenPosition(i) then s[i] == '-' else IsLowerHex(s[i])
  }

  predicate WellFormed(u: Uuid) {
    IsCanonical(u.canonical)
  }

  function Lowercase(s: string): (r: string)
    ensures |r| == |s|
    ensures forall i :: 0 <= i < |s| ==> r[i] == LowerHex(s[i])
  {
    seq(|s|, i requires 0 <= i < |s| => LowerHex(s[i]))
  }

  /** `uuid.UUID(s)`: accepts the 8-4-4-4-12 spelling in either case and
      yields the UUID whose canonical text is the lower-cased input. */
  function ParseUuid(s: string): (r: Option<Uuid>)
    ensures r.Some? <==> IsUuidText(s)
    ensures r.Some? ==> WellFormed(r.value) && Str(r.value) == Lowercase(s)
  {
    if IsUuidText(s) then Some(Uuid(Lowercase(s))) else None
  }

  /** Printing a UUID and parsing the text back gives the same UUID. */
  lemma ParseStrRoundTrip(u: Uuid)
    requires WellFormed(u)
    ensures ParseUuid(Str(u)) == Some(u)
  {
    var s := Str(u);
    assert forall i :: 0 <= i < |s| ==> LowerHex(s[i]) == s[i];
    assert Lowercase(s) == s;
  }

  /** Parsing canonical text and printing the result gives the text back. */
  lemma StrParseRoundTrip(s: string)
    requires IsCanonical(s)
    ensures ParseUuid(s).Some? && Str(ParseUuid(s).value) == s
  {
    assert forall i :: 0 <= i < |s| ==> LowerHex(s[i]) == s[i];
    assert Lowercase(s) == s;
  }

  /** Python's `str.isspace()` characters, which `str.strip()` removes. */
  predicate IsPySpace(c: char) {
    var n := c as int;
    (0x09 <= n <= 0x0D) || (0x1C <= n <= 0x20) || n == 0x85 || n == 0xA0 || n == 0x1680 ||
    (0x2000 <= n <= 0x200A) || n == 0x2028 || n == 0x2029 || n == 0x202F || n == 0x205F ||
    n == 0x3000
  }

  /** `s.strip() == ""`. */
  predicate IsBlank(s: string) {
    forall i :: 0 <= i < |s| ==> IsPySpace(s[i])
  }
}

=== FILE: wire.dfy ===
/** What travels over the sockets: socket handles, the JSON objects the
    server sends, and the fields it reads from an inbound JSON object. */
module Wire {
  import opened Values

  /** An opaque handle to one live WebSocket. */
  datatype Sock = Sock(handle: nat)

  /** A point in time; only the order of timestamps matters. */
  type Timestamp = int

  /** One entry of the `missed_messages` list of `reconnect_success`. */
  datatype MissedMessage = MissedMessage(id: Uuid, content: string, senderId: Uuid, sentAt: Timestamp)

  /** The outbound JSON objects, one constructor per `"event"` value. UUID
      fields stand for their `str()` rendering. `NewMessage.receiverId` is
      absent (`None`) in the variant of app/websocket/handlers/messaging.py,
      which does not send that key. */
  datatype Payload =
    | NewMessage(id: Uuid, senderId: Uuid, receiverId: Option<Uuid>, content: string, sentAt: Timestamp)
    | UnreadUpdate(conversationId: string, unread: int)
    | Notification(kind: string, conversationId: string, fromUserId: Uuid, preview: string, sentAt: Timestamp)
    | MessageDelivered(messageId: Uuid, deliveredAt: Option<Timestamp>)
    | MessageRead(messageId: Uuid, readAt: Option<Timestamp>)
    | ErrorEvent(message: string)
    | ReconnectSuccess(missed: seq<MissedMessage>)
    | ResumeSuccess(conversationId: string)

  /** One successful `send_json(payload)` on socket `to`. */
  datatype Send = Send(to: Sock, payload: Payload)

  /** The keys the handlers read from an inbound JSON object, each as
      `data.get(key)`: a missing key reads as `PyNone`. */
  datatype Data = Data(event: PyVal, content: PyVal, messageId: PyVal, conversationId: PyVal, lastMessageAt: PyVal)

  /** The sockets a trace of sends went to, in order. */
  function Targets(sent: seq<Send>): (t: seq<Sock>)
    ensures |t| == |sent|
    ensures forall i :: 0 <= i < |sent| ==> t[i] == sent[i].to
  {
    seq(|sent|, i requires 0 <= i < |sent| => sent[i].to)
  }

  /** `p` sent to each socket of `order`, in that order. */
  function SendAll(order: seq<Sock>, p: Payload): (sent: seq<Send>)
    ensures |sent| == |order|
    ensures forall i :: 0 <= i < |order| ==> sent[i] == Send(order[i], p)
  {
    seq(|order|, i requires 0 <= i < |order| => Send(order[i], p))
  }

  /** A fan-out goes to the sockets of its order, in that order. */
  lemma TargetsSendAll(order: seq<Sock>, p: Payload)
    ensures Targets(SendAll(order, p)) == order
  {
  }

  /** A fan-out to a non-empty order is the send to its head followed by
      the fan-out to its tail. */
  lemma SendAllCons(order: seq<Sock>, p: Payload)
    requires order != []
    ensures SendAll(order, p) == [Send(order[0], p)] + SendAll(order[1..], p)
  {
    assert forall i :: 1 <= i < |order| ==> order[i] == order[1..][i - 1];
  }

  /** `order` lists every element of `s` exactly once: one way of iterating
      over the set. */
  predicate IsEnumeration(order: seq<Sock>, s: set<Sock>) {
    (forall i, j :: 0 <= i < j < |order| ==> order[i] != order[j]) &&
    (forall x :: x in order ==> x in s) &&
    (forall x :: x in s ==> x in order)
  }

  /** Only the empty sequence enumerates the empty set. */
  lemma EmptyEnumeration(order: seq<Sock>, s: set<Sock>)
    requires IsEnumeration(order, s)
    ensures s == {} ==> order == []
  {
    if order != [] {
      assert order[0] in s;
    }
  }

  /** An enumeration lists as many sockets as the set holds. */
  lemma {:induction false} EnumerationSize(order: seq<Sock>, s: set<Sock>)
    requires IsEnumeration(order, s)
    ensures |order| == |s|
    decreases |order|
  {
    if order == [] {
      assert s == {};
    } else {
      var x := order[0];
      var rest := order[1..];
      forall y | y in rest ensures y in s - {x} {
        var j :| 0 <= j < |rest| && rest[j] == y;
        assert order[j + 1] == y;
      }
      assert forall y :: y in s - {x} ==> y in rest by {
        forall y | y in s - {x} ensures y in rest {
          var j :| 0 <= j < |order| && order[j] == y;
          assert j != 0;
          assert rest[j - 1] == y;
        }
      }
      EnumerationSize(rest, s - {x});
    }
  }
}

=== FILE: ws_chat.dfy ===
/** `websocket_chat` of app/api/v1/ws.py: admit a socket to a
    conversation's room, dispatch its frames one at a time in arrival
    order, and take it out of the registry when the loop ends. */
module WsChat {
  import opened Values
  import opened Exceptions
  import opened UuidUtil
  import opened Wire
  import opened Models
  import opened Tables
  import opened ConnectionManager
  import opened MessageService
  import opened Handlers
  import opened Events
  import CS = ConversationService

  /** How admission ends: the socket is closed, an exception escapes the
      endpoint, or the socket is admitted to `conversation`. */
  datatype Admission = Closed | Escaped(error: Exc) | Admitted(conversation: Conversation)

  /** Lines 16-39. `auth` is the user `get_current_user_ws` authenticates,
      or `None` when it raises; the conversation id is the raw path
      segment. A malformed id is not caught. */
  function Admit(db: Db, auth: Option<Uuid>, path: string): (a: Admission)
    ensures auth.None? ==> a == Closed
    ensures auth.Some? && ToUuid(PyStr(path)).Err? ==> a == Escaped(ToUuid(PyStr(path)).error)
    ensures auth.Some? && ToUuid(PyStr(path)).Ok? && !a.Admitted? ==> a == Closed
    ensures a.Admitted? <==>
              && auth.Some? && ToUuid(PyStr(path)).Ok?
              && CS.GetById(db.conversations, ToUuid(PyStr(path)).value).Some?
              && CS.HasParticipant(CS.GetById(db.conversations, ToUuid(PyStr(path)).value).value, auth.value)
    ensures a.Admitted? ==> a.conversation in db.conversations && a.conversation.id == ToUuid(PyStr(path)).value
  {
    match auth
    case None => Closed
    case Some(user) =>
      match ToUuid(PyStr(path))
      case Err(e) => Escaped(e)
      case Ok(id) =>
        match CS.GetById(db.conversations, id)
        case None => Closed
        case Some(conv) =>
          if CanUserAccessConversation(conv, PyUuid(user)).value then Admitted(conv) else Closed
  }

  /** Lines 41-42: register the socket under the user's string key and in
      the room named by the raw path segment. */
  function Open(r: Registry, ctx: Ctx): (r': Registry)
    ensures Get(r'.activeUsers, UserKey(ctx.user)) == Get(r.activeUsers, UserKey(ctx.user)) + {ctx.ws}
    ensures Get(r'.conversations, Room(ctx)) == Get(r.conversations, Room(ctx)) + {ctx.ws}
    ensures forall k :: k != UserKey(ctx.user) ==> Get(r'.activeUsers, k) == Get(r.activeUsers, k)
    ensures forall k :: k != Room(ctx) ==> Get(r'.conversations, k) == Get(r.conversations, k)
  {
    Join(Connect(r, ctx.ws, UserKey(ctx.user)), ctx.ws, Room(ctx))
  }

  /** One inbound JSON frame, with the environment it is handled in. */
  datatype Frame = Frame(data: Data, env: Env)

  ghost predicate ValidFrames(frames: seq<Frame>) {
    forall i :: 0 <= i < |frames| ==> ValidEnv(frames[i].env)
  }

  /** Lines 44-59: dispatch the frames in order until one raises; the
      exception ends the loop and is swallowed by the caller. */
  function RunLoop(w: World, ctx: Ctx, frames: seq<Frame>): (o: Outcome)
    requires ValidFrames(frames)
    ensures o.world.notif == w.notif
    ensures o.world.reg.activeUsers == w.reg.activeUsers
    ensures o.world.db.unread == w.db.unread
    ensures o.world.db.conversations == w.db.conversations
    ensures |w.db.messages| <= |o.world.db.messages| <= |w.db.messages| + |frames|
    ensures o.world.db.messages[..|w.db.messages|] == w.db.messages
    decreases |frames|
  {
    if frames == [] then Skip(w)
    else
      var o1 := Dispatch(w, ctx, frames[0].data, frames[0].env);
      if o1.raised.Some? then o1
      else
        var rest := RunLoop(o1.world, ctx, frames[1..]);
        assert rest.world.db.messages[..|w.db.messages|] == w.db.messages by {
          assert rest.world.db.messages[..|o1.world.db.messages|][..|w.db.messages|] == o1.world.db.messages[..|w.db.messages|];
        }
        Then(o1, rest)
  }

  lemma ValidFramesAppend(a: seq<Frame>, b: seq<Frame>)
    requires ValidFrames(a) && ValidFrames(b)
    ensures ValidFrames(a + b)
  {
    forall i | 0 <= i < |a + b| ensures ValidEnv((a + b)[i].env) {
      if i >= |a| {
        assert (a + b)[i] == b[i - |a|];
      } else {
        assert (a + b)[i] == a[i];
      }
    }
  }

  /** One step of the loop: the first frame, then the rest if it raised
      nothing. */
  lemma RunLoopCons(w: World, ctx: Ctx, frames: seq<Frame>)
    requires ValidFrames(frames) && frames != []
    ensures var o1 := Dispatch(w, ctx, frames[0].data, frames[0].env);
            && (o1.raised.Some? ==> RunLoop(w, ctx, frames) == o1)
            && (o1.raised.None? ==> RunLoop(w, ctx, frames) == Then(o1, RunLoop(o1.world, ctx, frames[1..])))
  {
  }

  /** Frames are handled one at a time in arrival order: the loop over
      `a + b` is the loop over `a`, followed, if that raised nothing, by
      the loop over `b` from the state `a` left. */
  lemma {:induction false} RunLoopAppend(w: World, ctx: Ctx, a: seq<Frame>, b: seq<Frame>)
    requires ValidFrames(a) && ValidFrames(b)
    ensures ValidFrames(a + b)
    ensures var oa := RunLoop(w, ctx, a);
            && (oa.raised.Some? ==> RunLoop(w, ctx, a + b) == oa)
            && (oa.raised.None? ==> RunLoop(w, ctx, a + b) == Then(oa, RunLoop(oa.world, ctx, b)))
    decreases |a|
  {
    ValidFramesAppend(a, b);
    if a == [] {
      assert a + b == b;
    } else {
      assert (a + b)[0] == a[0];
      assert (a + b)[1..] == a[1..] + b;
      RunLoopCons(w, ctx, a);
      RunLoopCons(w, ctx, a + b);
      var o1 := Dispatch(w, ctx, a[0].data, a[0].env);
      if o1.raised.None? {
        RunLoopAppend(o1.world, ctx, a[1..], b);
        var tail := RunLoop(o1.world, ctx, a[1..]);
        var rest := if tail.raised.None? then RunLoop(tail.world, ctx, b) else tail;
        ThenAssociates(o1, tail, RunLoop(o1.world, ctx, a[1..] + b), rest);
      }
    }
  }

  /** Sequencing outcomes is associative, also when the middle one raised. */
  lemma ThenAssociates(o1: Outcome, tail: Outcome, both: Outcome, rest: Outcome)
    requires o1.raised.None?
    requires tail.raised.Some? ==> both == tail
    requires tail.raised.None? ==> both == Then(tail, rest)
    ensures var oa := Then(o1, tail);
            && (oa.raised.Some? ==> Then(o1, both) == oa)
            && (oa.raised.None? ==> Then(o1, both) == Then(oa, rest))
  {
    if tail.raised.None? {
      assert o1.sent + (tail.sent + rest.sent) == (o1.sent + tail.sent) + rest.sent;
    }
  }

  /** The key the teardown disconnects under: the UUID object as written
      (line 61), or the string form the socket was registered under. */
  datatype TeardownKey = UuidUserKey | StringUserKey

  function DisconnectKey(u: Uuid, key: TeardownKey): PyVal {
    match key
    case UuidUserKey => PyUuid(u)
    case StringUserKey => UserKey(u)
  }

  /** Lines 60-62. */
  function Teardown(r: Registry, ctx: Ctx, key: TeardownKey): (r': Registry)
    ensures Get(r'.conversations, Room(ctx)) == Get(r.conversations, Room(ctx)) - {ctx.ws}
    ensures Get(r'.activeUsers, DisconnectKey(ctx.user, key)) == Get(r.activeUsers, DisconnectKey(ctx.user, key)) - {ctx.ws}
    ensures forall k :: k != Room(ctx) ==> Get(r'.conversations, k) == Get(r.conversations, k)
    ensures forall k :: k != DisconnectKey(ctx.user, key) ==> Get(r'.activeUsers, k) == Get(r.activeUsers, k)
  {
    Leave(Disconnect(r, ctx.ws, DisconnectKey(ctx.user, key)), ctx.ws, Room(ctx))
  }

  /** How a session ends: refused at admission (closed or escaped), with
      nothing registered, or run to the end of its frames and torn down. */
  datatype SessionEnd = Refused(admission: Admission) | Finished(world: World, sent: seq<Send>)

  /** The whole chat session of socket `ws` with teardown key `key`. */
  function SessionWith(w: World, ws: Sock, auth: Option<Uuid>, path: string, frames: seq<Frame>, key: TeardownKey): (s: SessionEnd)
    requires ValidFrames(frames)
    ensures s.Refused? <==> !Admit(w.db, auth, path).Admitted?
    ensures s.Refused? ==> s.admission == Admit(w.db, auth, path)
    ensures s.Finished? ==>
              var ctx := Ctx(ws, auth.value, Admit(w.db, auth, path).conversation, path);
              && ws !in Get(s.world.reg.conversations, PyStr(path))
              && s.world.reg.activeUsers == Disconnect(Connect(w.reg, ws, UserKey(ctx.user)), ws, DisconnectKey(ctx.user, key)).activeUsers
              && s.world.notif == w.notif
              && s.world.db.unread == w.db.unread
  {
    match Admit(w.db, auth, path)
    case Closed => Refused(Closed)
    case Escaped(e) => Refused(Escaped(e))
    case Admitted(conv) =>
      var ctx := Ctx(ws, auth.value, conv, path);
      var w1 := w.(reg := Open(w.reg, ctx));
      var o := RunLoop(w1, ctx, frames);
      Finished(o.world.(reg := Teardown(o.world.reg, ctx, key)), o.sent)
  }

  /** Every user is registered under a string key, as `connect` is always
      called with `str(user.id)`. */
  predicate StringKeyed(m: SockMap) {
    forall k :: k in m ==> k.PyStr?
  }

  /** Finding, as written: the teardown disconnects under the UUID object
      while the socket was registered under the string, so the closed
      socket stays among the user's active sockets for good. */
  lemma SessionLeaksSocket(w: World, ws: Sock, auth: Option<Uuid>, path: string, frames: seq<Frame>)
    requires ValidFrames(frames)
    requires StringKeyed(w.reg.activeUsers)
    requires Admit(w.db, auth, path).Admitted?
    ensures var s := SessionWith(w, ws, auth, path, frames, UuidUserKey);
            && s.Finished?
            && ws in Get(s.world.reg.activeUsers, UserKey(auth.value))
            && s.world.reg.activeUsers == Connect(w.reg, ws, UserKey(auth.value)).activeUsers
  {
    var r1 := Connect(w.reg, ws, UserKey(auth.value));
    assert r1.activeUsers.Keys == w.reg.activeUsers.Keys + {UserKey(auth.value)};
    assert PyUuid(auth.value) !in r1.activeUsers;
  }

  /** The evidently intended session: disconnecting under the string key
      the socket was registered under gives the user's registrations back
      exactly as they were before the session. */
  lemma SessionRestoresActiveUsers(w: World, ws: Sock, auth: Option<Uuid>, path: string, frames: seq<Frame>)
    requires ValidFrames(frames)
    requires NoEmptyEntry(w.reg.activeUsers)
    requires Admit(w.db, auth, path).Admitted?
    requires ws !in Get(w.reg.activeUsers, UserKey(auth.value))
    ensures var s := SessionWith(w, ws, auth, path, frames, StringUserKey);
            && s.Finished?
            && s.world.reg.activeUsers == w.reg.activeUsers
            && ws !in Get(s.world.reg.conversations, PyStr(path))
  {
    AddDiscardRoundTrip(w.reg.activeUsers, UserKey(auth.value), ws);
  }

  /** `websocket_chat` as written. */
  function Session(w: World, ws: Sock, auth: Option<Uuid>, path: string, frames: seq<Frame>): (s: SessionEnd)
    requires ValidFrames(frames)
    ensures s.Refused? <==> !Admit(w.db, auth, path).Admitted?
    ensures s.Finished? ==> ws !in Get(s.world.reg.conversations, PyStr(path)) && s.world.notif == w.notif
  {
    SessionWith(w, ws, auth, path, frames, UuidUserKey)
  }

  /** `websocket_chat` with the evidently intended teardown. */
  function SessionCorrected(w: World, ws: Sock, auth: Option<Uuid>, path: string, frames: seq<Frame>): (s: SessionEnd)
    requires ValidFrames(frames)
    ensures s.Refused? <==> !Admit(w.db, auth, path).Admitted?
    ensures s.Finished? ==> ws !in Get(s.world.reg.activeUsers, UserKey(auth.value))
  {
    SessionWith(w, ws, auth, path, frames, StringUserKey)
  }
}

=== FILE: ws_notifications.dfy ===
/** `websocket_notifications` of app/api/v1/ws_notifications.py: a user's
    notification socket is registered while the connection lasts. Inbound
    text is read and ignored; a failed authentication raises in the
    dependency, before anything is registered. */
module WsNotifications {
  import opened Values
  import opened Wire
  import opened ConnectionManager
  import NM = NotificationManager
  import opened Handlers

  /** Line 18: register the socket under `str(user.id)`, if authenticated. */
  function Open(n: SockMap, ws: Sock, auth: Option<Uuid>): (n': SockMap)
    ensures auth.None? ==> n' == n
    ensures auth.Some? ==> Get(n', UserKey(auth.value)) == Get(n, UserKey(auth.value)) + {ws}
    ensures auth.Some? ==> forall k :: k != UserKey(auth.value) ==> Get(n', k) == Get(n, k)
  {
    match auth
    case None => n
    case Some(user) => NM.Connect(n, ws, UserKey(user))
  }

  /** Lines 23-26: unregister it under the same key when the read loop ends. */
  function Close(n: SockMap, ws: Sock, user: Uuid): (n': SockMap)
    ensures Get(n', UserKey(user)) == Get(n, UserKey(user)) - {ws}
    ensures forall k :: k != UserKey(user) ==> Get(n', k) == Get(n, k) && (k in n' <==> k in n)
  {
    NM.Disconnect(n, ws, UserKey(user))
  }

  /** Registration and removal use the same key, so a session that opens
      and closes with nothing in between leaves the registry as it found
      it. */
  lemma OpenCloseRoundTrip(n: SockMap, ws: Sock, user: Uuid)
    requires NoEmptyEntry(n)
    requires ws !in Get(n, UserKey(user))
    ensures Close(Open(n, ws, Some(user)), ws, user) == n
  {
    AddDiscardRoundTrip(n, UserKey(user), ws);
  }

  /** Once closed, the socket receives no further notification for that
      user. */
  lemma ClosedSocketIsNotNotified(w: World, ws: Sock, user: Uuid, p: Payload, env: Env)
    requires ValidEnv(env)
    ensures var o := Notify(w.(notif := Close(w.notif, ws, user)), UserKey(user), p, env);
            forall i :: 0 <= i < |o.sent| ==> o.sent[i].to != ws
  {
    var w' := w.(notif := Close(w.notif, ws, user));
    var o := Notify(w', UserKey(user), p, env);
    forall i | 0 <= i < |o.sent| ensures o.sent[i].to != ws {
      assert Targets(o.sent)[i] in Targets(o.sent);
    }
  }
}
